=== FILE: README.md ===
# sumstats_to_chisq2 in Dafny

A model of `sumstats_to_chisq2.py` from the LD Score regression tools (ldsc). The script turns a
GWAS summary-statistics file into a normalised chi-square table.

The model covers how the script decides which columns to read, which rows to keep and how to
name the alleles:

- **Header normalisation.** `clean_header` and the synonym table `COLNAMES_CONVERSION` are in
  module `Headers`. `convert_colname` is `Headers.ConvertColname`.
- **Column-name flags.** The flags (`--snp`, `--N-col`, …, `--info-list`, `--signed-sumstats`)
  fill the `flag_colnames` registry, with its two conflict checks. This is module `Flags`.
- **Column selection.** Module `Columns` chooses the columns read (`usecols`), prunes competing
  signed statistics and runs the required-column checks.
- **Row filter.** `filter_snps` with `filter_verbose` is module `QualityFilter`. The `drops`
  counters are a class updated in place. The method narrows its mask step by step and is proved
  against a specification of the rows kept.
- **Reading.** Module `Chunks` reads in chunks or all at once. The chunked read restricts each
  chunk to `--merge-alleles`, filters each chunk unless `--filter-finally` is given, and
  concatenates.
- **Sample size and chi-square.** Module `SampleSize` chooses the sample size, runs the low-N
  block and converts P to CHISQ.
- **Allele block.** Module `Alleles` capitalises, keeps A/C/G/T, drops strand-ambiguous SNPs,
  orients to INC_ALLELE/DEC_ALLELE by the signed statistic and reconciles with `--merge-alleles`
  by a left join.
- **Whole script.** Module `Convert` chains the stages and projects the written columns.

Supporting modules:

- `Table` holds the frame: a set of canonical columns, a number of INFO columns and a sequence of
  rows whose fields are `Option`s, where a missing cell (`.` / NaN) is `None`.
- `Seqs` holds sequence utilities: filters, boolean masks, subsequences and the failing list
  comprehension `TryMap`.
- `Wrappers` and `Errors` hold `Option`, `Result` and one error constructor per kind of exception
  the script raises.

Numbers are Dafny `real`s, which are exact where the script uses floating point. The lookup
tables `STRAND_AMBIGUOUS` and `MATCH_ALLELES` of the `ldscore.sumstats` module are not part of
this model. They are parameters of type `map<string, bool>`, and a key they lack raises, as a
Python `KeyError` would. The chi-square inverse survival function and the parsing of a number
from text are also parameters.

Where the code does not do what its messages or comments say, the model follows the code:

- With no `--signed-sumstats` and more than one signed statistic among the columns, every branch
  of lines 485-490 reads the undefined name `cnames`. The model raises `UndefinedName("cnames")`.
  One of OR, Z and BETA is always present then, so this always fails (`Columns.ManySignedFails`).
- Line 494 writes `['OR' 'Z','LOR','BETA']`, which is the list `ORZ`, `LOR`, `BETA`. It is
  compared against raw header names, so an `OR` or `Z` column is never dropped
  (`Columns.PruneWithOverride`).
- The sample-size check of lines 503-504 tests the lower-case names `N_cas`/`N_con`. Conversion
  only produces `N_CAS`/`N_CON`, so case/control columns never satisfy it.
- The case/control branch of lines 620-630 reads `dat.N_cas`. The frame's column is `N_CAS`, so
  the branch raises before the prevalence rescale. The rescale itself is modelled separately
  (`SampleSize.Rescaled`) and proved to give each row its cases divided by `P_max`.
- The low-N block (lines 639-648) reads the undefined `args.min_n` when `--n-min` is given.
  Otherwise it builds a mask it never applies, so the frame is unchanged (`SampleSize.LowN`).
- The `--merge-alleles` block (lines 759-794) does not swap alleles into the reference's
  orientation. It keeps the rows whose allele quadruple `MATCH_ALLELES` accepts. It blanks N,
  CHISQ, INC_ALLELE and DEC_ALLELE of every other reference row.
- The error of lines 796-797 (no A1/A2 columns) cannot be raised: the header checks of lines
  514-515 already demand both (`Convert.AlleleColumnsAlwaysPresent`).
- The written column list of line 800 names MAF. No step creates a MAF column, and INFO is
  dropped by `filter_snps`, so the written columns are always SNP, N, CHISQ and, unless
  `--no-alleles`, INC_ALLELE and DEC_ALLELE (`Convert.OutputColumnsFixed`).
- In chunked mode, duplicate identifiers are only removed within a chunk. The same SNP in two
  chunks survives twice, while reading the whole file keeps it once
  (`Chunks.DuplicateAcrossChunks`).

## Model

| member | source | states |
|---|---|---|
| Headers.CleanHeader | sumstats_to_chisq2.py:28-35 | each character of the header maps to `_` when it is `-` or `.`, and to its upper case otherwise; so the result has the same length and no `-`, `.` or lower-case letter |
| Headers.CleanHeaderIdempotent | sumstats_to_chisq2.py:28-35 | cleaning a cleaned header changes nothing |
| Headers.DottedKeysUnreachable | sumstats_to_chisq2.py:86 | no cleaned header equals the table keys `GC.PVALUE` or `GC.ZSCORE`, so those entries are never used |
| Headers.ConversionTargetsCanonical | sumstats_to_chisq2.py:70-141 | every value of the synonym table is a canonical column name |
| Headers.CanonicalFixed | sumstats_to_chisq2.py:70-141 | every canonical name is a key of the table and maps to itself |
| Headers.DirectionNotCanonical | sumstats_to_chisq2.py:95 | INC_ALLELE and DEC_ALLELE are not canonical targets, so no file header is read as a direction column |
| Headers.ConvertColname | sumstats_to_chisq2.py:20-25 | the result is canonical; an override wins when the cleaned name has one; otherwise the name converts exactly when the table knows its cleaned form, to the table's value, and raises KeyError if not |
| Headers.Split | sumstats_to_chisq2.py:417 | `str.split`: at least one piece, no piece holds the separator, and joining the pieces gives back the string |
| Flags.Register | sumstats_to_chisq2.py:334-341 | a registration fails exactly when the cleaned header is already claimed or the table gives it a meaning the flag may not take; otherwise exactly one key is added, mapped to the flag's target, and the other keys keep their values |
| Flags.SignedNull | sumstats_to_chisq2.py:431-447 | the null value of `--signed-sumstats` exists only when the flag was given |
| Flags.SignedNullDefined | sumstats_to_chisq2.py:431-447 | once every block has run, a given `--signed-sumstats` has exactly two comma-separated parts, and the null value exists and is the number parsed from the second part |
| Flags.Steps | sumstats_to_chisq2.py:333-447 | the registration blocks of the flags that were given, in the script's order; what they claim is stated by `StepsTargets` |
| Flags.RegisterAll | sumstats_to_chisq2.py:333-447 | runs the blocks in order and stops at the first failure; its success and result are stated by `RegisterAllSucceeds`, `RegisterAllResult` and `RegisterAllTarget` |
| Flags.StepsTargets | sumstats_to_chisq2.py:333-447 | every registration block claims one of SNP, N, N_CAS, N_CON, A1, A2, P, FRQ, INFO, SIGNED_SUMSTAT |
| Flags.RegisterAllSucceeds | sumstats_to_chisq2.py:333-447 | the blocks all succeed exactly when no cleaned header is claimed twice and none has a forbidden meaning in the table |
| Flags.RegisterAllResult | sumstats_to_chisq2.py:333-447 | a successful registry has as keys exactly the claimed headers, and earlier entries are kept |
| Flags.RegisterAllTarget | sumstats_to_chisq2.py:333-447 | after success, each block's cleaned header maps to that block's target |
| Flags.RegisterAllValues | sumstats_to_chisq2.py:333-447 | the registry stores only targets of the blocks |
| Flags.RegistryCanonical | sumstats_to_chisq2.py:333-447 | the registry built from the flags maps headers only to canonical names |
| Flags.BuildFlagColnames | sumstats_to_chisq2.py:333-447 | the block-by-block construction of `flag_colnames` gives the registry specified by `RegisterAll` |
| Columns.UseCols | sumstats_to_chisq2.py:461-472 | `usecols`: the headers a flag claims, then the headers the table knows whose meaning no flag claimed, or the KeyError of a flag naming a missing header; stated by `UseColsFails` and `SelectedIff` |
| Columns.SelectColumns | sumstats_to_chisq2.py:461-472 | the first pass, check loop and second pass compute `UseCols` |
| Columns.FirstPassFinds | sumstats_to_chisq2.py:461-467 | a flag's header is among the first-pass headers exactly when some header of the file cleans to it |
| Columns.UseColsFails | sumstats_to_chisq2.py:464-467 | selection raises exactly when some flag names a header the file lacks |
| Columns.SelectedIff | sumstats_to_chisq2.py:461-472 | a header is selected exactly when a flag claims it, or the table knows it and no flag claims the column it means |
| Columns.SelectedOnce | sumstats_to_chisq2.py:470-472 | a file with distinct headers has no header selected twice |
| Columns.SelectedConvert | sumstats_to_chisq2.py:473 | a selected header converts to its flag's target when a flag claims it, else to its table meaning |
| Columns.ConvertAll | sumstats_to_chisq2.py:473 | converts every name with the flags as overrides, propagating the first KeyError; stated by `ConvertAllIff` and `ConvertAllValues` |
| Columns.ConvertAllIff | sumstats_to_chisq2.py:473 | converting the list fails exactly when some name fails |
| Columns.ConvertAllValues | sumstats_to_chisq2.py:497 | a successful conversion converts name by name, in order |
| Columns.PruneSigned | sumstats_to_chisq2.py:474-495 | the signed-statistic pruning: NameError on `cnames` without `--signed-sumstats` and several signed columns, removal of the listed raw headers with it; stated by `ManySignedFails` and `PruneWithOverride` |
| Columns.ManySignedFails | sumstats_to_chisq2.py:475-490 | without `--signed-sumstats`, pruning raises exactly when more than one signed statistic is present, and otherwise keeps the columns |
| Columns.PruneWithOverride | sumstats_to_chisq2.py:492-495 | with `--signed-sumstats`, a column is dropped exactly when it is named ORZ, LOR or BETA and not claimed by a flag; OR, Z and flagged columns always stay |
| Columns.Required | sumstats_to_chisq2.py:503-515 | the required-column checks in the script's order, each with its own error; stated by `RequiredIff` |
| Columns.RequiredIff | sumstats_to_chisq2.py:503-515 | the checks pass exactly when there is a sample size (an N column, `--N`, or both `--N-cas` and `--N-con`), a P column, a signed statistic or `--signed-sumstats`, a SNP column and both allele columns |
| Columns.FrameColumnsIff | sumstats_to_chisq2.py:586-590 | the frame can be read exactly when every name is a column label and only INFO repeats; its columns are the labels named and its INFO count the number of INFO names |
| QualityFilter.Dedup | sumstats_to_chisq2.py:159 | `drop_duplicates('SNP')`: the first row of each identifier; stated by `DedupSubseq`, `DedupDistinct` and `DedupKeepsFirst` |
| QualityFilter.DedupFrom | sumstats_to_chisq2.py:159 | deduplication never adds rows |
| QualityFilter.DedupSubseq | sumstats_to_chisq2.py:159 | deduplication keeps rows in their order and invents none |
| QualityFilter.DedupDistinct | sumstats_to_chisq2.py:159 | no identifier survives twice |
| QualityFilter.DedupKeepsFirst | sumstats_to_chisq2.py:159 | the first row of every identifier survives |
| QualityFilter.DedupOnlyFirst | sumstats_to_chisq2.py:159 | a surviving row is the first row with its identifier, and that identifier was not seen before |
| QualityFilter.DedupIgnoresAbsent | sumstats_to_chisq2.py:159 | identifiers absent from the rows do not change what survives |
| QualityFilter.DedupAppend | sumstats_to_chisq2.py:159 | deduplicating a concatenation keeps the first part's survivors and the second part's rows with identifiers new to both |
| QualityFilter.DedupDisjoint | sumstats_to_chisq2.py:159 | parts with no identifier in common deduplicate part by part |
| QualityFilter.Fold | sumstats_to_chisq2.py:222 | `min(FRQ, 1-FRQ)` is one of the two and no larger than either |
| QualityFilter.InfoSum | sumstats_to_chisq2.py:197-199 | the row's INFO sum is missing exactly when every INFO entry is missing |
| QualityFilter.MaskAnd | sumstats_to_chisq2.py:181-223 | `ii & jj` of two criteria masks is the mask of both criteria lists |
| QualityFilter.PMaskInRange | sumstats_to_chisq2.py:177-181 | narrowing by `P <= 1` only when some P exceeds 1 gives the same mask as always narrowing |
| QualityFilter.FilterMoreCriteria | sumstats_to_chisq2.py:185-224 | adding conditions never keeps more rows |
| QualityFilter.Measure | sumstats_to_chisq2.py:158-224 | the step sizes never grow, and the last one is the number of rows kept |
| QualityFilter.MeasureMasks | sumstats_to_chisq2.py:177-233 | each step size is the count of the mask the script builds, and indexing by the final mask gives the rows kept |
| QualityFilter.FilterVerbose | sumstats_to_chisq2.py:145-153 | raises exactly when no SNP remains |
| QualityFilter.EndStep | sumstats_to_chisq2.py:160-164 | a step raises exactly when verbose and empty; otherwise its removals are charged to its own counter and no other |
| QualityFilter.Report | sumstats_to_chisq2.py:158-229 | the reports raise exactly when verbose and some step empties the frame; the counters are charged step by step up to that step |
| QualityFilter.ChargeStepsAdds | sumstats_to_chisq2.py:163-229 | charging the steps one by one adds the per-step removals to the counters |
| QualityFilter.Kept | sumstats_to_chisq2.py:158-233 | the rows that survive deduplication, then the missing-value step and every P, INFO and FRQ condition; `KeptSound` shows each survivor is the first row with its SNP and passes every test, `KeptComplete` the converse, `KeptOrderedAndUnique` the order |
| QualityFilter.Filtered | sumstats_to_chisq2.py:156-234 | the frame returned: the kept rows with INFO and FRQ removed from columns and rows; stated by `FilteredUnique` |
| QualityFilter.Outcome | sumstats_to_chisq2.py:145-234 | the filtered frame, or the verbose error when some step leaves no SNP; stated by `RaisesIffNothingRemains` |
| QualityFilter.FilterSnps | sumstats_to_chisq2.py:156-234 | returns the specified outcome (the rows kept, INFO and FRQ dropped, or the verbose error) and adds the removals of the steps run to `drops` |
| QualityFilter.Drops.constructor | sumstats_to_chisq2.py:551-557 | all five counters start at zero |
| QualityFilter.RaisesIffNothingRemains | sumstats_to_chisq2.py:145-234 | without verbose reporting the filter never raises; with it, it raises exactly when no row survives |
| QualityFilter.ChargedAccountsForAll | sumstats_to_chisq2.py:163-229 | the five counters add up to the input length minus the number kept |
| QualityFilter.SingleInfoColumn | sumstats_to_chisq2.py:194-196 | with one INFO column, a row passes exactly when its INFO is present and above the minimum |
| QualityFilter.KeptSound | sumstats_to_chisq2.py:156-234 | every surviving row is the first input row with its SNP (deduplication runs before the missing-value step), has no missing value outside INFO, 0 < P <= 1, INFO sum above the minimum times the INFO count, and folded FRQ above the MAF minimum |
| QualityFilter.CriteriaMeaning | sumstats_to_chisq2.py:177-223 | what meeting every condition says about P, INFO and FRQ |
| QualityFilter.KeptOrderedAndUnique | sumstats_to_chisq2.py:159-233 | the survivors keep the input order and no identifier survives twice |
| QualityFilter.FilteredUnique | sumstats_to_chisq2.py:156-234 | the returned frame has one row per identifier |
| QualityFilter.KeptComplete | sumstats_to_chisq2.py:156-233 | a row that is the first with its identifier, has no missing values and meets every condition survives |
| Chunks.RestrictMeaning | sumstats_to_chisq2.py:559-561 | without `--merge-alleles` every row stays; with it, a row stays exactly when it is an input row whose SNP is in the reference, and the rows kept are a subsequence of the input |
| Chunks.Part | sumstats_to_chisq2.py:558-566 | one chunk's contribution: its rows restricted to the reference, then filtered unless `--filter-finally`; stated by `PartsFilterWhole` and `PartsRestrictWhole` |
| Chunks.RestrictAppend | sumstats_to_chisq2.py:561 | restricting a concatenation restricts each part |
| Chunks.ChunkedRead | sumstats_to_chisq2.py:536-583 | the chunked reading: no chunk raises, the concatenation is filtered finally when asked, and an empty result raises; related to the whole reading by `ChunkedMatchesWhole` |
| Chunks.WholeRead | sumstats_to_chisq2.py:585-600 | the whole-file reading: restrict to the reference, raise when that leaves nothing, then filter verbosely; related to the chunked reading by `ChunkedMatchesWhole` |
| Chunks.ReadChunks | sumstats_to_chisq2.py:551-583 | the chunk loop gives the specified chunked reading, and its counters are the sum of the per-chunk charges (zero with `--filter-finally`) |
| Chunks.PartsFilterWhole | sumstats_to_chisq2.py:558-570 | without `--filter-finally`, chunks sharing no identifier concatenate to the filter of the concatenation |
| Chunks.PartsRestrictWhole | sumstats_to_chisq2.py:558-580 | with `--filter-finally`, the concatenated chunks are the restriction of the concatenation |
| Chunks.ChunkedMatchesWhole | sumstats_to_chisq2.py:536-600 | reading in chunks gives what reading the whole file gives, with `--filter-finally` or when no identifier is in two chunks |
| Chunks.DuplicateAcrossChunks | sumstats_to_chisq2.py:558-600 | one SNP in two chunks survives twice when chunks are filtered one by one, and once when the file is read whole |
| Chunks.DedupRepeated | sumstats_to_chisq2.py:159 | deduplicating a repeated row leaves one |
| Chunks.FilteredAppend | sumstats_to_chisq2.py:156-234 | filtering two parts with no identifier in common is filtering each |
| Chunks.ChargesAccountForRemovals | sumstats_to_chisq2.py:558-577 | the chunk counters add up to the rows restricted minus the rows kept |
| SampleSize.ChooseSampleSize | sumstats_to_chisq2.py:610-636 | `--N`, then `--N-cas` plus `--N-con`, then the case/control columns, then an N column, else the error; stated by `SampleSizeChosen` and `CaseControlColumnsRaise` |
| SampleSize.SampleSizeChosen | sumstats_to_chisq2.py:611-636 | the choice succeeds exactly when `--N`, or `--N-cas` and `--N-con`, is given, or an N column exists without both case/control columns; then every row's N is `--N`, else their sum, else its own |
| SampleSize.CaseControlColumnsRaise | sumstats_to_chisq2.py:620-623 | with case and control columns and no sample-size options, the script raises the attribute error |
| SampleSize.Max | sumstats_to_chisq2.py:626 | `N.max()` is an upper bound attained by some row |
| SampleSize.AtMax | sumstats_to_chisq2.py:626 | the rows at the maximum total form a non-empty mask |
| SampleSize.RescaledCases | sumstats_to_chisq2.py:624-629 | `N*P/P_max` is defined exactly when `P_max` is not zero, and equals each row's cases divided by `P_max` |
| SampleSize.UniformMaxPrevalence | sumstats_to_chisq2.py:625-627 | with one prevalence on every row, `P_max` is that prevalence |
| SampleSize.UniformPrevalenceKept | sumstats_to_chisq2.py:624-629 | with one positive prevalence, the rescale keeps every row's total |
| SampleSize.LowN | sumstats_to_chisq2.py:639-648 | the block never changes the frame, and raises exactly when the filter applies and `--n-min` is given |
| SampleSize.ToChiSquare | sumstats_to_chisq2.py:651-652 | P becomes CHISQ in the columns and the row count is kept |
| SampleSize.ChiSquareRows | sumstats_to_chisq2.py:651-652 | each row's CHISQ is `isf` of its P, nothing else changes, and a decreasing `isf` gives smaller p-values larger statistics |
| Alleles.Capitalised | sumstats_to_chisq2.py:657-659 | upper-cases A1 and A2 of every row; stated by `CapitalisedMeaning` |
| Alleles.CapitalisedMeaning | sumstats_to_chisq2.py:657-659 | capitalising fails exactly when an allele is missing; otherwise only the alleles change, and an allele is then A/C/G/T exactly when it was one in either case |
| Alleles.EitherCase | sumstats_to_chisq2.py:657-663 | an upper-cased allele is A/C/G/T exactly when the original is one in either case |
| Alleles.KeepBases | sumstats_to_chisq2.py:661-672 | keeps the rows whose two alleles are nucleotides; stated by `KeepBasesMeaning` |
| Alleles.KeepBasesMeaning | sumstats_to_chisq2.py:661-672 | the A/C/G/T filter raises exactly when no row has two nucleotides, and otherwise keeps exactly those rows in order |
| Alleles.Lookup | sumstats_to_chisq2.py:675 | a successful lookup has one value per key |
| Alleles.LookupMeaning | sumstats_to_chisq2.py:675 | the lookup succeeds exactly when every key is in the table, gives each key's value, and otherwise names a missing key |
| Alleles.DropAmbiguous | sumstats_to_chisq2.py:674-683 | looks up each allele pair in the strand table and keeps the unambiguous rows; stated by `DropAmbiguousMeaning` |
| Alleles.DropAmbiguousMeaning | sumstats_to_chisq2.py:674-683 | the strand filter raises KeyError exactly when a pair is missing from the table, raises exactly when every pair is ambiguous, and otherwise keeps exactly the unambiguous rows in order |
| Alleles.StrandKept | sumstats_to_chisq2.py:675-676 | indexing by `~strand` keeps exactly the unambiguous rows |
| Alleles.ChooseStatistic | sumstats_to_chisq2.py:686-743 | with `--signed-sumstats`, SIGNED_SUMSTAT with the given null value, raising exactly when its column or null value is missing; otherwise the first present of OR (null 1), Z, BETA, LOG_ODDS (null 0); none exactly when no signed column exists |
| Alleles.Oriented | sumstats_to_chisq2.py:745-756 | INC_ALLELE and DEC_ALLELE replace A1, A2 and the statistic's column, row count kept |
| Alleles.Orient | sumstats_to_chisq2.py:745-756 | the in-place swap over the flip mask gives the specified orientation |
| Alleles.Flips | sumstats_to_chisq2.py:694-738 | `flip = stat < null` on the chosen statistic, false when it is missing; used by `OrientedMeaning` |
| Alleles.OrientedMeaning | sumstats_to_chisq2.py:694-756 | INC and DEC are A1 and A2 in some order; A1 is INC exactly when there is no statistic, its value is missing or it is not below the null; every other field is kept |
| Alleles.LeftJoin | sumstats_to_chisq2.py:766 | the left merge of the frame onto the reference; stated by `LeftJoinFollowsReference` and `JoinedOne` |
| Alleles.LeftJoinFollowsReference | sumstats_to_chisq2.py:766 | the left join on unique SNPs gives one row per reference row, in reference order: the matching frame row with the reference alleles, or a row of missing values |
| Alleles.JoinedOne | sumstats_to_chisq2.py:766 | each reference row joins to exactly one row |
| Alleles.JoinSnps | sumstats_to_chisq2.py:766 | the joined SNP column is the reference's |
| Alleles.JoinKeyed | sumstats_to_chisq2.py:766-768 | every joined row with an N has all four alleles, so its match key exists |
| Alleles.Matches | sumstats_to_chisq2.py:767-780 | a completed match mask has one entry per joined row |
| Alleles.LookUpMatches | sumstats_to_chisq2.py:767-780 | the row-by-row lookup gives the specified match mask |
| Alleles.MatchesMeaning | sumstats_to_chisq2.py:767-780 | the lookup fails exactly when a row with an N has a key missing from the table; otherwise a row matches exactly when it has an N and the table accepts its key |
| Alleles.BlankDiscordant | sumstats_to_chisq2.py:782-785 | matched rows are unchanged; the others lose N, CHISQ, INC_ALLELE and DEC_ALLELE |
| Alleles.Reconcile | sumstats_to_chisq2.py:767-789 | the in-place reconciliation gives the specified result |
| Alleles.ReconciledMeaning | sumstats_to_chisq2.py:767-789 | raises exactly on a missing key, raises exactly when no row with an N matches, and otherwise keeps matched rows and blanks the rest, SNP for SNP |
| Alleles.Unambiguated | sumstats_to_chisq2.py:674-683 | the strand filter keeps columns and only rows of its input, each unambiguous |
| Alleles.Based | sumstats_to_chisq2.py:661-672 | every row after the A/C/G/T filter has two nucleotide alleles |
| Alleles.Cleaned | sumstats_to_chisq2.py:655-683 | the cleaning keeps columns, and every surviving row has two nucleotides forming an unambiguous pair |
| Alleles.Directed | sumstats_to_chisq2.py:685-794 | orientation and merge succeed only with a chosen statistic, and leave the oriented columns |
| Alleles.AlleleBlock | sumstats_to_chisq2.py:655-797 | the whole allele block, or its error; stated by `AlleleBlockColumns`, `AllelesNamed` and `BlockFollowsReference` |
| Alleles.AlleleBlockColumns | sumstats_to_chisq2.py:655-797 | the block keeps SNP, N, CHISQ and INFO, and replaces A1 and A2 by INC_ALLELE and DEC_ALLELE unless `--no-alleles` |
| Alleles.OrientedColsKeep | sumstats_to_chisq2.py:754-756 | the orientation keeps SNP, N, CHISQ and INFO, adds INC_ALLELE and DEC_ALLELE and removes A1 and A2 |
| Alleles.CleanedSubseq | sumstats_to_chisq2.py:661-683 | the cleaning only drops rows, keeping the order of the SNPs that remain |
| Alleles.BlockFollowsReference | sumstats_to_chisq2.py:759-794 | with `--merge-alleles` and unique SNPs, the block's rows are the reference's SNPs in its order |
| Alleles.RunAlleleBlock | sumstats_to_chisq2.py:655-797 | the block as the script runs it gives the specified block |
| Alleles.AllelesNamed | sumstats_to_chisq2.py:655-756 | without `--merge-alleles`, every output row has two nucleotide alleles named INC and DEC, forming an unambiguous pair in one of its orders |
| Alleles.Merged | sumstats_to_chisq2.py:759-794 | join, reconcile and drop A1 and A2; stated by `MergedFollowsReference` and `BlockFollowsReference` |
| Alleles.MergedFollowsReference | sumstats_to_chisq2.py:761-794 | the merged rows are the reference's SNPs in its order |
| Convert.HeaderColumns | sumstats_to_chisq2.py:330-515 | the header stage: registry, selection, conversion, pruning and checks, or the first error; stated by `HeaderCanonical`, `HeaderChecked` and `NoDirectionHeader` |
| Convert.StagedFrom | sumstats_to_chisq2.py:523-652 | reading, then the sample-size and chi-square stages; stated by `StagedColumns` and `StagedUnique` |
| Convert.Prepared | sumstats_to_chisq2.py:610-652 | sample size, low-N block, chi-square; stated by `PreparedColumns` and `PreparedSnps` |
| Convert.Converted | sumstats_to_chisq2.py:330-801 | the whole conversion and its written columns, or its error; stated by `OutputColumnsFixed` and `MergeFollowsReference` |
| Convert.ChooseColumns | sumstats_to_chisq2.py:330-515 | the header stage as run gives the specified converted names |
| Convert.Convert | sumstats_to_chisq2.py:330-801 | the script body gives the specified conversion or its error |
| Convert.HeaderChecked | sumstats_to_chisq2.py:503-515 | a header that passes the checks has SNP, P, A1 and A2 columns |
| Convert.ReadingReady | sumstats_to_chisq2.py:503-561 | the header stage leaves what the chunk loop needs |
| Convert.ReadColumns | sumstats_to_chisq2.py:536-600 | reading drops INFO and FRQ from the columns |
| Convert.PreparedColumns | sumstats_to_chisq2.py:610-652 | the sample-size and chi-square stages add N and turn P into CHISQ |
| Convert.StagedColumns | sumstats_to_chisq2.py:523-652 | the frame entering the allele block has the read columns less INFO, FRQ and P, plus N and CHISQ |
| Convert.FrameHasNamed | sumstats_to_chisq2.py:586-590 | the frame has SNP, A1, A2, INC_ALLELE or DEC_ALLELE exactly when the converted names include it |
| Convert.HeaderCanonical | sumstats_to_chisq2.py:473-497 | every kept column has a canonical name |
| Convert.PrunedWithin | sumstats_to_chisq2.py:475-495 | pruning only removes columns |
| Convert.AlleleColumnsAlwaysPresent | sumstats_to_chisq2.py:796-797 | a frame reaching the allele block always has A1 and A2, so this error is unreachable |
| Convert.AllelesStaged | sumstats_to_chisq2.py:514-655 | A1 and A2 read from the file are still present at the allele block |
| Convert.OutputOfStaged | sumstats_to_chisq2.py:800-801 | the written columns of a frame read with SNP, A1 and A2 |
| Convert.OutputOfCols | sumstats_to_chisq2.py:800-801 | the projection of a frame with SNP, N and CHISQ and no INFO |
| Convert.NoDirectionHeader | sumstats_to_chisq2.py:470-497 | no file header is read as INC_ALLELE or DEC_ALLELE |
| Convert.OutputColumnsFixed | sumstats_to_chisq2.py:800-801 | the written columns are SNP, N, CHISQ, then INC_ALLELE and DEC_ALLELE unless `--no-alleles` |
| Convert.OutputFrom | sumstats_to_chisq2.py:800-801 | the same, from the converted names |
| Convert.ReadUnique | sumstats_to_chisq2.py:580-600 | reading the whole file, or filtering the concatenation finally, leaves one row per SNP |
| Convert.PreparedSnps | sumstats_to_chisq2.py:610-652 | the sample-size and chi-square stages leave the SNP column alone |
| Convert.StagedUnique | sumstats_to_chisq2.py:523-652 | the frame entering the allele block has one row per SNP, read whole or filtered finally |
| Convert.MergeFrom | sumstats_to_chisq2.py:759-794 | from the converted names, the merged output lists the reference's SNPs in its order |
| Convert.MergeFollowsReference | sumstats_to_chisq2.py:761-794 | with `--merge-alleles`, the written rows are the reference's SNPs, one per reference line and in its order |

## Left out

- Argument parsing, the options header, logging, progress dots and timing are left out: they
  print and do not decide anything. The summary statistics written after the table (mean
  chi-square, lambda GC, genome-wide significant SNPs) are left out because they are
  floating-point reporting.
- File opening, compression detection (`get_compression`), `read_csv` and the gzip/pickle output
  are left out as I/O. The header is a `seq<string>` and the file's rows a sequence of chunks.
  `--pickle` only changes the output format.
- The `--merge-alleles` header check of line 528 is left out. It is input validation whose
  `1 | np.all(...)` precedence makes its condition unclear. The file is taken as a sequence of
  (SNP, A1, A2) rows with upper-cased alleles.
- `--daner` (lines 455-457 and 602-608) is taken as absent. It reads sample sizes out of header
  text with `lstrip`.
- `chi2.isf` is the parameter `isf`. Parsing the `--signed-sumstats` null value with `float` is
  the parameter `parseFloat`.
- `STRAND_AMBIGUOUS` and `MATCH_ALLELES` are the parameters `ambiguous` and `matching`.
- The low-N threshold (`quantile`) is left out. The mask it feeds is never applied, so only the
  error and the unchanged frame are modelled.
- The median "may be mislabeled" warnings, the `convert_objects` casts, the INFO, FRQ and P
  range warnings, and the `astype('float')` cast of P are left out. They only log, or they
  convert text to numbers that the model already holds as `real`.
- Headers.Upper: only ASCII a-z are raised to upper case, as Python 2 `str.upper` does on byte
  strings. Locale-dependent letters are not modelled.
- QualityFilter.Fold: exact reals replace doubles, so the tests of P, INFO and FRQ can decide
  differently at their boundaries. With FRQ 0.99 and `--maf-min 0.01`, the script computes
  `1-0.99` as 0.010000000000000009 and keeps the row (line 223); the model folds to exactly 0.01
  and drops it.
- QualityFilter.InfoSum: a row whose INFO entries are all missing has no sum and fails the INFO
  test. The model does not follow later pandas versions, where such a sum is 0.
- Columns.FrameColumnsIff: a non-INFO column named twice among the converted names is an error
  (`DuplicateColumn`). When two different headers convert to one canonical name (`N` and
  `WEIGHT`, say), lines 560 and 590 rename nothing: the frame keeps both columns under one label,
  and what follows depends on the column (a second P makes the dtype test of line 170 fail, a
  second N can be written twice by line 800). A row record cannot hold two columns with the same
  name, so those outcomes are not modelled.
- Chunks.ChunkedMatchesWhole: stated only with `--filter-finally` or for chunks that share no SNP
  identifier. Otherwise the two readings differ (`Chunks.DuplicateAcrossChunks`).
- Convert.MergeFollowsReference: stated only when the frame is filtered as a whole, with no chunks
  or with `--filter-finally`. Chunked filtering can keep one SNP twice, and the left join then
  repeats that reference row.
- Convert.Convert: the chunks are given. The model does not re-derive them from `--chunksize`,
  and every row is taken to hold one INFO entry per INFO column selected by the header stage.

=== FILE: alleles.dfy ===
/**
 * The allele block (sumstats_to_chisq2.py:655-797): capitalise, keep A/C/G/T SNPs, drop
 * strand-ambiguous SNPs, name the trait-increasing allele from a signed statistic, and
 * reconcile with the --merge-alleles reference. The strand and match tables of the
 * sumstats module are parameters.
 */
module Alleles {
  import opened Wrappers
  import opened Errors
  import opened Table
  import opened Seqs
  import Headers
  import QualityFilter

  // ---------------------------------------------------------------------------------------
  // Lines 657-672.

  predicate HasAlleles(r: Row) {
    r.a1.Some? && r.a2.Some?
  }

  /** `apply(lambda y: y.upper())` on A1 and A2; a missing allele has no `upper` and raises. */
  function Capitalised(t: Table): Result<Table, Error> {
    if exists i :: 0 <= i < |t.rows| && !HasAlleles(t.rows[i]) then Err(MissingAllele)
    else Ok(t.(rows := seq(|t.rows|, i requires 0 <= i < |t.rows| && HasAlleles(t.rows[i]) =>
      t.rows[i].(a1 := Some(Headers.Upper(t.rows[i].a1.value)), a2 := Some(Headers.Upper(t.rows[i].a2.value))))))
  }

  predicate IsBase(s: string) {
    s in ["A", "T", "C", "G"]
  }

  /** The row passes `A1.isin(['A','T','C','G']) & A2.isin(...)`; a missing allele does not. */
  predicate BothBases(r: Row) {
    HasAlleles(r) && IsBase(r.a1.value) && IsBase(r.a2.value)
  }

  /** Lines 661-672: keep the SNPs coded A/C/G/T; raise when there are none. */
  function KeepBases(t: Table): Result<Table, Error> {
    var ii := Mask(t.rows, BothBases);
    if Count(ii) == 0 then Err(NotACGT) else Ok(t.(rows := Select(t.rows, ii)))
  }

  /**
   * The capitalised alleles are the originals with lower-case letters raised, so after
   * capitalising, an allele passes the A/C/G/T test exactly when it is one nucleotide letter
   * in either case.
   */
  lemma CapitalisedMeaning(t: Table)
    ensures Capitalised(t).Ok? <==> forall i :: 0 <= i < |t.rows| ==> HasAlleles(t.rows[i])
    ensures Capitalised(t).Ok? ==>
      var r := Capitalised(t).value;
      && r.cols == t.cols && |r.rows| == |t.rows|
      && forall i :: 0 <= i < |t.rows| ==>
           && HasAlleles(r.rows[i])
           && r.rows[i].(a1 := t.rows[i].a1, a2 := t.rows[i].a2) == t.rows[i]
           && (IsBase(r.rows[i].a1.value) <==> t.rows[i].a1.value in ["A", "T", "C", "G", "a", "t", "c", "g"])
           && (IsBase(r.rows[i].a2.value) <==> t.rows[i].a2.value in ["A", "T", "C", "G", "a", "t", "c", "g"])
  {
    if Capitalised(t).Ok? {
      var r := Capitalised(t).value;
      forall i | 0 <= i < |t.rows|
        ensures HasAlleles(r.rows[i])
        ensures r.rows[i].a1.value == Headers.Upper(t.rows[i].a1.value)
        ensures r.rows[i].a2.value == Headers.Upper(t.rows[i].a2.value)
        ensures r.rows[i].(a1 := t.rows[i].a1, a2 := t.rows[i].a2) == t.rows[i]
      {
      }
      forall i | 0 <= i < |t.rows|
        ensures IsBase(r.rows[i].a1.value) <==> t.rows[i].a1.value in ["A", "T", "C", "G", "a", "t", "c", "g"]
        ensures IsBase(r.rows[i].a2.value) <==> t.rows[i].a2.value in ["A", "T", "C", "G", "a", "t", "c", "g"]
      {
        EitherCase(t.rows[i].a1.value);
        EitherCase(t.rows[i].a2.value);
      }
    }
  }

  lemma EitherCase(s: string)
    ensures IsBase(Headers.Upper(s)) <==> s in ["A", "T", "C", "G", "a", "t", "c", "g"]
  {
    var u := Headers.Upper(s);
    if |s| == 1 {
      assert u == [Headers.UpperChar(s[0])];
      assert s == [s[0]];
    } else {
      assert |u| == |s|;
    }
  }

  /** The A/C/G/T filter keeps, in order, exactly the rows with two nucleotide alleles. */
  lemma KeepBasesMeaning(t: Table)
    ensures KeepBases(t).Err? <==> forall i :: 0 <= i < |t.rows| ==> !BothBases(t.rows[i])
    ensures KeepBases(t).Ok? ==>
      && KeepBases(t).value == t.(rows := Filter(t.rows, BothBases))
      && forall i :: 0 <= i < |KeepBases(t).value.rows| ==> BothBases(KeepBases(t).value.rows[i])
  {
    SelectMask(t.rows, BothBases);
    FilterEmpty(t.rows, BothBases);
    var kept := Filter(t.rows, BothBases);
    if KeepBases(t).Ok? {
      assert forall i :: 0 <= i < |kept| ==> kept[i] in kept;
    }
  }

  // ---------------------------------------------------------------------------------------
  // Lines 674-683.

  /** `keys.apply(lambda y: table[y])`: the looked-up values, or the first key that is missing. */
  function Lookup(keys: seq<string>, table: map<string, bool>): (r: Result<seq<bool>, string>)
    ensures r.Ok? ==> |r.value| == |keys|
  {
    if keys == [] then Ok([])
    else if keys[0] !in table then Err(keys[0])
    else match Lookup(keys[1..], table)
      case Err(k) => Err(k)
      case Ok(rest) => Ok([table[keys[0]]] + rest)
  }

  /** The lookup succeeds exactly when every key is in the table, and then reads each in turn. */
  lemma {:induction false} LookupMeaning(keys: seq<string>, table: map<string, bool>)
    ensures Lookup(keys, table).Ok? <==> forall i :: 0 <= i < |keys| ==> keys[i] in table
    ensures Lookup(keys, table).Ok? ==>
      |Lookup(keys, table).value| == |keys| &&
      forall i :: 0 <= i < |keys| ==> Lookup(keys, table).value[i] == table[keys[i]]
    ensures Lookup(keys, table).Err? ==> Lookup(keys, table).error in keys && Lookup(keys, table).error !in table
  {
    if keys != [] && keys[0] in table {
      LookupMeaning(keys[1..], table);
      assert forall i :: 1 <= i < |keys| ==> keys[i] == keys[1..][i - 1];
    }
  }

  function Pair(r: Row): string
    requires HasAlleles(r)
  {
    r.a1.value + r.a2.value
  }

  function Pairs(rows: seq<Row>): (keys: seq<string>)
    requires forall i :: 0 <= i < |rows| ==> HasAlleles(rows[i])
    ensures |keys| == |rows| && forall i :: 0 <= i < |rows| ==> keys[i] == Pair(rows[i])
  {
    seq(|rows|, i requires 0 <= i < |rows| && HasAlleles(rows[i]) => Pair(rows[i]))
  }

  /** `~strand`. */
  function Not(m: seq<bool>): (r: seq<bool>)
    ensures |r| == |m| && forall i :: 0 <= i < |m| ==> r[i] == !m[i]
  {
    seq(|m|, i requires 0 <= i < |m| => !m[i])
  }

  /**
   * Drop the strand-ambiguous SNPs: look every allele pair up in `ambiguous` (a pair it
   * lacks raises), keep the rest, raise when none is left.
   */
  function DropAmbiguous(t: Table, ambiguous: map<string, bool>): Result<Table, Error>
    requires forall i :: 0 <= i < |t.rows| ==> HasAlleles(t.rows[i])
  {
    match Lookup(Pairs(t.rows), ambiguous)
    case Err(k) => Err(StrandKeyMissing(k))
    case Ok(strand) =>
      var kept := Select(t.rows, Not(strand));
      if kept == [] then Err(AllStrandAmbiguous) else Ok(t.(rows := kept))
  }

  predicate Unambiguous(r: Row, ambiguous: map<string, bool>) {
    HasAlleles(r) && Pair(r) in ambiguous && !ambiguous[Pair(r)]
  }

  /**
   * The strand filter raises on a pair missing from the table, raises when every SNP is
   * ambiguous, and otherwise keeps exactly the unambiguous rows in order.
   */
  lemma DropAmbiguousMeaning(t: Table, ambiguous: map<string, bool>)
    requires forall i :: 0 <= i < |t.rows| ==> HasAlleles(t.rows[i])
    ensures (DropAmbiguous(t, ambiguous).Err? && DropAmbiguous(t, ambiguous).error.StrandKeyMissing?) <==>
      exists i :: 0 <= i < |t.rows| && Pair(t.rows[i]) !in ambiguous
    ensures DropAmbiguous(t, ambiguous) == Err(AllStrandAmbiguous) <==>
      (forall i :: 0 <= i < |t.rows| ==> Pair(t.rows[i]) in ambiguous && ambiguous[Pair(t.rows[i])])
    ensures DropAmbiguous(t, ambiguous).Ok? ==>
      DropAmbiguous(t, ambiguous).value == t.(rows := Filter(t.rows, (r: Row) => Unambiguous(r, ambiguous)))
  {
    var keys := Pairs(t.rows);
    LookupMeaning(keys, ambiguous);
    match Lookup(keys, ambiguous)
    case Err(k) =>
      var i :| 0 <= i < |keys| && keys[i] == k;
    case Ok(strand) =>
      StrandKept(t, ambiguous, strand);
  }

  /** After a successful lookup, the rows kept are the unambiguous ones, and none is kept only when all are ambiguous. */
  lemma StrandKept(t: Table, ambiguous: map<string, bool>, strand: seq<bool>)
    requires forall i :: 0 <= i < |t.rows| ==> HasAlleles(t.rows[i])
    requires Lookup(Pairs(t.rows), ambiguous) == Ok(strand)
    ensures Select(t.rows, Not(strand)) == Filter(t.rows, (r: Row) => Unambiguous(r, ambiguous))
    ensures Select(t.rows, Not(strand)) == [] <==>
      (forall i :: 0 <= i < |t.rows| ==> Pair(t.rows[i]) in ambiguous && ambiguous[Pair(t.rows[i])])
  {
    var keys := Pairs(t.rows);
    LookupMeaning(keys, ambiguous);
    var p := (r: Row) => Unambiguous(r, ambiguous);
    SelectMask(t.rows, p);
    assert Not(strand) == Mask(t.rows, p);
    var kept := Filter(t.rows, p);
    if kept == [] {
      forall i | 0 <= i < |t.rows| ensures ambiguous[Pair(t.rows[i])] {
        FilterMember(t.rows, p, t.rows[i]);
      }
    } else {
      assert kept[0] in t.rows;
    }
  }

  // ---------------------------------------------------------------------------------------
  // Lines 685-743.

  /** A signed statistic and the value that means "no effect". */
  datatype Statistic = Statistic(col: Col, neutral: real)

  /**
   * The statistic that orients the alleles: --signed-sumstats when it was passed at all,
   * else OR, Z, BETA, LOG_ODDS in that order, else none (A1 is taken as increasing). When
   * --signed-sumstats is the empty string no column was registered under SIGNED_SUMSTAT
   * and no null value was bound, so `dat.SIGNED_SUMSTAT` or the null value raises.
   */
  function ChooseStatistic(cols: set<Col>, signedGiven: bool, signedNull: Option<real>): (r: Result<Option<Statistic>, Error>)
    ensures r.Ok? && r.value.Some? ==> r.value.value.col in cols && r.value.value.col in {SIGNED_SUMSTAT, OR, Z, BETA, LOG_ODDS}
    ensures r.Err? <==> signedGiven && (SIGNED_SUMSTAT !in cols || signedNull.None?)
    ensures r.Ok? && r.value.None? <==>
      !signedGiven && OR !in cols && Z !in cols && BETA !in cols && LOG_ODDS !in cols
    ensures signedGiven && r.Ok? ==> r.value == Some(Statistic(SIGNED_SUMSTAT, signedNull.value))
    ensures !signedGiven && OR in cols ==> r == Ok(Some(Statistic(OR, 1.0)))
    ensures !signedGiven && OR !in cols && Z in cols ==> r == Ok(Some(Statistic(Z, 0.0)))
    ensures !signedGiven && OR !in cols && Z !in cols && BETA in cols ==> r == Ok(Some(Statistic(BETA, 0.0)))
    ensures !signedGiven && OR !in cols && Z !in cols && BETA !in cols && LOG_ODDS in cols ==>
      r == Ok(Some(Statistic(LOG_ODDS, 0.0)))
  {
    if signedGiven then
      if SIGNED_SUMSTAT !in cols then Err(MissingAttribute("SIGNED_SUMSTAT"))
      else if signedNull.None? then Err(UndefinedName("SIGNED_SUMSTAT_NULL_VALUE"))
      else Ok(Some(Statistic(SIGNED_SUMSTAT, signedNull.value)))
    else if OR in cols then Ok(Some(Statistic(OR, 1.0)))
    else if Z in cols then Ok(Some(Statistic(Z, 0.0)))
    else if BETA in cols then Ok(Some(Statistic(BETA, 0.0)))
    else if LOG_ODDS in cols then Ok(Some(Statistic(LOG_ODDS, 0.0)))
    else Ok(None)
  }

  /** The row's value in a statistic column. */
  function Value(r: Row, c: Col): Option<real> {
    match c
    case SIGNED_SUMSTAT => r.signed
    case OR => r.oddsRatio
    case Z => r.z
    case BETA => r.beta
    case LOG_ODDS => r.logOdds
    case _ => None
  }

  /** `flip = stat < null`; a missing value compares false. */
  predicate Flips(r: Row, s: Option<Statistic>) {
    s.Some? && Value(r, s.value.col).Some? && Value(r, s.value.col).value < s.value.neutral
  }

  /** The columns after the orientation: the statistic, A1 and A2 go, INC_ALLELE and DEC_ALLELE come. */
  function OrientedCols(cols: set<Col>, s: Option<Statistic>): set<Col> {
    cols - (if s.Some? then {s.value.col} else {}) - {A1, A2} + {INC_ALLELE, DEC_ALLELE}
  }

  /** Lines 745-756 on one row: INC_ALLELE is A1 and DEC_ALLELE A2, swapped where it flips. */
  function OrientedRow(r: Row, flip: bool): Row {
    r.(inc := if flip then r.a2 else r.a1, dec := if flip then r.a1 else r.a2, a1 := None, a2 := None)
  }

  function Oriented(t: Table, s: Option<Statistic>): (r: Table)
    ensures r.cols == OrientedCols(t.cols, s) && r.infoCols == t.infoCols && |r.rows| == |t.rows|
  {
    Table(OrientedCols(t.cols, s), t.infoCols,
      seq(|t.rows|, i requires 0 <= i < |t.rows| => OrientedRow(t.rows[i], Flips(t.rows[i], s))))
  }

  /**
   * Lines 745-756: copy A1 and A2 into INC_ALLELE and DEC_ALLELE, overwrite the flipped
   * entries in place, then drop the statistic and A1, A2.
   */
  method Orient(t: Table, s: Option<Statistic>) returns (r: Table)
    ensures r == Oriented(t, s)
  {
    var flip := Mask(t.rows, (row: Row) => Flips(row, s));
    var rows := seq(|t.rows|, i requires 0 <= i < |t.rows| => t.rows[i].(inc := t.rows[i].a1, dec := t.rows[i].a2));
    if Count(flip) > 0 {
      var i := 0;
      while i < |rows|
        invariant 0 <= i <= |rows| == |t.rows|
        invariant forall j :: 0 <= j < i ==> rows[j] == t.rows[j].(inc := if flip[j] then t.rows[j].a2 else t.rows[j].a1,
                                                                     dec := if flip[j] then t.rows[j].a1 else t.rows[j].a2)
        invariant forall j :: i <= j < |rows| ==> rows[j] == t.rows[j].(inc := t.rows[j].a1, dec := t.rows[j].a2)
      {
        if flip[i] {
          rows := rows[i := rows[i].(inc := t.rows[i].a2, dec := t.rows[i].a1)];
        }
        i := i + 1;
      }
    } else {
      assert forall j :: 0 <= j < |flip| ==> !flip[j] by {
        forall j | 0 <= j < |flip| ensures !flip[j] {
          if flip[j] {
            NoneCounted(flip, j);
          }
        }
      }
    }
    rows := seq(|rows|, i requires 0 <= i < |rows| => rows[i].(a1 := None, a2 := None));
    r := Table(OrientedCols(t.cols, s), t.infoCols, rows);
  }

  lemma {:induction false} NoneCounted(m: seq<bool>, j: nat)
    requires j < |m| && m[j]
    ensures Count(m) > 0
  {
    if j > 0 {
      NoneCounted(m[1..], j - 1);
    }
  }

  /**
   * The orientation names the two alleles of every row as increasing and decreasing: A1 is
   * the increasing allele exactly when the statistic is present and not below its null, or
   * absent; every other field but the dropped A1, A2 is kept.
   */
  lemma OrientedMeaning(t: Table, s: Option<Statistic>)
    ensures forall i :: 0 <= i < |t.rows| ==>
      var before, after := t.rows[i], Oriented(t, s).rows[i];
      && multiset{after.inc, after.dec} == multiset{before.a1, before.a2}
      && (before.a1 != before.a2 ==>
           (after.inc == before.a1 <==> s.None? || Value(before, s.value.col).None? ||
                                         Value(before, s.value.col).value >= s.value.neutral))
      && after.(inc := before.inc, dec := before.dec, a1 := before.a1, a2 := before.a2) == before
  {
  }

  // ---------------------------------------------------------------------------------------
  // Lines 758-797.

  /** A row of the --merge-alleles file, its alleles upper-cased (lines 532-533). */
  datatype Reference = Reference(snp: string, a1: string, a2: string)

  /** The rows of the frame with this SNP, in frame order. */
  function Matching(ref: Reference, rows: seq<Row>): seq<Row> {
    Filter(rows, (r: Row) => r.snp == Some(ref.snp))
  }

  /** A reference row with no partner in the frame: every frame column is missing. */
  function Unmatched(ref: Reference): Row {
    EmptyRow(Some(ref.snp)).(a1 := Some(ref.a1), a2 := Some(ref.a2))
  }

  /** The frame row joined to the reference row: A1 and A2 come from the reference. */
  function Attach(r: Row, ref: Reference): Row {
    r.(a1 := Some(ref.a1), a2 := Some(ref.a2))
  }

  function Joined(ref: Reference, rows: seq<Row>): seq<Row> {
    var m := Matching(ref, rows);
    if m == [] then [Unmatched(ref)]
    else seq(|m|, i requires 0 <= i < |m| => Attach(m[i], ref))
  }

  /** `pd.merge(reference, dat, how='left', on='SNP', sort=False)`. */
  function LeftJoin(refs: seq<Reference>, rows: seq<Row>): seq<Row> {
    if refs == [] then [] else Joined(refs[0], rows) + LeftJoin(refs[1..], rows)
  }

  /**
   * With one frame row per SNP, the join has the reference's SNPs in the reference's order:
   * row i carries the reference alleles and, when the frame has that SNP, that frame row's
   * fields, otherwise missing values.
   */
  lemma {:induction false} LeftJoinFollowsReference(refs: seq<Reference>, rows: seq<Row>)
    requires Distinct(Snps(rows))
    ensures |LeftJoin(refs, rows)| == |refs|
    ensures forall i :: 0 <= i < |refs| ==> JoinedRow(refs[i], rows, LeftJoin(refs, rows)[i])
  {
    if refs != [] {
      LeftJoinFollowsReference(refs[1..], rows);
      JoinedOne(refs[0], rows);
      JoinStep(refs, rows, Joined(refs[0], rows), LeftJoin(refs[1..], rows));
    }
  }

  /** The induction step of `LeftJoinFollowsReference`, with the joined pieces named. */
  lemma JoinStep(refs: seq<Reference>, rows: seq<Row>, head: seq<Row>, rest: seq<Row>)
    requires refs != []
    requires |head| == 1 && JoinedRow(refs[0], rows, head[0])
    requires |rest| == |refs| - 1
    requires forall i :: 0 <= i < |rest| ==> JoinedRow(refs[1..][i], rows, rest[i])
    ensures forall i :: 0 <= i < |refs| ==> JoinedRow(refs[i], rows, (head + rest)[i])
  {
    forall i | 0 <= i < |refs| ensures JoinedRow(refs[i], rows, (head + rest)[i]) {
      if i > 0 {
        assert (head + rest)[i] == rest[i - 1] && refs[i] == refs[1..][i - 1];
      }
    }
  }

  /**
   * The joined row for one reference row: the frame row with that SNP, carrying the
   * reference alleles, or, when the frame has no such row, a row with only the reference's
   * SNP and alleles.
   */
  predicate JoinedRow(ref: Reference, rows: seq<Row>, x: Row) {
    || (exists j :: 0 <= j < |rows| && rows[j].snp == Some(ref.snp) && x == Attach(rows[j], ref))
    || ((forall j :: 0 <= j < |rows| ==> rows[j].snp != Some(ref.snp)) && x == Unmatched(ref))
  }

  lemma JoinedOne(ref: Reference, rows: seq<Row>)
    requires Distinct(Snps(rows))
    ensures |Joined(ref, rows)| == 1 && JoinedRow(ref, rows, Joined(ref, rows)[0])
  {
    var p := (r: Row) => r.snp == Some(ref.snp);
    var m := Matching(ref, rows);
    if m == [] {
      forall j | 0 <= j < |rows| ensures rows[j].snp != Some(ref.snp) {
        FilterMember(rows, p, rows[j]);
      }
    } else {
      FilterMember(rows, p, m[0]);
      var j :| 0 <= j < |rows| && rows[j] == m[0];
      AtMostOne(rows, p, ref.snp);
    }
  }

  /** Distinct SNPs leave at most one frame row per reference SNP. */
  lemma {:induction false} AtMostOne(rows: seq<Row>, p: Row -> bool, snp: string)
    requires Distinct(Snps(rows))
    requires forall r :: p(r) <==> r.snp == Some(snp)
    ensures |Filter(rows, p)| <= 1
  {
    if rows != [] {
      assert Distinct(Snps(rows[1..])) by {
        assert forall i :: 0 <= i < |rows| - 1 ==> Snps(rows[1..])[i] == Snps(rows)[i + 1];
      }
      AtMostOne(rows[1..], p, snp);
      if p(rows[0]) {
        assert Filter(rows[1..], p) == [] by {
          if Filter(rows[1..], p) != [] {
            FilterMember(rows[1..], p, Filter(rows[1..], p)[0]);
          }
        }
      }
    }
  }

  /** A joined row whose N is present: it came from the frame, so it has all four alleles. */
  predicate Keyed(r: Row) {
    r.n.Some? ==> r.inc.Some? && r.dec.Some? && r.a1.Some? && r.a2.Some?
  }

  /** `INC_ALLELE + DEC_ALLELE + A1 + A2`, the key into the match table. */
  function Key(r: Row): string
    requires r.inc.Some? && r.dec.Some? && r.a1.Some? && r.a2.Some?
  {
    r.inc.value + r.dec.value + r.a1.value + r.a2.value
  }

  /** `jj`: matched rows, or None when a looked-up key is not in the table (lines 767-781). */
  function Matches(rows: seq<Row>, table: map<string, bool>): (jj: Option<seq<bool>>)
    requires forall i :: 0 <= i < |rows| ==> Keyed(rows[i])
    ensures jj.Some? ==> |jj.value| == |rows|
  {
    if rows == [] then Some([])
    else
      assert Keyed(rows[0]);
      if rows[0].n.Some? && Key(rows[0]) !in table then None
      else match Matches(rows[1..], table)
      case None => None
      case Some(rest) => Some([rows[0].n.Some? && table[Key(rows[0])]] + rest)
  }

  /** Lines 782-785: the statistic and the alleles of a discordant row become missing. */
  function Discard(r: Row): Row {
    r.(n := None, chisq := None, inc := None, dec := None)
  }

  function Reconciled(rows: seq<Row>, table: map<string, bool>): Result<seq<Row>, Error>
    requires forall i :: 0 <= i < |rows| ==> Keyed(rows[i])
  {
    match Matches(rows, table)
    case None => Err(AlleleMatchFailed)
    case Some(jj) =>
      if Count(jj) == 0 then Err(AllDiscordant)
      else Ok(seq(|rows|, i requires 0 <= i < |rows| => if jj[i] then rows[i] else Discard(rows[i])))
  }

  /**
   * Lines 765-792: look up each row with an N, then null the statistic and the alleles of
   * every row that is unmatched or discordant, raising when none is left.
   */
  method Reconcile(rows: seq<Row>, table: map<string, bool>) returns (r: Result<seq<Row>, Error>)
    requires forall i :: 0 <= i < |rows| ==> Keyed(rows[i])
    ensures r == Reconciled(rows, table)
  {
    var jj := LookUpMatches(rows, table);
    if jj.None? {
      return Err(AlleleMatchFailed);
    }
    var out := BlankDiscordant(rows, jj.value);
    assert out == seq(|rows|, i requires 0 <= i < |rows| => if jj.value[i] then rows[i] else Discard(rows[i]));
    if Count(jj.value) == 0 {
      r := Err(AllDiscordant);
    } else {
      r := Ok(out);
    }
  }

  /** Lines 767-781: `alleles.apply(lambda y: MATCH_ALLELES[y])` on the rows with an N. */
  method LookUpMatches(rows: seq<Row>, table: map<string, bool>) returns (jj: Option<seq<bool>>)
    requires forall i :: 0 <= i < |rows| ==> Keyed(rows[i])
    ensures jj == Matches(rows, table)
  {
    var found: seq<bool> := [];
    var i := 0;
    assert rows[0..] == rows;
    if Matches(rows, table).Some? {
      assert [] + Matches(rows, table).value == Matches(rows, table).value;
    }
    while i < |rows|
      invariant 0 <= i <= |rows| && |found| == i
      invariant Matches(rows, table) == Fill(found, Matches(rows[i..], table))
      decreases |rows| - i
    {
      assert Keyed(rows[i]);
      if rows[i].n.Some? && Key(rows[i]) !in table {
        MatchesStops(rows, table, i);
        return None;
      }
      var b := rows[i].n.Some? && table[Key(rows[i])];
      MatchesStep(rows, table, i, found);
      found := found + [b];
      i := i + 1;
    }
    assert rows[i..] == [];
    assert found + [] == found;
    jj := Some(found);
  }

  /** A key missing from the table ends the lookup. */
  lemma MatchesStops(rows: seq<Row>, table: map<string, bool>, i: nat)
    requires forall k :: 0 <= k < |rows| ==> Keyed(rows[k])
    requires i < |rows| && Keyed(rows[i]) && rows[i].n.Some? && Key(rows[i]) !in table
    ensures Matches(rows[i..], table) == None
  {
    assert rows[i..][0] == rows[i];
  }

  /** Row i's match flag joins those before it. */
  lemma MatchesStep(rows: seq<Row>, table: map<string, bool>, i: nat, found: seq<bool>)
    requires forall k :: 0 <= k < |rows| ==> Keyed(rows[k])
    requires i < |rows| && Keyed(rows[i]) && !(rows[i].n.Some? && Key(rows[i]) !in table)
    ensures Fill(found, Matches(rows[i..], table)) ==
      Fill(found + [rows[i].n.Some? && table[Key(rows[i])]], Matches(rows[i + 1..], table))
  {
    var rest := rows[i..];
    assert rest[0] == rows[i] && rest[1..] == rows[i + 1..];
    match Matches(rows[i + 1..], table) {
      case None =>
      case Some(more) =>
        var b := rows[i].n.Some? && table[Key(rows[i])];
        assert Matches(rest, table) == Some([b] + more);
        assert found + ([b] + more) == (found + [b]) + more;
    }
  }

  /** Lines 782-785: `dat.N[~jj] = nan` and the same for CHISQ, INC_ALLELE, DEC_ALLELE. */
  method BlankDiscordant(rows: seq<Row>, jj: seq<bool>) returns (out: seq<Row>)
    requires |jj| == |rows|
    ensures |out| == |rows|
    ensures forall i :: 0 <= i < |rows| ==> out[i] == if jj[i] then rows[i] else Discard(rows[i])
  {
    out := rows;
    var i := 0;
    while i < |out|
      invariant 0 <= i <= |out| == |rows|
      invariant forall j :: 0 <= j < i ==> out[j] == if jj[j] then rows[j] else Discard(rows[j])
      invariant forall j :: i <= j < |out| ==> out[j] == rows[j]
    {
      if !jj[i] {
        out := out[i := Discard(out[i])];
      }
      i := i + 1;
    }
  }

  /** The matches of a prefix already looked up, put in front of the rest. */
  function Fill(jj: seq<bool>, rest: Option<seq<bool>>): Option<seq<bool>> {
    match rest
    case None => None
    case Some(more) => Some(jj + more)
  }

  /**
   * The reconciliation raises on a key the table lacks, raises when no row is concordant,
   * and otherwise keeps the concordant rows and blanks the statistic and alleles of the rest,
   * SNP for SNP.
   */
  lemma ReconciledMeaning(rows: seq<Row>, table: map<string, bool>)
    requires forall i :: 0 <= i < |rows| ==> Keyed(rows[i])
    ensures Reconciled(rows, table) == Err(AlleleMatchFailed) <==>
      exists i :: 0 <= i < |rows| && rows[i].n.Some? && Key(rows[i]) !in table
    ensures Reconciled(rows, table) == Err(AllDiscordant) <==>
      (forall i :: 0 <= i < |rows| && rows[i].n.Some? ==> Key(rows[i]) in table && !table[Key(rows[i])])
    ensures Reconciled(rows, table).Ok? ==>
      var out := Reconciled(rows, table).value;
      && |out| == |rows| && Snps(out) == Snps(rows)
      && forall i :: 0 <= i < |rows| ==>
           out[i] == if rows[i].n.Some? && table[Key(rows[i])] then rows[i] else Discard(rows[i])
  {
    MatchesMeaning(rows, table);
    match Matches(rows, table)
    case None =>
    case Some(jj) =>
      if Count(jj) == 0 {
        forall i | 0 <= i < |rows| && rows[i].n.Some? ensures !table[Key(rows[i])] {
          if table[Key(rows[i])] {
            NoneCounted(jj, i);
          }
        }
      } else {
        var k := SomeCounted(jj);
      }
  }

  lemma {:induction false} MatchesMeaning(rows: seq<Row>, table: map<string, bool>)
    requires forall i :: 0 <= i < |rows| ==> Keyed(rows[i])
    ensures Matches(rows, table).None? <==> exists i :: 0 <= i < |rows| && rows[i].n.Some? && Key(rows[i]) !in table
    ensures Matches(rows, table).Some? ==>
      forall i :: 0 <= i < |rows| ==> Matches(rows, table).value[i] == (rows[i].n.Some? && table[Key(rows[i])])
  {
    if rows != [] {
      MatchesMeaning(rows[1..], table);
      assert forall i :: 1 <= i < |rows| ==> rows[i] == rows[1..][i - 1];
    }
  }

  lemma {:induction false} SomeCounted(m: seq<bool>) returns (k: nat)
    requires Count(m) > 0
    ensures k < |m| && m[k]
  {
    if !m[0] {
      k := SomeCounted(m[1..]);
      k := k + 1;
    } else {
      k := 0;
    }
  }

  /** Lines 756 and 794: A1 and A2 leave the frame. */
  function DropAlleles(rows: seq<Row>): (r: seq<Row>)
    ensures |r| == |rows| && forall i :: 0 <= i < |rows| ==> r[i] == rows[i].(a1 := None, a2 := None)
  {
    seq(|rows|, i requires 0 <= i < |rows| => rows[i].(a1 := None, a2 := None))
  }

  /**
   * Every joined row with an N came from the frame, whose rows all have both alleles named,
   * and took its A1 and A2 from the reference, so the match-table key can be formed.
   */
  lemma {:induction false} JoinKeyed(refs: seq<Reference>, rows: seq<Row>)
    requires forall i :: 0 <= i < |rows| ==> rows[i].inc.Some? && rows[i].dec.Some?
    ensures forall i :: 0 <= i < |LeftJoin(refs, rows)| ==> Keyed(LeftJoin(refs, rows)[i])
  {
    if refs != [] {
      JoinKeyed(refs[1..], rows);
      var m := Matching(refs[0], rows);
      forall k | 0 <= k < |m| ensures m[k].inc.Some? && m[k].dec.Some? {
        assert m[k] in m;
      }
      var head, rest := Joined(refs[0], rows), LeftJoin(refs[1..], rows);
      assert LeftJoin(refs, rows) == head + rest;
      forall i | 0 <= i < |head| + |rest| ensures Keyed((head + rest)[i]) {
        if i >= |head| {
          assert (head + rest)[i] == rest[i - |head|];
        }
      }
    }
  }

  /** The allele options, the reference of --merge-alleles, and the two allele tables. */
  datatype AlleleArgs = AlleleArgs(
    noAlleles: bool, signedGiven: bool, signedNull: Option<real>,
    reference: Option<seq<Reference>>, ambiguous: map<string, bool>, matching: map<string, bool>)

  /** The oriented frame joined to the reference and reconciled, A1 and A2 dropped. */
  function Merged(o: Table, refs: seq<Reference>, matching: map<string, bool>): Result<Table, Error>
    requires forall i :: 0 <= i < |o.rows| ==> o.rows[i].inc.Some? && o.rows[i].dec.Some?
  {
    JoinKeyed(refs, o.rows);
    match Reconciled(LeftJoin(refs, o.rows), matching)
    case Err(e) => Err(e)
    case Ok(rows) => Ok(Table(o.cols, o.infoCols, DropAlleles(rows)))
  }

  /** After the strand filter every row has both alleles and a pair the strand table accepts. */
  function Unambiguated(b: Table, ambiguous: map<string, bool>): (r: Result<Table, Error>)
    requires forall i :: 0 <= i < |b.rows| ==> HasAlleles(b.rows[i])
    ensures r.Ok? ==> r.value.cols == b.cols && r.value.infoCols == b.infoCols
    ensures r.Ok? ==> forall i :: 0 <= i < |r.value.rows| ==> Unambiguous(r.value.rows[i], ambiguous) && r.value.rows[i] in b.rows
  {
    DropAmbiguousMeaning(b, ambiguous);
    var r := DropAmbiguous(b, ambiguous);
    if r.Ok? then
      assert forall i :: 0 <= i < |r.value.rows| ==> r.value.rows[i] in r.value.rows;
      r
    else r
  }

  /** After the A/C/G/T filter every row has two nucleotide alleles. */
  function Based(c: Table): (r: Result<Table, Error>)
    ensures r.Ok? ==> r.value.cols == c.cols && r.value.infoCols == c.infoCols
    ensures r.Ok? ==> forall i :: 0 <= i < |r.value.rows| ==> BothBases(r.value.rows[i])
  {
    KeepBasesMeaning(c);
    KeepBases(c)
  }

  /**
   * Lines 655-683: capitalise, keep the A/C/G/T rows, drop the strand-ambiguous pairs. The
   * columns are untouched; every surviving row has two nucleotides forming an unambiguous pair.
   */
  function Cleaned(t: Table, ambiguous: map<string, bool>): (r: Result<Table, Error>)
    ensures r.Ok? ==> r.value.cols == t.cols && r.value.infoCols == t.infoCols
    ensures r.Ok? ==> forall i :: 0 <= i < |r.value.rows| ==>
      BothBases(r.value.rows[i]) && Unambiguous(r.value.rows[i], ambiguous)
  {
    match Capitalised(t)
    case Err(e) => Err(e)
    case Ok(c) =>
      match Based(c)
      case Err(e) => Err(e)
      case Ok(b) => Unambiguated(b, ambiguous)
  }

  /**
   * Lines 685-794: orient by the statistic, then merge with --merge-alleles. A1, A2 and the
   * statistic's column give way to INC_ALLELE and DEC_ALLELE.
   */
  function Directed(u: Table, a: AlleleArgs): (r: Result<Table, Error>)
    requires forall i :: 0 <= i < |u.rows| ==> HasAlleles(u.rows[i])
    ensures r.Ok? ==> (ChooseStatistic(u.cols, a.signedGiven, a.signedNull).Ok? &&
      r.value.cols == OrientedCols(u.cols, ChooseStatistic(u.cols, a.signedGiven, a.signedNull).value))
  {
    match ChooseStatistic(u.cols, a.signedGiven, a.signedNull)
    case Err(e) => Err(e)
    case Ok(s) =>
      var o := Oriented(u, s);
      assert forall i :: 0 <= i < |o.rows| ==> o.rows[i].inc.Some? && o.rows[i].dec.Some? by {
        forall i | 0 <= i < |o.rows| ensures o.rows[i].inc.Some? && o.rows[i].dec.Some? {
          assert HasAlleles(u.rows[i]);
          assert o.rows[i] == OrientedRow(u.rows[i], Flips(u.rows[i], s));
        }
      }
      if a.reference.None? then Ok(o) else Merged(o, a.reference.value, a.matching)
  }

  /** Lines 655-797: the allele block, or its error; without A1 and A2 it raises unless --no-alleles. */
  function AlleleBlock(t: Table, a: AlleleArgs): Result<Table, Error> {
    if A1 in t.cols && A2 in t.cols && !a.noAlleles then
      match Cleaned(t, a.ambiguous)
      case Err(e) => Err(e)
      case Ok(u) => Directed(u, a)
    else if !a.noAlleles then Err(MissingAlleleColumns)
    else Ok(t)
  }

  /**
   * The columns the allele block leaves: it replaces A1, A2 and the signed statistic by
   * INC_ALLELE and DEC_ALLELE, and keeps SNP, N, CHISQ and INFO as they were.
   */
  lemma AlleleBlockColumns(t: Table, a: AlleleArgs)
    requires A1 in t.cols && A2 in t.cols
    ensures AlleleBlock(t, a).Ok? ==>
      var cols := AlleleBlock(t, a).value.cols;
      && (SNP in cols <==> SNP in t.cols) && (N in cols <==> N in t.cols)
      && (CHISQ in cols <==> CHISQ in t.cols) && (INFO in cols <==> INFO in t.cols)
      && (INC_ALLELE in cols <==> !a.noAlleles || INC_ALLELE in t.cols)
      && (DEC_ALLELE in cols <==> !a.noAlleles || DEC_ALLELE in t.cols)
      && (A1 in cols <==> a.noAlleles) && (A2 in cols <==> a.noAlleles)
  {
    if AlleleBlock(t, a).Ok? && !a.noAlleles {
      var u := Cleaned(t, a.ambiguous).value;
      var s := ChooseStatistic(u.cols, a.signedGiven, a.signedNull).value;
      assert AlleleBlock(t, a).value.cols == OrientedCols(t.cols, s);
      OrientedColsKeep(t.cols, s);
    }
  }

  lemma OrientedColsKeep(cols: set<Col>, s: Option<Statistic>)
    requires s.Some? ==> s.value.col in {SIGNED_SUMSTAT, OR, Z, BETA, LOG_ODDS}
    ensures var c := OrientedCols(cols, s);
      && (SNP in c <==> SNP in cols) && (N in c <==> N in cols)
      && (CHISQ in c <==> CHISQ in cols) && (INFO in c <==> INFO in cols)
      && INC_ALLELE in c && DEC_ALLELE in c && A1 !in c && A2 !in c
  {
  }

  /** The cleaning steps only drop rows, keeping the order of the SNPs that remain. */
  lemma CleanedSubseq(t: Table, ambiguous: map<string, bool>)
    ensures Cleaned(t, ambiguous).Ok? ==> Subseq(Snps(Cleaned(t, ambiguous).value.rows), Snps(t.rows))
  {
    if Cleaned(t, ambiguous).Ok? {
      var c := Capitalised(t).value;
      var b := Based(c).value;
      var u := Unambiguated(b, ambiguous).value;
      assert Snps(c.rows) == Snps(t.rows);
      KeepBasesMeaning(c);
      FilterSubseq(c.rows, BothBases);
      QualityFilter.SnpsSubseq(b.rows, c.rows);
      DropAmbiguousMeaning(b, ambiguous);
      FilterSubseq(b.rows, (r: Row) => Unambiguous(r, ambiguous));
      QualityFilter.SnpsSubseq(u.rows, b.rows);
      SubseqTrans(Snps(u.rows), Snps(b.rows), Snps(t.rows));
    }
  }

  /**
   * With --merge-alleles, a frame with one row per SNP leaves the block listing exactly the
   * reference's SNPs, in the reference's order.
   */
  lemma BlockFollowsReference(t: Table, a: AlleleArgs)
    requires A1 in t.cols && A2 in t.cols && !a.noAlleles && a.reference.Some?
    requires Distinct(Snps(t.rows))
    ensures AlleleBlock(t, a).Ok? ==> Snps(AlleleBlock(t, a).value.rows) == ReferenceSnps(a.reference.value)
  {
    if AlleleBlock(t, a).Ok? {
      var u := Cleaned(t, a.ambiguous).value;
      CleanedSubseq(t, a.ambiguous);
      SubseqDistinct(Snps(u.rows), Snps(t.rows));
      var s := ChooseStatistic(u.cols, a.signedGiven, a.signedNull).value;
      var o := Oriented(u, s);
      assert Snps(o.rows) == Snps(u.rows);
      assert forall i :: 0 <= i < |o.rows| ==> o.rows[i].inc.Some? && o.rows[i].dec.Some? by {
        forall i | 0 <= i < |o.rows| ensures o.rows[i].inc.Some? && o.rows[i].dec.Some? {
          assert HasAlleles(u.rows[i]);
          assert o.rows[i] == OrientedRow(u.rows[i], Flips(u.rows[i], s));
        }
      }
      assert AlleleBlock(t, a) == Merged(o, a.reference.value, a.matching);
      MergedFollowsReference(o, a.reference.value, a.matching);
    }
  }

  /** The allele block as the script runs it, with the in-place steps as methods. */
  method RunAlleleBlock(t: Table, a: AlleleArgs) returns (r: Result<Table, Error>)
    ensures r == AlleleBlock(t, a)
  {
    if !(A1 in t.cols && A2 in t.cols && !a.noAlleles) {
      return if !a.noAlleles then Err(MissingAlleleColumns) else Ok(t);
    }
    var c := Capitalised(t);
    if c.Err? { return Err(c.error); }
    var b := Based(c.value);
    if b.Err? { return Err(b.error); }
    var u := Unambiguated(b.value, a.ambiguous);
    if u.Err? { return Err(u.error); }
    assert Cleaned(t, a.ambiguous) == u;
    var s := ChooseStatistic(u.value.cols, a.signedGiven, a.signedNull);
    if s.Err? { return Err(s.error); }
    var o := Orient(u.value, s.value);
    if a.reference.None? {
      return Ok(o);
    }
    JoinKeyed(a.reference.value, o.rows);
    var m := Reconcile(LeftJoin(a.reference.value, o.rows), a.matching);
    if m.Err? { return Err(m.error); }
    r := Ok(Table(o.cols, o.infoCols, DropAlleles(m.value)));
  }

  /**
   * Without --merge-alleles, every row that leaves the block has two nucleotide alleles,
   * named increasing and decreasing, forming a pair the strand table calls unambiguous in
   * one of its two orders.
   */
  lemma AllelesNamed(t: Table, a: AlleleArgs)
    requires A1 in t.cols && A2 in t.cols && !a.noAlleles && a.reference.None?
    ensures AlleleBlock(t, a).Ok? ==>
      forall i :: 0 <= i < |AlleleBlock(t, a).value.rows| ==>
        var r := AlleleBlock(t, a).value.rows[i];
        && r.inc.Some? && r.dec.Some? && IsBase(r.inc.value) && IsBase(r.dec.value)
        && ((r.inc.value + r.dec.value in a.ambiguous && !a.ambiguous[r.inc.value + r.dec.value]) ||
            (r.dec.value + r.inc.value in a.ambiguous && !a.ambiguous[r.dec.value + r.inc.value]))
  {
    if AlleleBlock(t, a).Ok? {
      var u := Cleaned(t, a.ambiguous).value;
      var s := ChooseStatistic(u.cols, a.signedGiven, a.signedNull).value;
      assert AlleleBlock(t, a).value == Oriented(u, s);
    }
  }

  /**
   * With --merge-alleles and one frame row per SNP, the block's output lists the reference's
   * SNPs in the reference's order.
   */
  lemma MergedFollowsReference(o: Table, refs: seq<Reference>, matching: map<string, bool>)
    requires forall i :: 0 <= i < |o.rows| ==> o.rows[i].inc.Some? && o.rows[i].dec.Some?
    requires Distinct(Snps(o.rows))
    ensures Merged(o, refs, matching).Ok? ==>
      Snps(Merged(o, refs, matching).value.rows) == ReferenceSnps(refs)
  {
    JoinKeyed(refs, o.rows);
    var joined := LeftJoin(refs, o.rows);
    JoinSnps(refs, o.rows);
    ReconciledMeaning(joined, matching);
    if Merged(o, refs, matching).Ok? {
      var out := Reconciled(joined, matching).value;
      assert Snps(DropAlleles(out)) == Snps(out);
    }
  }

  /** The SNP column of the reference. */
  function ReferenceSnps(refs: seq<Reference>): (s: seq<Option<string>>)
    ensures |s| == |refs| && forall i :: 0 <= i < |refs| ==> s[i] == Some(refs[i].snp)
  {
    seq(|refs|, i requires 0 <= i < |refs| => Some(refs[i].snp))
  }

  lemma JoinSnps(refs: seq<Reference>, rows: seq<Row>)
    requires Distinct(Snps(rows))
    ensures Snps(LeftJoin(refs, rows)) == ReferenceSnps(refs)
  {
    LeftJoinFollowsReference(refs, rows);
    var joined := LeftJoin(refs, rows);
    forall i | 0 <= i < |refs| ensures joined[i].snp == Some(refs[i].snp) {
    }
  }
}

=== FILE: chunks.dfy ===
/**
 * Reading the summary statistics (sumstats_to_chisq2.py:536-600): either chunk by chunk,
 * filtering each chunk and concatenating the survivors (the default), or all at once.
 * The file is given as the sequence of its chunks, already renamed to canonical columns.
 */
module Chunks {
  import opened Wrappers
  import opened Errors
  import opened Seqs
  import opened Table
  import opened QualityFilter

  /**
   * What the reading depends on besides the rows: the frame's columns, the identifiers of
   * --merge-alleles when given, the --info-min and --maf thresholds and --filter-finally.
   */
  datatype Reading = Reading(
    cols: set<Col>, infoCols: nat, reference: Option<set<string>>,
    infoMin: real, mafMin: real, filterFinally: bool)

  /**
   * The columns filter_snps needs are present (the checks of lines 503-515 come first), and
   * INFO is a label exactly when there is an INFO column.
   */
  predicate Readable(g: Reading) {
    && SNP in g.cols && P in g.cols
    && (INFO in g.cols <==> g.infoCols > 0)
  }

  /** Every row read with these columns has one INFO entry per INFO column. */
  predicate Shaped(g: Reading, rows: seq<Row>) {
    forall x :: x in rows ==> |x.info| == g.infoCols
  }

  lemma ShapedWellFormed(g: Reading, rows: seq<Row>)
    requires Readable(g) && Shaped(g, rows)
    ensures WellFormed(Table(g.cols, g.infoCols, rows))
  {
    forall i | 0 <= i < |rows| ensures |rows[i].info| == g.infoCols {
      assert rows[i] in rows;
    }
  }

  /** `dat.SNP.isin(merge_alleles.SNP)`: a missing identifier is in no list. */
  function InReference(ids: set<string>): (h: Row -> bool)
    ensures forall r :: h(r) == (r.snp.Some? && r.snp.value in ids)
  {
    (r: Row) => r.snp.Some? && r.snp.value in ids
  }

  /** The rows kept by the --merge-alleles restriction (all of them without the flag). */
  function Restrict(rows: seq<Row>, reference: Option<set<string>>): (s: seq<Row>)
    ensures forall x :: x in s ==> x in rows
  {
    match reference
    case None => rows
    case Some(ids) => Filter(rows, InReference(ids))
  }

  /**
   * Without --merge-alleles every row stays; with it, exactly the rows whose identifier is
   * in the reference stay, in their input order.
   */
  lemma RestrictMeaning(rows: seq<Row>, reference: Option<set<string>>)
    ensures reference.None? ==> Restrict(rows, reference) == rows
    ensures reference.Some? ==> forall x :: x in Restrict(rows, reference) <==>
      x in rows && x.snp.Some? && x.snp.value in reference.value
    ensures Subseq(Restrict(rows, reference), rows)
  {
    match reference
    case None =>
      SubseqRefl(rows);
    case Some(ids) =>
      forall x ensures x in Restrict(rows, reference) <==> x in rows && x.snp.Some? && x.snp.value in ids {
        FilterMember(rows, InReference(ids), x);
      }
      FilterSubseq(rows, InReference(ids));
  }

  lemma RestrictAppend(a: seq<Row>, b: seq<Row>, reference: Option<set<string>>)
    ensures Restrict(a + b, reference) == Restrict(a, reference) + Restrict(b, reference)
  {
    if reference.Some? {
      FilterAppend(a, b, InReference(reference.value));
    }
  }

  /** What one chunk contributes to `dat_list` (lines 559-566). */
  function Part(g: Reading, chunk: seq<Row>): seq<Row> {
    var rows := Restrict(chunk, g.reference);
    if g.filterFinally then rows else Filtered(Table(g.cols, g.infoCols, rows), g.infoMin, g.mafMin).rows
  }

  /** The contributions of the chunks, in order. */
  function Parts(g: Reading, chunks: seq<seq<Row>>): (ps: seq<seq<Row>>)
    ensures |ps| == |chunks|
  {
    if chunks == [] then [] else Parts(g, chunks[..|chunks| - 1]) + [Part(g, chunks[|chunks| - 1])]
  }

  /** `pd.concat`. */
  function Concat(parts: seq<seq<Row>>): seq<Row> {
    if parts == [] then [] else Concat(parts[..|parts| - 1]) + parts[|parts| - 1]
  }

  /** The per-chunk `drops` increments, added up (only when every chunk is filtered). */
  function Charges(g: Reading, chunks: seq<seq<Row>>): Counts {
    SumCounts(chunks, ChargeOf(g))
  }

  /** Per-chunk counters added up, chunk by chunk. */
  function SumCounts(chunks: seq<seq<Row>>, f: seq<Row> -> Counts): Counts {
    if chunks == [] then Counts(0, 0, 0, 0, 0)
    else Plus(SumCounts(chunks[..|chunks| - 1], f), f(chunks[|chunks| - 1]))
  }

  function ChargeOf(g: Reading): (f: seq<Row> -> Counts)
    ensures forall c :: f(c) == ChunkCharge(g, c)
  {
    (c: seq<Row>) => ChunkCharge(g, c)
  }

  /** The increments one filtered chunk makes to `drops`. */
  function ChunkCharge(g: Reading, chunk: seq<Row>): Counts {
    Charged(Measure(Table(g.cols, g.infoCols, Restrict(chunk, g.reference)), g.infoMin, g.mafMin), 5)
  }

  /**
   * The chunked reading: no chunk at all makes pd.concat raise; with --filter-finally the
   * concatenation is filtered verbosely; an empty result raises.
   */
  function ChunkedRead(g: Reading, chunks: seq<seq<Row>>): Result<Table, Error> {
    if chunks == [] then Err(NothingToConcatenate)
    else
      var cat := Concat(Parts(g, chunks));
      if g.filterFinally then
        var res := Outcome(Table(g.cols, g.infoCols, cat), g.infoMin, g.mafMin, true);
        if res.Ok? && res.value.rows == [] then Err(NoSnpsRemain) else res
      else if cat == [] then Err(NoSnpsRemain)
      else Ok(Table(g.cols - {INFO, FRQ}, 0, cat))
  }

  /**
   * The reading all at once (lines 585-600): restrict to --merge-alleles, raising when
   * nothing is left, then filter verbosely. --filter-finally plays no part here.
   */
  function WholeRead(g: Reading, rows: seq<Row>): Result<Table, Error> {
    var kept := Restrict(rows, g.reference);
    if g.reference.Some? && kept == [] then Err(NoSnpsRemain)
    else Outcome(Table(g.cols, g.infoCols, kept), g.infoMin, g.mafMin, true)
  }

  lemma {:induction false} PartsShaped(g: Reading, chunks: seq<seq<Row>>)
    requires g.filterFinally
    requires forall c :: c in chunks ==> Shaped(g, c)
    ensures Shaped(g, Concat(Parts(g, chunks)))
  {
    if chunks != [] {
      var pre := chunks[..|chunks| - 1];
      assert forall c :: c in pre ==> c in chunks;
      PartsShaped(g, pre);
      assert chunks[|chunks| - 1] in chunks;
      assert Parts(g, chunks)[..|chunks| - 1] == Parts(g, pre);
    }
  }

  /**
   * The chunk loop of lines 558-570 and the checks after it. `drops` is created by the
   * loop's caller and only read by its report, so its final counters are returned.
   */
  method ReadChunks(g: Reading, chunks: seq<seq<Row>>) returns (r: Result<Table, Error>, counts: Counts)
    requires Readable(g)
    requires forall c :: c in chunks ==> Shaped(g, c)
    ensures r == ChunkedRead(g, chunks)
    ensures counts == if g.filterFinally then Counts(0, 0, 0, 0, 0) else Charges(g, chunks)
  {
    var drops := new Drops();
    var datList: seq<seq<Row>> := [];
    for i := 0 to |chunks|
      invariant datList == Parts(g, chunks[..i])
      invariant drops.Totals() == if g.filterFinally then Counts(0, 0, 0, 0, 0) else Charges(g, chunks[..i])
    {
      assert chunks[..i + 1][..i] == chunks[..i];
      assert chunks[i] in chunks;
      var dat := Table(g.cols, g.infoCols, Restrict(chunks[i], g.reference));
      if !g.filterFinally {
        ShapedWellFormed(g, dat.rows);
        RaisesIffNothingRemains(dat, g.infoMin, g.mafMin);
        var res := FilterSnps(dat, g.infoMin, g.mafMin, drops, false);
        dat := res.value;
      }
      datList := datList + [dat.rows];
    }
    assert chunks[..|chunks|] == chunks;
    counts := drops.Totals();
    if |datList| == 0 {
      return Err(NothingToConcatenate), counts;
    }
    var dat := Table(g.cols, g.infoCols, Concat(datList));
    if g.filterFinally {
      PartsShaped(g, chunks);
      ShapedWellFormed(g, dat.rows);
      var res := FilterSnps(dat, g.infoMin, g.mafMin, null, true);
      if res.Err? {
        return res, counts;
      }
      dat := res.value;
    } else {
      dat := Table(g.cols - {INFO, FRQ}, 0, dat.rows);
    }
    if |dat.rows| == 0 {
      return Err(NoSnpsRemain), counts;
    }
    return Ok(dat), counts;
  }

  // ---------------------------------------------------------------------------------------
  // Chunked against whole reading.

  lemma SnpSetAppend(a: seq<Row>, b: seq<Row>)
    ensures SnpSet(a + b) == SnpSet(a) + SnpSet(b)
  {
    forall x | x in SnpSet(a + b) ensures x in SnpSet(a) + SnpSet(b) {
      var k :| 0 <= k < |a + b| && (a + b)[k].snp == x;
      if k >= |a| { assert b[k - |a|].snp == x; }
    }
    forall x | x in SnpSet(a) + SnpSet(b) ensures x in SnpSet(a + b) {
      if x in SnpSet(a) {
        var k :| 0 <= k < |a| && a[k].snp == x;
        assert (a + b)[k].snp == x;
      } else {
        var k :| 0 <= k < |b| && b[k].snp == x;
        assert (a + b)[|a| + k].snp == x;
      }
    }
  }

  lemma SnpSetRestrict(rows: seq<Row>, reference: Option<set<string>>)
    ensures SnpSet(Restrict(rows, reference)) <= SnpSet(rows)
  {
    var s := Restrict(rows, reference);
    forall x | x in SnpSet(s) ensures x in SnpSet(rows) {
      var k :| 0 <= k < |s| && s[k].snp == x;
      assert s[k] in rows;
      var j :| 0 <= j < |rows| && rows[j] == s[k];
    }
  }

  /** No identifier occurs in two different chunks. */
  predicate ChunksDisjoint(chunks: seq<seq<Row>>) {
    forall j, k :: 0 <= j < k < |chunks| ==> SnpSet(chunks[j]) !! SnpSet(chunks[k])
  }

  lemma {:induction false} ConcatDisjoint(chunks: seq<seq<Row>>, b: seq<Row>)
    requires forall j :: 0 <= j < |chunks| ==> SnpSet(chunks[j]) !! SnpSet(b)
    ensures SnpSet(Concat(chunks)) !! SnpSet(b)
  {
    if chunks != [] {
      var pre := chunks[..|chunks| - 1];
      ConcatDisjoint(pre, b);
      SnpSetAppend(Concat(pre), chunks[|chunks| - 1]);
    }
  }

  lemma StripAppend(a: seq<Row>, b: seq<Row>)
    ensures Strip(a + b) == Strip(a) + Strip(b)
  {
  }

  /** Filtering two parts with no identifier in common is filtering each part. */
  lemma FilteredAppend(cols: set<Col>, infoCols: nat, a: seq<Row>, b: seq<Row>, infoMin: real, mafMin: real)
    requires SnpSet(a) !! SnpSet(b)
    ensures Filtered(Table(cols, infoCols, a + b), infoMin, mafMin).rows
         == Filtered(Table(cols, infoCols, a), infoMin, mafMin).rows + Filtered(Table(cols, infoCols, b), infoMin, mafMin).rows
  {
    var ta, tb, tab := Table(cols, infoCols, a), Table(cols, infoCols, b), Table(cols, infoCols, a + b);
    var h := Holds(Criteria(tab, infoMin, mafMin));
    assert Criteria(ta, infoMin, mafMin) == Criteria(tab, infoMin, mafMin) == Criteria(tb, infoMin, mafMin);
    DedupDisjoint(a, b);
    FilterAppend(Dedup(a), Dedup(b), Complete(cols));
    FilterAppend(Candidates(ta), Candidates(tb), h);
    StripAppend(Kept(ta, infoMin, mafMin), Kept(tb, infoMin, mafMin));
  }

  /** Without --filter-finally and with no identifier shared between chunks, the chunks filter one by one. */
  lemma {:induction false} PartsFilterWhole(g: Reading, chunks: seq<seq<Row>>)
    requires !g.filterFinally && ChunksDisjoint(chunks)
    ensures Concat(Parts(g, chunks)) == Filtered(Table(g.cols, g.infoCols, Restrict(Concat(chunks), g.reference)), g.infoMin, g.mafMin).rows
  {
    if chunks == [] {
      assert Dedup([]) == [];
    } else {
      var n := |chunks|;
      var pre, last := chunks[..n - 1], chunks[n - 1];
      assert ChunksDisjoint(pre);
      PartsFilterWhole(g, pre);
      assert Parts(g, chunks)[..n - 1] == Parts(g, pre);
      RestrictAppend(Concat(pre), last, g.reference);
      forall j | 0 <= j < |pre| ensures SnpSet(pre[j]) !! SnpSet(last) {
        assert pre[j] == chunks[j];
      }
      ConcatDisjoint(pre, last);
      SnpSetRestrict(Concat(pre), g.reference);
      SnpSetRestrict(last, g.reference);
      FilteredAppend(g.cols, g.infoCols, Restrict(Concat(pre), g.reference), Restrict(last, g.reference), g.infoMin, g.mafMin);
    }
  }

  /** With --filter-finally the chunks are only restricted to --merge-alleles. */
  lemma {:induction false} PartsRestrictWhole(g: Reading, chunks: seq<seq<Row>>)
    requires g.filterFinally
    ensures Concat(Parts(g, chunks)) == Restrict(Concat(chunks), g.reference)
  {
    if chunks != [] {
      var n := |chunks|;
      PartsRestrictWhole(g, chunks[..n - 1]);
      assert Parts(g, chunks)[..n - 1] == Parts(g, chunks[..n - 1]);
      RestrictAppend(Concat(chunks[..n - 1]), chunks[n - 1], g.reference);
    }
  }

  /**
   * Reading in chunks gives what reading the whole file gives, with --filter-finally, or
   * without it when no identifier occurs in two chunks.
   */
  lemma ChunkedMatchesWhole(g: Reading, chunks: seq<seq<Row>>)
    requires chunks != []
    requires g.filterFinally || ChunksDisjoint(chunks)
    ensures ChunkedRead(g, chunks) == WholeRead(g, Concat(chunks))
  {
    var kept := Restrict(Concat(chunks), g.reference);
    var t := Table(g.cols, g.infoCols, kept);
    RaisesIffNothingRemains(t, g.infoMin, g.mafMin);
    if kept == [] {
      assert Dedup(kept) == [];
    }
    if g.filterFinally {
      PartsRestrictWhole(g, chunks);
    } else {
      PartsFilterWhole(g, chunks);
    }
  }

  /**
   * The condition cannot be dropped: a row that survives filtering on its own survives
   * twice when it occurs in two chunks, and once when the file is read whole.
   */
  lemma DuplicateAcrossChunks(g: Reading, row: Row)
    requires !g.filterFinally && g.reference.None?
    requires Kept(Table(g.cols, g.infoCols, [row]), g.infoMin, g.mafMin) == [row]
    ensures ChunkedRead(g, [[row], [row]]) == Ok(Table(g.cols - {INFO, FRQ}, 0, Strip([row, row])))
    ensures WholeRead(g, [row, row]) == Ok(Table(g.cols - {INFO, FRQ}, 0, Strip([row])))
  {
    ChunkedKeepsBoth(g, row);
    WholeKeepsOne(g, row);
  }

  lemma ChunkedKeepsBoth(g: Reading, row: Row)
    requires !g.filterFinally && g.reference.None?
    requires Kept(Table(g.cols, g.infoCols, [row]), g.infoMin, g.mafMin) == [row]
    ensures ChunkedRead(g, [[row], [row]]) == Ok(Table(g.cols - {INFO, FRQ}, 0, Strip([row, row])))
  {
    TwoParts(g, row);
    assert Concat([Strip([row])]) == Strip([row]);
    assert Concat([Strip([row]), Strip([row])]) == Strip([row]) + Strip([row]);
    StripAppend([row], [row]);
    assert [row] + [row] == [row, row];
  }

  lemma TwoParts(g: Reading, row: Row)
    requires !g.filterFinally && g.reference.None?
    requires Kept(Table(g.cols, g.infoCols, [row]), g.infoMin, g.mafMin) == [row]
    ensures Parts(g, [[row], [row]]) == [Strip([row]), Strip([row])]
  {
    assert Part(g, [row]) == Strip([row]);
    assert Parts(g, [[row]]) == [Strip([row])];
    assert [[row], [row]][..1] == [[row]];
  }

  lemma WholeKeepsOne(g: Reading, row: Row)
    requires g.reference.None?
    requires Kept(Table(g.cols, g.infoCols, [row]), g.infoMin, g.mafMin) == [row]
    ensures WholeRead(g, [row, row]) == Ok(Table(g.cols - {INFO, FRQ}, 0, Strip([row])))
  {
    var one := Table(g.cols, g.infoCols, [row]);
    var two := Table(g.cols, g.infoCols, [row, row]);
    DedupRepeated(row);
    assert Criteria(two, g.infoMin, g.mafMin) == Criteria(one, g.infoMin, g.mafMin);
    assert Candidates(two) == Candidates(one);
    assert Kept(two, g.infoMin, g.mafMin) == [row];
    RaisesIffNothingRemains(two, g.infoMin, g.mafMin);
  }

  lemma DedupRepeated(row: Row)
    ensures Dedup([row, row]) == Dedup([row]) == [row]
  {
    var seen: set<Option<string>> := {};
    assert [row, row][1..] == [row] && [row][1..] == [];
    assert DedupFrom([row], seen + {row.snp}) == DedupFrom([], seen + {row.snp}) == [];
    assert DedupFrom([row, row], seen) == [row] + DedupFrom([row], seen + {row.snp});
    assert DedupFrom([row], seen) == [row] + DedupFrom([], seen + {row.snp});
  }

  /** Such a row exists: an identifier with a p-value of 0.5 in a frame of SNP and P alone. */
  lemma SurvivingRow()
    ensures var row := EmptyRow(Some("rs1")).(p := Some(0.5));
      Kept(Table({SNP, P}, 0, [row]), 0.9, 0.01) == [row]
  {
    var row := EmptyRow(Some("rs1")).(p := Some(0.5));
    var one := Table({SNP, P}, 0, [row]);
    assert Criteria(one, 0.9, 0.01) == [PositiveP, PAtMostOne];
    assert MeetsAll(row, [PositiveP, PAtMostOne]);
    assert Dedup([row]) == [row];
    assert Candidates(one) == [row];
  }

  /** The chunk counters account for every row the per-chunk filtering removed. */
  lemma ChargesAccountForRemovals(g: Reading, chunks: seq<seq<Row>>)
    requires !g.filterFinally
    ensures Total(Charges(g, chunks)) + |Concat(Parts(g, chunks))| == |Concat(Restricted(g, chunks))|
  {
    PartsMapped(g, chunks);
    RestrictedMapped(g, chunks);
    forall c ensures Total(ChargeOf(g)(c)) + |PartOf(g)(c)| == |RestrictOf(g)(c)| {
      PartCharge(g, c);
    }
    CountsAccount(chunks, ChargeOf(g), PartOf(g), RestrictOf(g));
  }

  /** Each chunk transformed by `f`, in order. */
  function MapChunks(chunks: seq<seq<Row>>, f: seq<Row> -> seq<Row>): (r: seq<seq<Row>>)
    ensures |r| == |chunks|
  {
    if chunks == [] then [] else MapChunks(chunks[..|chunks| - 1], f) + [f(chunks[|chunks| - 1])]
  }

  function PartOf(g: Reading): (f: seq<Row> -> seq<Row>)
    ensures forall c :: f(c) == Part(g, c)
  {
    (c: seq<Row>) => Part(g, c)
  }

  function RestrictOf(g: Reading): (f: seq<Row> -> seq<Row>)
    ensures forall c :: f(c) == Restrict(c, g.reference)
  {
    (c: seq<Row>) => Restrict(c, g.reference)
  }

  lemma {:induction false} PartsMapped(g: Reading, chunks: seq<seq<Row>>)
    ensures Parts(g, chunks) == MapChunks(chunks, PartOf(g))
  {
    if chunks != [] {
      PartsMapped(g, chunks[..|chunks| - 1]);
    }
  }

  lemma {:induction false} RestrictedMapped(g: Reading, chunks: seq<seq<Row>>)
    ensures Restricted(g, chunks) == MapChunks(chunks, RestrictOf(g))
  {
    if chunks != [] {
      RestrictedMapped(g, chunks[..|chunks| - 1]);
    }
  }

  /**
   * When every chunk's counters and output account for its input, the added-up counters
   * and the concatenated outputs account for the concatenated inputs.
   */
  lemma {:induction false} CountsAccount(chunks: seq<seq<Row>>, f: seq<Row> -> Counts, p: seq<Row> -> seq<Row>, q: seq<Row> -> seq<Row>)
    requires forall c :: Total(f(c)) + |p(c)| == |q(c)|
    ensures Total(SumCounts(chunks, f)) + |Concat(MapChunks(chunks, p))| == |Concat(MapChunks(chunks, q))|
  {
    if chunks != [] {
      var n := |chunks|;
      var pre := chunks[..n - 1];
      CountsAccount(pre, f, p, q);
      var ps, qs := MapChunks(chunks, p), MapChunks(chunks, q);
      assert ps[..n - 1] == MapChunks(pre, p) && ps[n - 1] == p(chunks[n - 1]);
      assert qs[..n - 1] == MapChunks(pre, q) && qs[n - 1] == q(chunks[n - 1]);
    }
  }

  lemma PartCharge(g: Reading, chunk: seq<Row>)
    requires !g.filterFinally
    ensures Total(ChunkCharge(g, chunk)) + |Part(g, chunk)| == |Restrict(chunk, g.reference)|
  {
    var t := Table(g.cols, g.infoCols, Restrict(chunk, g.reference));
    ChargedAccountsForAll(t, g.infoMin, g.mafMin);
  }

  /** The chunks after the --merge-alleles restriction. */
  function Restricted(g: Reading, chunks: seq<seq<Row>>): (rs: seq<seq<Row>>)
    ensures |rs| == |chunks|
  {
    if chunks == [] then [] else Restricted(g, chunks[..|chunks| - 1]) + [Restrict(chunks[|chunks| - 1], g.reference)]
  }
}

=== FILE: columns.dfy ===
/**
 * Choosing the columns to read (sumstats_to_chisq2.py:453-517): the headers claimed by a
 * flag, then the headers the synonym table knows and no flag overrides, then the pruning
 * of extra signed statistics and the checks that the essential columns are present.
 * The synonym table is the parameter `table`; the script uses Headers.Conversion.
 */
module Columns {
  import opened Wrappers
  import opened Errors
  import opened Seqs
  import opened Headers
  import opened Table

  /** `map(clean_header, names)`. */
  function Cleaned(names: seq<string>): (c: seq<string>)
    ensures |c| == |names| && forall i :: 0 <= i < |names| ==> c[i] == CleanHeader(names[i])
  {
    seq(|names|, i requires 0 <= i < |names| => CleanHeader(names[i]))
  }

  /** Some header of the file cleans to `key`. */
  predicate Found(colnames: seq<string>, key: string) {
    exists x :: x in colnames && CleanHeader(x) == key
  }

  /** Line 461: a header is taken first when a flag claimed its cleaned name. */
  function ByFlag(flags: map<string, string>): (h: string -> bool)
    ensures forall x :: h(x) == (CleanHeader(x) in flags)
  {
    (x: string) => CleanHeader(x) in flags
  }

  /**
   * Lines 470-472: a header is taken next when the table knows it, it was not taken first,
   * and no flag already claimed the column the table would give it.
   */
  function ByTable(table: map<string, string>, flags: map<string, string>, first: seq<string>): (h: string -> bool)
    ensures forall x :: h(x) == (CleanHeader(x) in table && x !in first && table[CleanHeader(x)] !in flags.Values)
  {
    (x: string) => CleanHeader(x) in table && x !in first && table[CleanHeader(x)] !in flags.Values
  }

  /** `usecols` as lines 461-472 compute it, or the error of lines 464-467. */
  function UseCols(table: map<string, string>, colnames: seq<string>, flags: map<string, string>): Result<seq<string>, Error> {
    var first := Filter(colnames, ByFlag(flags));
    if forall k :: k in flags ==> k in Cleaned(first) then
      Ok(first + Filter(colnames, ByTable(table, flags, first)))
    else Err(FlagColumnNotFound)
  }

  /** The selection as the script performs it: first pass, the check loop, second pass. */
  method SelectColumns(table: map<string, string>, colnames: seq<string>, flags: map<string, string>)
    returns (r: Result<seq<string>, Error>)
    ensures r == UseCols(table, colnames, flags)
  {
    var usecols := Filter(colnames, ByFlag(flags));
    var cleanUsecols := Cleaned(usecols);
    var pending := flags.Keys;
    while pending != {}
      invariant pending <= flags.Keys
      invariant forall k :: k in flags && k !in pending ==> k in cleanUsecols
      decreases |pending|
    {
      var cname :| cname in pending;
      if cname !in cleanUsecols {
        return Err(FlagColumnNotFound);
      }
      pending := pending - {cname};
    }
    usecols := usecols + Filter(colnames, ByTable(table, flags, usecols));
    return Ok(usecols);
  }

  /** A flag's header is among the first-pass headers exactly when the file has it. */
  lemma FirstPassFinds(colnames: seq<string>, flags: map<string, string>, k: string)
    requires k in flags
    ensures k in Cleaned(Filter(colnames, ByFlag(flags))) <==> Found(colnames, k)
  {
    var first := Filter(colnames, ByFlag(flags));
    if k in Cleaned(first) {
      var i :| 0 <= i < |first| && Cleaned(first)[i] == k;
      assert first[i] in first;
    }
    if Found(colnames, k) {
      var x :| x in colnames && CleanHeader(x) == k;
      FilterMember(colnames, ByFlag(flags), x);
      var i :| 0 <= i < |first| && first[i] == x;
      assert Cleaned(first)[i] == k;
    }
  }

  /** Selection fails exactly when some flag names a column the file does not have. */
  lemma UseColsFails(table: map<string, string>, colnames: seq<string>, flags: map<string, string>)
    ensures UseCols(table, colnames, flags).Err? <==> exists k :: k in flags && !Found(colnames, k)
  {
    forall k | k in flags {
      FirstPassFinds(colnames, flags, k);
    }
  }

  /**
   * A header is selected exactly when a flag claims it, or when the table knows it and no
   * flag claims the column the table gives it: overrides win over the table.
   */
  lemma SelectedIff(table: map<string, string>, colnames: seq<string>, flags: map<string, string>, x: string)
    requires UseCols(table, colnames, flags).Ok?
    ensures x in UseCols(table, colnames, flags).value <==>
      x in colnames && (CleanHeader(x) in flags || (CleanHeader(x) in table && table[CleanHeader(x)] !in flags.Values))
  {
    var first := Filter(colnames, ByFlag(flags));
    FilterMember(colnames, ByFlag(flags), x);
    FilterMember(colnames, ByTable(table, flags, first), x);
  }

  /** No header of a file with distinct headers is selected twice. */
  lemma SelectedOnce(table: map<string, string>, colnames: seq<string>, flags: map<string, string>)
    requires Distinct(colnames) && UseCols(table, colnames, flags).Ok?
    ensures Distinct(UseCols(table, colnames, flags).value)
  {
    var first := Filter(colnames, ByFlag(flags));
    var second := Filter(colnames, ByTable(table, flags, first));
    FilterDistinct(colnames, ByFlag(flags));
    FilterDistinct(colnames, ByTable(table, flags, first));
    var all := first + second;
    forall i, j | 0 <= i < j < |all| ensures all[i] != all[j] {
      if i < |first| && j >= |first| {
        assert all[j] == second[j - |first|] && all[j] in second;
        assert all[i] in first;
      } else if j < |first| {
        assert all[i] == first[i] && all[j] == first[j];
      } else {
        assert all[i] == second[i - |first|] && all[j] == second[j - |first|];
      }
    }
  }

  /**
   * With the script's table and a registry of canonical names, every selected header
   * converts: a claimed one to its flag's column, any other to its table entry.
   */
  lemma SelectedConvert(colnames: seq<string>, flags: map<string, string>, x: string)
    requires flags.Values <= Canonical
    requires UseCols(Conversion, colnames, flags).Ok? && x in UseCols(Conversion, colnames, flags).value
    ensures CleanHeader(x) in flags ==> ConvertColname(x, Some(flags)) == Ok(flags[CleanHeader(x)])
    ensures CleanHeader(x) !in flags ==> CleanHeader(x) in Conversion && ConvertColname(x, Some(flags)) == Ok(Conversion[CleanHeader(x)])
  {
    SelectedIff(Conversion, colnames, flags, x);
    if CleanHeader(x) in flags {
      assert flags[CleanHeader(x)] in flags.Values;
    }
  }

  /** `[convert_colname(x, pre=flag_colnames) for x in names]`; the first KeyError propagates. */
  function ConvertAll(names: seq<string>, pre: map<string, string>): Result<seq<string>, Error> {
    TryMap(names, Converter(pre))
  }

  /** `convert_colname` with the flag map fixed. */
  function Converter(pre: map<string, string>): (f: string -> Result<string, Error>)
    ensures forall x :: f(x) == ConvertColname(x, Some(pre))
  {
    (x: string) => ConvertColname(x, Some(pre))
  }

  /** Converting a list fails exactly when some name fails. */
  lemma ConvertAllIff(names: seq<string>, pre: map<string, string>)
    ensures ConvertAll(names, pre).Ok? <==> forall i :: 0 <= i < |names| ==> ConvertColname(names[i], Some(pre)).Ok?
  {
    TryMapIff(names, Converter(pre));
  }

  /** A successful conversion converts name by name, in order. */
  lemma ConvertAllValues(names: seq<string>, pre: map<string, string>)
    requires ConvertAll(names, pre).Ok?
    ensures |ConvertAll(names, pre).value| == |names|
    ensures forall i :: 0 <= i < |names| ==>
      ConvertColname(names[i], Some(pre)).Ok? && ConvertAll(names, pre).value[i] == ConvertColname(names[i], Some(pre)).value
  {
    TryMapValues(names, Converter(pre));
  }

  // ---------------------------------------------------------------------------------------
  // Lines 474-495: more than one signed statistic.

  /** How many of Z, OR, LOG_ODDS and BETA the converted names contain. */
  function SignedCount(converted: seq<string>): (n: nat)
    ensures n <= 4
  {
    (if "Z" in converted then 1 else 0) + (if "OR" in converted then 1 else 0)
    + (if "LOG_ODDS" in converted then 1 else 0) + (if "BETA" in converted then 1 else 0)
  }

  /**
   * `drop_cnames` of line 494: the list written `['OR' 'Z','LOR','BETA']` is the three
   * names ORZ, LOR and BETA (Python joins the adjacent literals), less the claimed ones.
   */
  function DropNames(flags: map<string, string>): seq<string> {
    Filter(["ORZ", "LOR", "BETA"], (x: string) => x !in flags)
  }

  function NotDropped(drop: seq<string>): (h: string -> bool)
    ensures forall x :: h(x) == (x !in drop)
  {
    (x: string) => x !in drop
  }

  /**
   * Without --signed-sumstats and with more than one signed statistic, the branch taken
   * reads the undefined name `cnames` (NameError); with --signed-sumstats, the raw headers
   * named in `drop_cnames` are removed. `signed` is args.signed_sumstats, tested with
   * `is None`, so an empty argument counts as given here.
   */
  function PruneSigned(usecols: seq<string>, converted: seq<string>, flags: map<string, string>, signed: Option<string>)
    : Result<seq<string>, Error>
  {
    if signed.None? then
      if SignedCount(converted) > 1 && ("OR" in converted || "Z" in converted || "BETA" in converted)
      then Err(UndefinedName("cnames"))
      else Ok(usecols)
    else Ok(Filter(usecols, NotDropped(DropNames(flags))))
  }

  /**
   * Without --signed-sumstats, two or more signed statistics always raise: whichever two
   * are present, one of OR, Z and BETA is among them.
   */
  lemma ManySignedFails(usecols: seq<string>, converted: seq<string>, flags: map<string, string>)
    ensures PruneSigned(usecols, converted, flags, None).Err? <==> SignedCount(converted) > 1
    ensures SignedCount(converted) <= 1 ==> PruneSigned(usecols, converted, flags, None) == Ok(usecols)
  {
  }

  /**
   * With --signed-sumstats, a header is dropped exactly when it is literally ORZ, LOR or BETA
   * and no flag claimed it; headers claimed by a flag, and the headers OR and Z, stay.
   */
  lemma PruneWithOverride(usecols: seq<string>, converted: seq<string>, flags: map<string, string>, signed: string, x: string)
    requires x in usecols
    ensures var r := PruneSigned(usecols, converted, flags, Some(signed));
      && r.Ok?
      && (x !in r.value <==> (x == "ORZ" || x == "LOR" || x == "BETA") && x !in flags)
      && (x == "OR" || x == "Z" || CleanHeader(x) in flags ==> x in r.value)
  {
    var drop := DropNames(flags);
    FilterMember(usecols, NotDropped(drop), x);
    FilterMember(["ORZ", "LOR", "BETA"], (y: string) => y !in flags, x);
    if x == "ORZ" || x == "LOR" || x == "BETA" {
      CleanFixed(x);
    }
  }

  /** Names of upper-case letters and underscores are their own cleaned form. */
  lemma CleanFixed(x: string)
    requires x == "ORZ" || x == "LOR" || x == "BETA"
    ensures CleanHeader(x) == x
  {
    assert forall i :: 0 <= i < |x| ==> CleanHeader(x)[i] == x[i];
  }

  // ---------------------------------------------------------------------------------------
  // Lines 503-515: the required columns, checked in this order.

  /**
   * The checks on the converted names. The sample-size check looks for the lower-case
   * names 'N_cas' and 'N_con', which conversion never produces; --daner is taken as absent.
   */
  function Required(converted: seq<string>, n: Option<real>, nCas: Option<real>, nCon: Option<real>, signed: Option<string>)
    : Result<(), Error>
  {
    if "N" !in converted && n.None? && (nCas.None? || nCon.None?)
       && ("N_cas" !in converted || "N_con" !in converted)
    then Err(NoSampleSizeColumn)
    else if "P" !in converted then Err(NoPColumn)
    else if "Z" !in converted && "BETA" !in converted && "OR" !in converted && "LOG_ODDS" !in converted && signed.None?
    then Err(NoSignedColumn)
    else if "SNP" !in converted then Err(NoSnpColumn)
    else if "A1" !in converted || "A2" !in converted then Err(NoAlleleColumns)
    else Ok(())
  }

  /**
   * For canonical names the checks pass exactly when there is a sample size (an N column,
   * --N, or both --N-cas and --N-con: N_CAS and N_CON columns do not count), a p-value, a
   * signed statistic or --signed-sumstats, an identifier and both alleles.
   */
  lemma RequiredIff(converted: seq<string>, n: Option<real>, nCas: Option<real>, nCon: Option<real>, signed: Option<string>)
    requires forall i :: 0 <= i < |converted| ==> converted[i] in Canonical
    ensures Required(converted, n, nCas, nCon, signed).Ok? <==>
      && ("N" in converted || n.Some? || (nCas.Some? && nCon.Some?))
      && "P" in converted
      && ("Z" in converted || "BETA" in converted || "OR" in converted || "LOG_ODDS" in converted || signed.Some?)
      && "SNP" in converted && "A1" in converted && "A2" in converted
  {
  }

  // ---------------------------------------------------------------------------------------
  // The frame's columns.

  /**
   * The columns of the frame read with these converted names; several INFO columns stay
   * apart, and any other column named twice is refused.
   */
  function FrameColumns(converted: seq<string>): Result<(set<Col>, nat), Error> {
    if converted == [] then Ok(({}, 0))
    else match FrameColumns(converted[1..])
      case Err(e) => Err(e)
      case Ok(frame) =>
        match ColOf(converted[0])
        case None => Err(UnknownColumn(converted[0]))
        case Some(c) =>
          if c != INFO && c in frame.0 then Err(DuplicateColumn(converted[0]))
          else Ok((frame.0 + {c}, frame.1 + (if c == INFO then 1 else 0)))
  }

  /** Every name is a column label, and only INFO is named twice. */
  predicate Readable(converted: seq<string>) {
    && (forall i :: 0 <= i < |converted| ==> ColOf(converted[i]).Some?)
    && (forall i, j :: 0 <= i < j < |converted| && converted[i] == converted[j] ==> converted[i] == "INFO")
  }

  /**
   * The frame is built exactly for readable names; it then has the columns the names label,
   * one INFO column per INFO name.
   */
  lemma {:induction false} FrameColumnsIff(converted: seq<string>)
    ensures FrameColumns(converted).Ok? <==> Readable(converted)
    ensures FrameColumns(converted).Ok? ==>
      && (forall c :: c in FrameColumns(converted).value.0 <==> Label(c) in converted)
      && FrameColumns(converted).value.1 == multiset(converted)["INFO"]
  {
    if converted != [] {
      var name, rest := converted[0], converted[1..];
      assert converted == [name] + rest;
      FrameColumnsIff(rest);
      ReadableCons(converted);
      if FrameColumns(rest).Ok? && ColOf(name).Some? {
        var c, frame := ColOf(name).value, FrameColumns(rest).value;
        LabelInjective(c);
        assert c in frame.0 <==> name in rest;
        assert c == INFO <==> name == "INFO";
        if FrameColumns(converted).Ok? {
          var cols := FrameColumns(converted).value.0;
          assert cols == frame.0 + {c};
          forall d ensures d in cols <==> Label(d) in converted {
            assert Label(d) in converted <==> Label(d) == name || Label(d) in rest;
          }
          assert multiset(converted) == multiset{name} + multiset(rest);
        }
      }
    }
  }

  /** A list of names is readable when its first name is a label, not repeated unless INFO, and the rest is readable. */
  lemma ReadableCons(converted: seq<string>)
    requires converted != []
    ensures Readable(converted) <==>
      && ColOf(converted[0]).Some? && Readable(converted[1..])
      && (converted[0] in converted[1..] ==> converted[0] == "INFO")
  {
    var name, rest := converted[0], converted[1..];
    assert forall i :: 0 < i < |converted| ==> converted[i] == rest[i - 1];
    if name in rest && Readable(converted) {
      var j :| 0 <= j < |rest| && rest[j] == name;
      assert converted[j + 1] == name;
    }
  }

  lemma LabelInjective(c: Col)
    ensures forall d :: Label(d) == Label(c) ==> d == c
  {
  }
}

=== FILE: convert.dfy ===
/**
 * The script from its options to the chi-square frame it writes (sumstats_to_chisq2.py:
 * 329-801): the header stage decides the columns, the rows are read and filtered, the
 * sample size and chi-square are set, the allele block runs, and the output columns are
 * chosen.
 */
module Convert {
  import opened Wrappers
  import opened Errors
  import opened Seqs
  import opened Table
  import opened Headers
  import opened Flags
  import opened Columns
  import opened QualityFilter
  import opened Chunks
  import opened SampleSize
  import opened Alleles

  /**
   * The command line: the column flags, --merge, the parsed --merge-alleles file, whether
   * the file is read in chunks (the default) and --filter-finally, the --info-min and --maf
   * thresholds, the sample-size options, --no-alleles; and what the script takes from its
   * libraries: float(), the chi-square inverse survival function, and the strand and
   * match tables.
   */
  datatype Options = Options(
    overrides: Overrides, parseFloat: string -> Option<real>,
    merge: bool, mergeAlleles: Option<seq<Reference>>,
    chunked: bool, filterFinally: bool, infoMin: real, mafMin: real,
    sample: SampleArgs, noAlleles: bool,
    isf: real -> real, ambiguous: map<string, bool>, matching: map<string, bool>)

  /**
   * Lines 330-515: the checks and column choices made from the header alone; the result is
   * the converted names of the columns read.
   */
  function HeaderColumns(colnames: seq<string>, a: Options): Result<seq<string>, Error> {
    var signed := a.overrides.signedSumstats;
    if a.merge && a.mergeAlleles.Some? then Err(IncompatibleMerge)
    else match RegisterAll(Conversion, map[], Steps(a.overrides, a.parseFloat))
      case Err(e) => Err(e)
      case Ok(flags) =>
        match UseCols(Conversion, colnames, flags)
        case Err(e) => Err(e)
        case Ok(usecols) =>
          match ConvertAll(usecols, flags)
          case Err(e) => Err(e)
          case Ok(first) =>
            match PruneSigned(usecols, first, flags, signed)
            case Err(e) => Err(e)
            case Ok(pruned) =>
              match ConvertAll(pruned, flags)
              case Err(e) => Err(e)
              case Ok(converted) =>
                match Required(converted, a.sample.n, a.sample.nCas, a.sample.nCon, signed)
                case Err(e) => Err(e)
                case Ok(_) => Ok(converted)
  }

  /** The SNP identifiers of the --merge-alleles file. */
  function ReferenceIds(refs: seq<Reference>): set<string> {
    set r | r in refs :: r.snp
  }

  function ReadingOf(frame: (set<Col>, nat), a: Options): Reading {
    Reading(frame.0, frame.1,
      if a.mergeAlleles.Some? then Some(ReferenceIds(a.mergeAlleles.value)) else None,
      a.infoMin, a.mafMin, a.filterFinally)
  }

  /** Lines 536-600: chunk by chunk, or the whole file at once. */
  function ReadFrame(g: Reading, chunks: seq<seq<Row>>, chunked: bool): Result<Table, Error> {
    if chunked then ChunkedRead(g, chunks) else WholeRead(g, Concat(chunks))
  }

  /** Lines 610-652: sample size, the low-N block, chi-square. */
  function Prepared(t: Table, a: Options): Result<Table, Error> {
    match ChooseSampleSize(t, a.sample)
    case Err(e) => Err(e)
    case Ok(sized) =>
      match LowN(sized, a.sample)
      case Err(e) => Err(e)
      case Ok(kept) => Ok(ToChiSquare(kept, a.isf))
  }

  /** The frame as it enters the allele block at line 655. */
  function Staged(colnames: seq<string>, chunks: seq<seq<Row>>, a: Options): Result<Table, Error> {
    match HeaderColumns(colnames, a)
    case Err(e) => Err(e)
    case Ok(converted) => StagedFrom(converted, chunks, a)
  }

  /** Lines 523-652 once the header stage has chosen the converted column names. */
  function StagedFrom(converted: seq<string>, chunks: seq<seq<Row>>, a: Options): Result<Table, Error> {
    match FrameColumns(converted)
    case Err(e) => Err(e)
    case Ok(frame) =>
      match ReadFrame(ReadingOf(frame, a), chunks, a.chunked)
      case Err(e) => Err(e)
      case Ok(t) => Prepared(t, a)
  }

  function AlleleArgsOf(a: Options): AlleleArgs {
    var signed := a.overrides.signedSumstats;
    AlleleArgs(a.noAlleles, signed.Some?, SignedNull(signed, a.parseFloat),
      a.mergeAlleles, a.ambiguous, a.matching)
  }

  /** The written columns, in the order of line 800, and the frame they are taken from. */
  datatype Output = Output(columns: seq<Col>, frame: Table)

  /** `[c] if c in dat.columns`, one entry of the comprehension of lines 800-801. */
  function Present(c: Col, cols: set<Col>): seq<Col> {
    if c in cols then [c] else []
  }

  /**
   * Lines 800-801: SNP, INFO, N, CHISQ, MAF, INC_ALLELE and DEC_ALLELE, in that order, as far
   * as the frame has them. No step ever creates a MAF column (the frequency column is FRQ,
   * and the filter drops it), so that entry is always empty and is omitted.
   */
  function OutputColumns(cols: set<Col>): seq<Col> {
    Present(SNP, cols) + Present(INFO, cols) + Present(N, cols) + Present(CHISQ, cols)
      + Present(INC_ALLELE, cols) + Present(DEC_ALLELE, cols)
  }

  /** The whole conversion, or the error it raises. */
  function Converted(colnames: seq<string>, chunks: seq<seq<Row>>, a: Options): Result<Output, Error> {
    match Staged(colnames, chunks, a)
    case Err(e) => Err(e)
    case Ok(t) =>
      match AlleleBlock(t, AlleleArgsOf(a))
      case Err(e) => Err(e)
      case Ok(done) => Ok(Output(OutputColumns(done.cols), done))
  }

  /** Every row of the file has one INFO entry per INFO column that the header stage selected. */
  predicate RowsShaped(colnames: seq<string>, chunks: seq<seq<Row>>, a: Options) {
    HeaderColumns(colnames, a).Ok? ==>
      forall c, x :: c in chunks && x in c ==> |x.info| == multiset(HeaderColumns(colnames, a).value)["INFO"]
  }

  /** Lines 330-515 as the script runs them, with the registry and the selection as methods. */
  method ChooseColumns(colnames: seq<string>, a: Options) returns (r: Result<seq<string>, Error>)
    ensures r == HeaderColumns(colnames, a)
  {
    var signed := a.overrides.signedSumstats;
    if a.merge && a.mergeAlleles.Some? {
      return Err(IncompatibleMerge);
    }
    var flags := BuildFlagColnames(Conversion, a.overrides, a.parseFloat);
    if flags.Err? { return Err(flags.error); }
    var usecols := SelectColumns(Conversion, colnames, flags.value);
    if usecols.Err? { return Err(usecols.error); }
    var first := ConvertAll(usecols.value, flags.value);
    if first.Err? { return Err(first.error); }
    var pruned := PruneSigned(usecols.value, first.value, flags.value, signed);
    if pruned.Err? { return Err(pruned.error); }
    var converted := ConvertAll(pruned.value, flags.value);
    if converted.Err? { return Err(converted.error); }
    var checked := Required(converted.value, a.sample.n, a.sample.nCas, a.sample.nCon, signed);
    if checked.Err? { return Err(checked.error); }
    r := Ok(converted.value);
  }

  /** The script's main body: the header stage, the reading, and the allele block. */
  method Convert(colnames: seq<string>, chunks: seq<seq<Row>>, a: Options) returns (r: Result<Output, Error>)
    requires RowsShaped(colnames, chunks, a)
    ensures r == Converted(colnames, chunks, a)
  {
    var converted := ChooseColumns(colnames, a);
    if converted.Err? { return Err(converted.error); }
    HeaderChecked(colnames, a);
    var frame := FrameColumns(converted.value);
    if frame.Err? { return Err(frame.error); }
    var g := ReadingOf(frame.value, a);
    var dat: Result<Table, Error>;
    if a.chunked {
      ReadingReady(converted.value, chunks, a);
      var counts;
      dat, counts := ReadChunks(g, chunks);
    } else {
      dat := WholeRead(g, Concat(chunks));
    }
    if dat.Err? { return Err(dat.error); }
    var prepared := Prepared(dat.value, a);
    if prepared.Err? { return Err(prepared.error); }
    assert Staged(colnames, chunks, a) == prepared;
    var done := RunAlleleBlock(prepared.value, AlleleArgsOf(a));
    if done.Err? { return Err(done.error); }
    r := Ok(Output(OutputColumns(done.value.cols), done.value));
  }

  /** A header that passes the checks of lines 503-515 has SNP, P, A1 and A2 columns. */
  lemma HeaderChecked(colnames: seq<string>, a: Options)
    requires HeaderColumns(colnames, a).Ok?
    ensures var converted := HeaderColumns(colnames, a).value;
      "SNP" in converted && "P" in converted && "A1" in converted && "A2" in converted
  {
  }

  /** The header stage leaves what the chunk loop needs: SNP, P, and matching INFO entries. */
  lemma ReadingReady(converted: seq<string>, chunks: seq<seq<Row>>, a: Options)
    requires FrameColumns(converted).Ok?
    requires "SNP" in converted && "P" in converted
    requires forall c, x :: c in chunks && x in c ==> |x.info| == multiset(converted)["INFO"]
    ensures Chunks.Readable(ReadingOf(FrameColumns(converted).value, a))
    ensures forall c :: c in chunks ==> Shaped(ReadingOf(FrameColumns(converted).value, a), c)
  {
    FrameColumnsIff(converted);
    assert Label(SNP) == "SNP" && Label(P) == "P" && Label(INFO) == "INFO";
  }

  // ---------------------------------------------------------------------------------------
  // What each stage does to the columns.

  /** Reading drops INFO and FRQ, which filter_snps removes after using them. */
  lemma ReadColumns(g: Reading, chunks: seq<seq<Row>>, chunked: bool)
    ensures ReadFrame(g, chunks, chunked).Ok? ==> ReadFrame(g, chunks, chunked).value.cols == g.cols - {INFO, FRQ}
  {
  }

  /** Lines 610-652 add N when it is not a column yet, and turn P into CHISQ. */
  lemma PreparedColumns(t: Table, a: Options)
    ensures Prepared(t, a).Ok? ==> Prepared(t, a).value.cols == t.cols + {N} - {P} + {CHISQ}
  {
    if ChooseSampleSize(t, a.sample).Ok? && ChooseSampleSize(t, a.sample).value == t {
      assert N in t.cols;
    }
  }

  /** The frame entering the allele block: the columns read, less INFO, FRQ and P, plus N and CHISQ. */
  lemma StagedColumns(converted: seq<string>, chunks: seq<seq<Row>>, a: Options)
    ensures StagedFrom(converted, chunks, a).Ok? ==>
      StagedFrom(converted, chunks, a).value.cols == StagedCols(FrameColumns(converted).value.0)
  {
    if StagedFrom(converted, chunks, a).Ok? {
      var frame := FrameColumns(converted).value;
      var g := ReadingOf(frame, a);
      var t := ReadFrame(g, chunks, a.chunked).value;
      assert StagedFrom(converted, chunks, a) == Prepared(t, a);
      ReadColumns(g, chunks, a.chunked);
      PreparedColumns(t, a);
    }
  }

  /** The frame's SNP, allele and direction columns, by their labels. */
  lemma FrameHasNamed(converted: seq<string>)
    requires FrameColumns(converted).Ok?
    ensures var frame := FrameColumns(converted).value.0;
      && (SNP in frame <==> "SNP" in converted) && (A1 in frame <==> "A1" in converted)
      && (A2 in frame <==> "A2" in converted) && (INC_ALLELE in frame <==> "INC_ALLELE" in converted)
      && (DEC_ALLELE in frame <==> "DEC_ALLELE" in converted)
  {
    FrameHas(converted, SNP);
    FrameHas(converted, A1);
    FrameHas(converted, A2);
    FrameHas(converted, INC_ALLELE);
    FrameHas(converted, DEC_ALLELE);
  }

  /** A column of the frame read for each of the given labels. */
  lemma FrameHas(converted: seq<string>, c: Col)
    requires FrameColumns(converted).Ok?
    ensures c in FrameColumns(converted).value.0 <==> Label(c) in converted
  {
    FrameColumnsIff(converted);
  }

  /** Every column the header stage keeps has a canonical name. */
  lemma HeaderCanonical(colnames: seq<string>, a: Options)
    requires HeaderColumns(colnames, a).Ok?
    ensures forall i :: 0 <= i < |HeaderColumns(colnames, a).value| ==> HeaderColumns(colnames, a).value[i] in Canonical
  {
    var signed := a.overrides.signedSumstats;
    var flags := RegisterAll(Conversion, map[], Steps(a.overrides, a.parseFloat)).value;
    RegistryCanonical(a.overrides, a.parseFloat);
    var usecols := UseCols(Conversion, colnames, flags).value;
    var first := ConvertAll(usecols, flags).value;
    var pruned := PruneSigned(usecols, first, flags, signed).value;
    PrunedWithin(usecols, first, flags, signed);
    ConvertAllValues(pruned, flags);
    forall i | 0 <= i < |pruned| ensures ConvertColname(pruned[i], Some(flags)).value in Canonical {
      var x := pruned[i];
      SelectedConvert(colnames, flags, x);
      if CleanHeader(x) !in flags {
        ConversionTargetsCanonical(CleanHeader(x));
      }
    }
  }

  lemma PrunedWithin(usecols: seq<string>, converted: seq<string>, flags: map<string, string>, signed: Option<string>)
    requires PruneSigned(usecols, converted, flags, signed).Ok?
    ensures forall x :: x in PruneSigned(usecols, converted, flags, signed).value ==> x in usecols
  {
  }

  // ---------------------------------------------------------------------------------------
  // Properties of the whole conversion.

  /**
   * The error of line 796 cannot be raised: the header check of line 514 already demands
   * A1 and A2, so the frame reaching the allele block always has both.
   */
  lemma AlleleColumnsAlwaysPresent(colnames: seq<string>, chunks: seq<seq<Row>>, a: Options)
    ensures Staged(colnames, chunks, a).Ok? ==>
      A1 in Staged(colnames, chunks, a).value.cols && A2 in Staged(colnames, chunks, a).value.cols
  {
    if Staged(colnames, chunks, a).Ok? {
      var converted := HeaderColumns(colnames, a).value;
      HeaderChecked(colnames, a);
      AllelesStaged(converted, chunks, a);
    }
  }

  lemma AllelesStaged(converted: seq<string>, chunks: seq<seq<Row>>, a: Options)
    requires "A1" in converted && "A2" in converted
    ensures StagedFrom(converted, chunks, a).Ok? ==>
      A1 in StagedFrom(converted, chunks, a).value.cols && A2 in StagedFrom(converted, chunks, a).value.cols
  {
    if StagedFrom(converted, chunks, a).Ok? {
      StagedColumns(converted, chunks, a);
      StagedColsHave(FrameColumns(converted).value.0);
      FrameHasNamed(converted);
    }
  }

  /** The columns staged from a frame: INFO, FRQ and P go, N and CHISQ come. */
  function StagedCols(frame: set<Col>): set<Col> {
    frame - {INFO, FRQ} + {N} - {P} + {CHISQ}
  }

  lemma StagedColsHave(frame: set<Col>)
    ensures var cols := StagedCols(frame);
      && N in cols && CHISQ in cols && INFO !in cols
      && (SNP in cols <==> SNP in frame) && (A1 in cols <==> A1 in frame) && (A2 in cols <==> A2 in frame)
      && (INC_ALLELE in cols <==> INC_ALLELE in frame) && (DEC_ALLELE in cols <==> DEC_ALLELE in frame)
  {
  }

  /** The written columns of a staged frame read with SNP, A1 and A2, and without INC/DEC. */
  lemma OutputOfStaged(t: Table, frame: set<Col>, a: AlleleArgs)
    requires t.cols == StagedCols(frame)
    requires SNP in frame && A1 in frame && A2 in frame && INC_ALLELE !in frame && DEC_ALLELE !in frame
    ensures AlleleBlock(t, a).Ok? ==>
      OutputColumns(AlleleBlock(t, a).value.cols) == [SNP, N, CHISQ] + (if a.noAlleles then [] else [INC_ALLELE, DEC_ALLELE])
  {
    if AlleleBlock(t, a).Ok? {
      StagedColsHave(frame);
      AlleleBlockColumns(t, a);
      OutputOfCols(AlleleBlock(t, a).value.cols, a.noAlleles);
    }
  }

  /** Which of the output columns a frame with SNP, N and CHISQ and without INFO writes. */
  lemma OutputOfCols(cols: set<Col>, noAlleles: bool)
    requires SNP in cols && N in cols && CHISQ in cols && INFO !in cols
    requires (INC_ALLELE in cols <==> !noAlleles) && (DEC_ALLELE in cols <==> !noAlleles)
    ensures OutputColumns(cols) == [SNP, N, CHISQ] + (if noAlleles then [] else [INC_ALLELE, DEC_ALLELE])
  {
  }

  /** The header columns never include the INC/DEC names, which only the allele block creates. */
  lemma NoDirectionHeader(colnames: seq<string>, a: Options)
    requires HeaderColumns(colnames, a).Ok?
    ensures "INC_ALLELE" !in HeaderColumns(colnames, a).value && "DEC_ALLELE" !in HeaderColumns(colnames, a).value
  {
    HeaderCanonical(colnames, a);
    DirectionNotCanonical();
  }

  /**
   * The written file always has the columns SNP, N and CHISQ, in that order, followed by
   * INC_ALLELE and DEC_ALLELE unless --no-alleles; INFO and MAF never appear.
   */
  lemma OutputColumnsFixed(colnames: seq<string>, chunks: seq<seq<Row>>, a: Options)
    ensures Converted(colnames, chunks, a).Ok? ==>
      Converted(colnames, chunks, a).value.columns ==
        [SNP, N, CHISQ] + (if a.noAlleles then [] else [INC_ALLELE, DEC_ALLELE])
  {
    if Converted(colnames, chunks, a).Ok? {
      var converted := HeaderColumns(colnames, a).value;
      HeaderChecked(colnames, a);
      NoDirectionHeader(colnames, a);
      OutputFrom(converted, chunks, a);
    }
  }

  lemma OutputFrom(converted: seq<string>, chunks: seq<seq<Row>>, a: Options)
    requires "SNP" in converted && "A1" in converted && "A2" in converted
    requires "INC_ALLELE" !in converted && "DEC_ALLELE" !in converted
    ensures StagedFrom(converted, chunks, a).Ok? && AlleleBlock(StagedFrom(converted, chunks, a).value, AlleleArgsOf(a)).Ok? ==>
      OutputColumns(AlleleBlock(StagedFrom(converted, chunks, a).value, AlleleArgsOf(a)).value.cols) ==
        [SNP, N, CHISQ] + (if a.noAlleles then [] else [INC_ALLELE, DEC_ALLELE])
  {
    if StagedFrom(converted, chunks, a).Ok? {
      var t := StagedFrom(converted, chunks, a).value;
      StagedColumns(converted, chunks, a);
      var frame := FrameColumns(converted).value.0;
      FrameHasNamed(converted);
      assert SNP in frame && A1 in frame && A2 in frame && INC_ALLELE !in frame && DEC_ALLELE !in frame;
      OutputOfStaged(t, frame, AlleleArgsOf(a));
    }
  }

  /** Reading the whole file, or filtering the concatenation finally, leaves one row per SNP. */
  lemma ReadUnique(g: Reading, chunks: seq<seq<Row>>, chunked: bool)
    requires !chunked || g.filterFinally
    ensures ReadFrame(g, chunks, chunked).Ok? ==> Distinct(Snps(ReadFrame(g, chunks, chunked).value.rows))
  {
    if ReadFrame(g, chunks, chunked).Ok? {
      if chunked {
        FilteredUnique(Table(g.cols, g.infoCols, Concat(Parts(g, chunks))), g.infoMin, g.mafMin);
      } else {
        FilteredUnique(Table(g.cols, g.infoCols, Restrict(Concat(chunks), g.reference)), g.infoMin, g.mafMin);
      }
    }
  }

  /** Setting the sample size and the chi-square statistic leaves the SNP column alone. */
  lemma PreparedSnps(t: Table, a: Options)
    ensures Prepared(t, a).Ok? ==> Snps(Prepared(t, a).value.rows) == Snps(t.rows)
  {
    if Prepared(t, a).Ok? {
      var sized := ChooseSampleSize(t, a.sample).value;
      assert Snps(sized.rows) == Snps(t.rows);
      assert Prepared(t, a).value == ToChiSquare(sized, a.isf);
      assert Snps(ToChiSquare(sized, a.isf).rows) == Snps(sized.rows);
    }
  }

  lemma StagedUnique(converted: seq<string>, chunks: seq<seq<Row>>, a: Options)
    requires !a.chunked || a.filterFinally
    ensures StagedFrom(converted, chunks, a).Ok? ==> Distinct(Snps(StagedFrom(converted, chunks, a).value.rows))
  {
    if StagedFrom(converted, chunks, a).Ok? {
      var g := ReadingOf(FrameColumns(converted).value, a);
      var t := ReadFrame(g, chunks, a.chunked).value;
      assert StagedFrom(converted, chunks, a) == Prepared(t, a);
      ReadUnique(g, chunks, a.chunked);
      PreparedSnps(t, a);
    }
  }

  lemma MergeFrom(converted: seq<string>, chunks: seq<seq<Row>>, a: Options)
    requires "A1" in converted && "A2" in converted
    requires (!a.chunked || a.filterFinally) && a.mergeAlleles.Some? && !a.noAlleles
    ensures StagedFrom(converted, chunks, a).Ok? && AlleleBlock(StagedFrom(converted, chunks, a).value, AlleleArgsOf(a)).Ok? ==>
      Snps(AlleleBlock(StagedFrom(converted, chunks, a).value, AlleleArgsOf(a)).value.rows) == ReferenceSnps(a.mergeAlleles.value)
  {
    if StagedFrom(converted, chunks, a).Ok? {
      AllelesStaged(converted, chunks, a);
      StagedUnique(converted, chunks, a);
      BlockFollowsReference(StagedFrom(converted, chunks, a).value, AlleleArgsOf(a));
    }
  }

  /**
   * With --merge-alleles, when the frame is filtered as a whole (without chunks, or with
   * --filter-finally), the written rows are the SNPs of the --merge-alleles file, one per
   * line of that file and in its order.
   */
  lemma MergeFollowsReference(colnames: seq<string>, chunks: seq<seq<Row>>, a: Options)
    requires (!a.chunked || a.filterFinally) && a.mergeAlleles.Some? && !a.noAlleles
    ensures Converted(colnames, chunks, a).Ok? ==>
      Snps(Converted(colnames, chunks, a).value.frame.rows) == ReferenceSnps(a.mergeAlleles.value)
  {
    if Converted(colnames, chunks, a).Ok? {
      HeaderChecked(colnames, a);
      MergeFrom(HeaderColumns(colnames, a).value, chunks, a);
    }
  }
}

=== FILE: flags.dfy ===
/**
 * The override registry flag_colnames (sumstats_to_chisq2.py:333-447): each column-name
 * flag claims the cleaned header it names for one canonical column, after two conflict
 * checks.
 */
module Flags {
  import opened Wrappers
  import opened Errors
  import opened Headers

  /** The column-name flags, as given on the command line (None when absent). */
  datatype Overrides = Overrides(
    snp: Option<string>, nCol: Option<string>, nCasCol: Option<string>,
    nConCol: Option<string>, a1: Option<string>, a2: Option<string>, p: Option<string>,
    frq: Option<string>, info: Option<string>, infoList: Option<string>,
    signedSumstats: Option<string>)

  /** `if args.x:` -- a flag counts only when given and non-empty. */
  predicate Given(o: Option<string>) {
    o.Some? && o.value != ""
  }

  /** The meanings --signed-sumstats may take over from the synonym table. */
  const SignedMeanings: set<string> := {"BETA", "Z", "OR", "SIGNED_SUMSTAT", "LOG_ODDS"}

  /** The canonical names a flag can claim. */
  const FlagTargets: set<string> :=
    {"SNP", "N", "N_CAS", "N_CON", "A1", "A2", "P", "FRQ", "INFO", "SIGNED_SUMSTAT"}

  /**
   * One registration block of the script: a flag claims the header `raw` for `target`,
   * and the synonym table may already give that header only a meaning in `allowed`.
   * Reject stands for an argument that fails to parse before or after its claim.
   */
  datatype Step =
    | Claim(flag: string, raw: string, target: string, allowed: set<string>)
    | Reject(error: Error)

  /**
   * One registration block: fail when another flag claimed the header already, or when the
   * synonym table gives it a meaning outside `allowed`; otherwise add exactly one key.
   * `table` is the synonym table; the script uses Headers.Conversion, and the lemmas below
   * hold for any table.
   */
  function Register(table: map<string, string>, flags: map<string, string>, step: Step): (r: Result<map<string, string>, Error>)
    requires step.Claim?
    ensures r.Err? <==> CleanHeader(step.raw) in flags ||
                        (CleanHeader(step.raw) in table && table[CleanHeader(step.raw)] !in step.allowed)
    ensures r.Ok? ==> r.value.Keys == flags.Keys + {CleanHeader(step.raw)}
    ensures r.Ok? ==> r.value[CleanHeader(step.raw)] == step.target
    ensures r.Ok? ==> forall k :: k in flags ==> r.value[k] == flags[k]
  {
    var clean := CleanHeader(step.raw);
    if clean in flags then Err(FlagOverloaded(step.flag))
    else if clean in table && table[clean] !in step.allowed then
      Err(FlagProtected(step.flag, table[clean]))
    else Ok(flags[clean := step.target])
  }

  /** The registration blocks in the script's order, for the flags that were given. */
  function Steps(o: Overrides, parseFloat: string -> Option<real>): seq<Step> {
    ClaimIfGiven(o.snp, "--snp", "SNP") + ClaimIfGiven(o.nCol, "--N-col", "N")
    + ClaimIfGiven(o.nCasCol, "--N-cas-col", "N_CAS")
    + ClaimIfGiven(o.nConCol, "--N-con-col", "N_CON")
    + ClaimIfGiven(o.a1, "--a1", "A1") + ClaimIfGiven(o.a2, "--a2", "A2")
    + ClaimIfGiven(o.p, "--p", "P") + ClaimIfGiven(o.frq, "--frq", "FRQ")
    + ClaimIfGiven(o.info, "--info", "INFO")
    + InfoListSteps(o.infoList) + SignedSteps(o.signedSumstats, parseFloat)
  }

  function ClaimIfGiven(o: Option<string>, flag: string, target: string): seq<Step> {
    if Given(o) then [Claim(flag, o.value, target, {target})] else []
  }

  /** --info-list: every comma-separated name claims a header for INFO. */
  function InfoListSteps(o: Option<string>): seq<Step> {
    if Given(o) then
      var names := Split(o.value, ',');
      seq(|names|, i requires 0 <= i < |names| => Claim("--info-list", names[i], "INFO", {"INFO"}))
    else []
  }

  /**
   * --signed-sumstats "name,null": exactly two comma-separated parts, else the unpacking
   * raises; the name may take over any signed-statistic meaning; the null value is
   * converted with float() after the claim.
   */
  function SignedSteps(o: Option<string>, parseFloat: string -> Option<real>): seq<Step> {
    if Given(o) then
      var parts := Split(o.value, ',');
      if |parts| != 2 then [Reject(MalformedSignedSumstats)]
      else
        [Claim("--signed-sumstats", parts[0], "SIGNED_SUMSTAT", SignedMeanings)]
        + (if parseFloat(parts[1]).None? then [Reject(BadNullValue)] else [])
    else []
  }

  /** Every claim of the blocks is for one of `targets`. */
  predicate TargetsIn(steps: seq<Step>, targets: set<string>) {
    forall i :: 0 <= i < |steps| && steps[i].Claim? ==> steps[i].target in targets
  }

  lemma TargetsAppend(a: seq<Step>, b: seq<Step>, targets: set<string>)
    requires TargetsIn(a, targets) && TargetsIn(b, targets)
    ensures TargetsIn(a + b, targets)
  {
    forall i | 0 <= i < |a + b| && (a + b)[i].Claim? ensures (a + b)[i].target in targets {
      if i >= |a| { assert (a + b)[i] == b[i - |a|]; }
    }
  }

  /** Every flag claims one of the flag targets. */
  lemma StepsTargets(o: Overrides, parseFloat: string -> Option<real>)
    ensures TargetsIn(Steps(o, parseFloat), FlagTargets)
  {
    var t := FlagTargets;
    var acc := ClaimIfGiven(o.snp, "--snp", "SNP");
    var next := ClaimIfGiven(o.nCol, "--N-col", "N");
    TargetsAppend(acc, next, t); acc := acc + next;
    next := ClaimIfGiven(o.nCasCol, "--N-cas-col", "N_CAS");
    TargetsAppend(acc, next, t); acc := acc + next;
    next := ClaimIfGiven(o.nConCol, "--N-con-col", "N_CON");
    TargetsAppend(acc, next, t); acc := acc + next;
    next := ClaimIfGiven(o.a1, "--a1", "A1");
    TargetsAppend(acc, next, t); acc := acc + next;
    next := ClaimIfGiven(o.a2, "--a2", "A2");
    TargetsAppend(acc, next, t); acc := acc + next;
    next := ClaimIfGiven(o.p, "--p", "P");
    TargetsAppend(acc, next, t); acc := acc + next;
    next := ClaimIfGiven(o.frq, "--frq", "FRQ");
    TargetsAppend(acc, next, t); acc := acc + next;
    next := ClaimIfGiven(o.info, "--info", "INFO");
    TargetsAppend(acc, next, t); acc := acc + next;
    next := InfoListSteps(o.infoList);
    TargetsAppend(acc, next, t); acc := acc + next;
    next := SignedSteps(o.signedSumstats, parseFloat);
    TargetsAppend(acc, next, t); acc := acc + next;
  }

  /** SIGNED_SUMSTAT_NULL_VALUE, defined only when --signed-sumstats parsed. */
  function SignedNull(o: Option<string>, parseFloat: string -> Option<real>): (v: Option<real>)
    ensures v.Some? ==> Given(o)
  {
    if Given(o) then
      var parts := Split(o.value, ',');
      if |parts| == 2 then parseFloat(parts[1]) else None
    else None
  }

  /** The registration blocks run in order from `flags`; the first failure stops them. */
  function RegisterAll(table: map<string, string>, flags: map<string, string>, steps: seq<Step>): Result<map<string, string>, Error>
    decreases |steps|
  {
    if steps == [] then Ok(flags)
    else match steps[0]
      case Reject(e) => Err(e)
      case Claim(_, _, _, _) =>
        match Register(table, flags, steps[0])
        case Err(e) => Err(e)
        case Ok(next) => RegisterAll(table, next, steps[1..])
  }

  /** The condition under which every block succeeds. */
  predicate Admissible(table: map<string, string>, flags: map<string, string>, steps: seq<Step>) {
    && (forall i :: 0 <= i < |steps| ==> steps[i].Claim?)
    && (forall i :: 0 <= i < |steps| && steps[i].Claim? ==> CleanHeader(steps[i].raw) !in flags)
    && (forall i, j :: 0 <= i < j < |steps| && steps[i].Claim? && steps[j].Claim? ==>
          CleanHeader(steps[i].raw) != CleanHeader(steps[j].raw))
    && (forall i :: 0 <= i < |steps| && steps[i].Claim? && CleanHeader(steps[i].raw) in table ==>
          table[CleanHeader(steps[i].raw)] in steps[i].allowed)
  }

  /** Admissibility unfolds one block at a time, exactly as RegisterAll does. */
  lemma AdmissibleStep(table: map<string, string>, flags: map<string, string>, steps: seq<Step>)
    requires steps != [] && steps[0].Claim? && Register(table, flags, steps[0]).Ok?
    ensures Admissible(table, flags, steps) <==> Admissible(table, Register(table, flags, steps[0]).value, steps[1..])
  {
    var next := Register(table, flags, steps[0]).value;
    var rest := steps[1..];
    if Admissible(table, flags, steps) {
      forall i | 0 <= i < |rest| && rest[i].Claim?
        ensures CleanHeader(rest[i].raw) !in next
      {
        assert rest[i] == steps[i + 1];
      }
      forall i, j | 0 <= i < j < |rest| && rest[i].Claim? && rest[j].Claim?
        ensures CleanHeader(rest[i].raw) != CleanHeader(rest[j].raw)
      {
        assert rest[i] == steps[i + 1] && rest[j] == steps[j + 1];
      }
      forall i | 0 <= i < |rest| && rest[i].Claim? && CleanHeader(rest[i].raw) in table
        ensures table[CleanHeader(rest[i].raw)] in rest[i].allowed
      {
        assert rest[i] == steps[i + 1];
      }
      forall i | 0 <= i < |rest| ensures rest[i].Claim? {
        assert rest[i] == steps[i + 1];
      }
    }
    if Admissible(table, next, rest) {
      forall i | 0 <= i < |steps| ensures steps[i].Claim? {
        if i > 0 { assert steps[i] == rest[i - 1]; }
      }
      forall i | 0 <= i < |steps| && steps[i].Claim? ensures CleanHeader(steps[i].raw) !in flags {
        if i > 0 { assert steps[i] == rest[i - 1]; }
      }
      forall i, j | 0 <= i < j < |steps| && steps[i].Claim? && steps[j].Claim?
        ensures CleanHeader(steps[i].raw) != CleanHeader(steps[j].raw)
      {
        assert steps[j] == rest[j - 1];
        if i > 0 { assert steps[i] == rest[i - 1]; }
      }
      forall i | 0 <= i < |steps| && steps[i].Claim? && CleanHeader(steps[i].raw) in table
        ensures table[CleanHeader(steps[i].raw)] in steps[i].allowed
      {
        if i > 0 { assert steps[i] == rest[i - 1]; }
      }
    }
  }

  /**
   * Registration succeeds exactly when no two flags clean to the same header, none names
   * an already-claimed header, and none relabels a header the synonym table gives another
   * meaning.
   */
  lemma {:induction false} RegisterAllSucceeds(table: map<string, string>, flags: map<string, string>, steps: seq<Step>)
    ensures RegisterAll(table, flags, steps).Ok? <==> Admissible(table, flags, steps)
    decreases |steps|
  {
    if steps != [] && steps[0].Claim? {
      if Register(table, flags, steps[0]).Ok? {
        AdmissibleStep(table, flags, steps);
        RegisterAllSucceeds(table, Register(table, flags, steps[0]).value, steps[1..]);
      }
    }
  }

  /** The headers the blocks claim. */
  function Claimed(steps: seq<Step>): set<string> {
    set i | 0 <= i < |steps| && steps[i].Claim? :: CleanHeader(steps[i].raw)
  }

  lemma ClaimedCons(steps: seq<Step>)
    requires steps != [] && steps[0].Claim?
    ensures Claimed(steps) == {CleanHeader(steps[0].raw)} + Claimed(steps[1..])
  {
    var rest := steps[1..];
    forall x | x in Claimed(steps) ensures x in {CleanHeader(steps[0].raw)} + Claimed(rest) {
      var i :| 0 <= i < |steps| && steps[i].Claim? && CleanHeader(steps[i].raw) == x;
      if i > 0 { assert steps[i] == rest[i - 1]; }
    }
    forall x | x in Claimed(rest) ensures x in Claimed(steps) {
      var i :| 0 <= i < |rest| && rest[i].Claim? && CleanHeader(rest[i].raw) == x;
      assert rest[i] == steps[i + 1];
    }
  }

  /** A successful registration keeps the earlier entries and adds exactly the claimed headers. */
  lemma {:induction false} RegisterAllResult(table: map<string, string>, flags: map<string, string>, steps: seq<Step>)
    requires RegisterAll(table, flags, steps).Ok?
    ensures RegisterAll(table, flags, steps).value.Keys == flags.Keys + Claimed(steps)
    ensures forall k :: k in flags ==> RegisterAll(table, flags, steps).value[k] == flags[k]
    decreases |steps|
  {
    if steps != [] {
      assert steps[0].Claim?;
      var next := Register(table, flags, steps[0]).value;
      var rest := steps[1..];
      assert RegisterAll(table, flags, steps) == RegisterAll(table, next, rest);
      RegisterAllResult(table, next, rest);
      ClaimedCons(steps);
    }
  }

  /** After a successful registration, the i-th block's header maps to that block's target. */
  lemma {:induction false} RegisterAllTarget(table: map<string, string>, flags: map<string, string>, steps: seq<Step>, i: nat)
    requires RegisterAll(table, flags, steps).Ok? && i < |steps|
    ensures steps[i].Claim? && CleanHeader(steps[i].raw) in RegisterAll(table, flags, steps).value
    ensures RegisterAll(table, flags, steps).value[CleanHeader(steps[i].raw)] == steps[i].target
    decreases |steps|
  {
    assert steps[0].Claim?;
    var next := Register(table, flags, steps[0]).value;
    var rest := steps[1..];
    assert RegisterAll(table, flags, steps) == RegisterAll(table, next, rest);
    if i == 0 {
      RegisterAllResult(table, next, rest);
      assert CleanHeader(steps[0].raw) in next;
    } else {
      RegisterAllTarget(table, next, rest, i - 1);
      assert steps[i] == rest[i - 1];
    }
  }

  /** Every value a registration stores is the target of some block. */
  lemma {:induction false} RegisterAllValues(table: map<string, string>, flags: map<string, string>, steps: seq<Step>, targets: set<string>)
    requires RegisterAll(table, flags, steps).Ok?
    requires flags.Values <= targets
    requires TargetsIn(steps, targets)
    ensures RegisterAll(table, flags, steps).value.Values <= targets
    decreases |steps|
  {
    if steps != [] {
      var next := Register(table, flags, steps[0]).value;
      assert next.Values <= targets by {
        forall v | v in next.Values ensures v in targets {
          var k :| k in next && next[k] == v;
          if k != CleanHeader(steps[0].raw) { assert flags[k] in flags.Values; }
        }
      }
      forall i | 0 <= i < |steps[1..]| && steps[1..][i].Claim? ensures steps[1..][i].target in targets {
        assert steps[1..][i] == steps[i + 1];
      }
      RegisterAllValues(table, next, steps[1..], targets);
    }
  }

  /** The registry only ever maps headers to canonical column names. */
  lemma RegistryCanonical(o: Overrides, parseFloat: string -> Option<real>)
    requires RegisterAll(Conversion, map[], Steps(o, parseFloat)).Ok?
    ensures RegisterAll(Conversion, map[], Steps(o, parseFloat)).value.Values <= Canonical
  {
    StepsTargets(o, parseFloat);
    RegisterAllValues(Conversion, map[], Steps(o, parseFloat), FlagTargets);
  }

  /**
   * Once the blocks have all run, --signed-sumstats (when given) had two comma-separated
   * parts and its second part parsed, so SIGNED_SUMSTAT_NULL_VALUE is that number.
   */
  lemma SignedNullDefined(o: Overrides, parseFloat: string -> Option<real>)
    requires RegisterAll(Conversion, map[], Steps(o, parseFloat)).Ok? && Given(o.signedSumstats)
    ensures |Split(o.signedSumstats.value, ',')| == 2
    ensures SignedNull(o.signedSumstats, parseFloat).Some?
    ensures SignedNull(o.signedSumstats, parseFloat) == parseFloat(Split(o.signedSumstats.value, ',')[1])
  {
    var steps := Steps(o, parseFloat);
    RegisterAllSucceeds(Conversion, map[], steps);
    var pre := ClaimIfGiven(o.snp, "--snp", "SNP") + ClaimIfGiven(o.nCol, "--N-col", "N")
      + ClaimIfGiven(o.nCasCol, "--N-cas-col", "N_CAS")
      + ClaimIfGiven(o.nConCol, "--N-con-col", "N_CON")
      + ClaimIfGiven(o.a1, "--a1", "A1") + ClaimIfGiven(o.a2, "--a2", "A2")
      + ClaimIfGiven(o.p, "--p", "P") + ClaimIfGiven(o.frq, "--frq", "FRQ")
      + ClaimIfGiven(o.info, "--info", "INFO")
      + InfoListSteps(o.infoList);
    var signed := SignedSteps(o.signedSumstats, parseFloat);
    assert steps == pre + signed;
    AdmissibleSuffix(Conversion, map[], pre, signed);
    // the last block is a claim only when there are two parts and the second one parses
    assert signed[|signed| - 1].Claim?;
  }

  /** Every block after an admissible prefix is a claim too. */
  lemma AdmissibleSuffix(table: map<string, string>, flags: map<string, string>, pre: seq<Step>, rest: seq<Step>)
    requires Admissible(table, flags, pre + rest)
    ensures forall i :: 0 <= i < |rest| ==> rest[i].Claim?
  {
    forall i | 0 <= i < |rest| ensures rest[i].Claim? {
      assert rest[i] == (pre + rest)[|pre| + i];
    }
  }

  /**
   * The registry as the script builds it: one block per given flag, in order, checked
   * against the synonym table `table` (Headers.Conversion in the script).
   */
  method BuildFlagColnames(table: map<string, string>, o: Overrides, parseFloat: string -> Option<real>)
    returns (r: Result<map<string, string>, Error>)
    ensures r == RegisterAll(table, map[], Steps(o, parseFloat))
  {
    var steps := Steps(o, parseFloat);
    var flags: map<string, string> := map[];
    var i := 0;
    while i < |steps|
      invariant 0 <= i <= |steps|
      invariant RegisterAll(table, map[], steps) == RegisterAll(table, flags, steps[i..])
    {
      assert steps[i..][0] == steps[i] && steps[i..][1..] == steps[i + 1..];
      match steps[i]
      case Reject(e) =>
        return Err(e);
      case Claim(_, _, _, _) =>
        var reg := Register(table, flags, steps[i]);
        if reg.Err? {
          return Err(reg.error);
        }
        flags := reg.value;
      i := i + 1;
    }
    assert steps[i..] == [];
    return Ok(flags);
  }
}

=== FILE: headers.dfy ===
/**
 * Header normalisation: clean_header, the synonym table COLNAMES_CONVERSION and
 * convert_colname (sumstats_to_chisq2.py:20-35, 70-141), plus Python's str.split on
 * a one-character separator, which the flag parsing uses.
 */
module Headers {
  import opened Wrappers
  import opened Errors

  /** Python 2 `str.upper` on a byte string: only ASCII a-z change. */
  function UpperChar(c: char): char {
    if 'a' <= c <= 'z' then (c as int - 32) as char else c
  }

  function Upper(s: string): string {
    seq(|s|, i requires 0 <= i < |s| => UpperChar(s[i]))
  }

  /** `s.replace(old, new)` for one-character arguments. */
  function Replace(s: string, from: char, to: char): string {
    seq(|s|, i requires 0 <= i < |s| => if s[i] == from then to else s[i])
  }

  /** clean_header: upper-case, then '-' and '.' become '_'. */
  function CleanHeader(h: string): (r: string)
    ensures |r| == |h|
    ensures '-' !in r && '.' !in r
    ensures forall i :: 0 <= i < |r| ==> !('a' <= r[i] <= 'z')
    ensures forall i :: 0 <= i < |r| && h[i] != '-' && h[i] != '.' && !('a' <= h[i] <= 'z') ==> r[i] == h[i]
    ensures forall i :: 0 <= i < |h| ==> r[i] == (if h[i] == '-' || h[i] == '.' then '_' else UpperChar(h[i]))
  {
    Replace(Replace(Upper(h), '-', '_'), '.', '_')
  }

  /** clean_header is idempotent: cleaning a cleaned header changes nothing. */
  lemma CleanHeaderIdempotent(h: string)
    ensures CleanHeader(CleanHeader(h)) == CleanHeader(h)
  {
    var c := CleanHeader(h);
    assert forall i :: 0 <= i < |c| ==> CleanHeader(c)[i] == c[i];
  }

  /** No cleaned header contains a dot, so the two dotted keys of the table are never looked up. */
  lemma DottedKeysUnreachable(h: string)
    ensures CleanHeader(h) != "GC.PVALUE" && CleanHeader(h) != "GC.ZSCORE"
    ensures "GC.PVALUE" in Conversion && "GC.ZSCORE" in Conversion
  {
    assert "GC.PVALUE"[2] == '.';
    assert "GC.ZSCORE"[2] == '.';
  }

  /** The canonical vocabulary: every value of the synonym table. */
  const Canonical: set<string> :=
    {"SNP", "P", "A1", "A2", "N", "N_CAS", "N_CON", "Z", "OR", "BETA", "LOG_ODDS",
     "SIGNED_SUMSTAT", "INFO", "FRQ"}

  /**
   * COLNAMES_CONVERSION (sumstats_to_chisq2.py:70-141). The table lists every canonical
   * name as a key mapping to itself; Synonyms holds the remaining keys, in the source's
   * groups. The source lists 'N_CASE' twice with the same value; it appears once here.
   */
  const Synonyms: map<string, string> := map[
    // rs number
    "MARKERNAME" := "SNP", "SNPID" := "SNP", "RS" := "SNP", "RSID" := "SNP",
    "RS_NUMBER" := "SNP", "RS_NUMBERS" := "SNP",
    // p-value
    "PVALUE" := "P", "P_VALUE" := "P", "PVAL" := "P", "P_VAL" := "P", "GC.PVALUE" := "P",
    // allele 1
    "ALLELE1" := "A1", "ALLELE_1" := "A1", "EFFECT_ALLELE" := "A1", "RISK_ALLELE" := "A1",
    "REFERENCE_ALLELE" := "A1", "INC_ALLELE" := "A1", "EA" := "A1",
    // allele 2
    "ALLELE2" := "A2", "ALLELE_2" := "A2", "OTHER_ALLELE" := "A2",
    "NON_EFFECT_ALLELE" := "A2", "DEC_ALLELE" := "A2", "NEA" := "A2",
    // sample sizes; 'WEIGHT' is how METAL labels its sample size column
    "NCASE" := "N_CAS", "N_CASE" := "N_CAS", "N_CASES" := "N_CAS", "N_CONTROLS" := "N_CON",
    "NCONTROL" := "N_CON", "N_CONTROL" := "N_CON", "WEIGHT" := "N",
    // signed statistics
    "ZSCORE" := "Z", "GC.ZSCORE" := "Z", "EFFECT" := "BETA", "EFFECTS" := "BETA",
    // allele frequency
    "MAF" := "FRQ", "FRQ_U" := "FRQ", "F_U" := "FRQ", "CEUAF" := "FRQ", "CEU_AF" := "FRQ"
  ]

  const Conversion: map<string, string> := Synonyms + map c | c in Canonical :: c

  /** Every value of the table is canonical. */
  lemma ConversionTargetsCanonical(k: string)
    requires k in Conversion
    ensures Conversion[k] in Canonical
  {
    if k !in Canonical {
      assert Synonyms.Values <= Canonical;
      assert Conversion[k] == Synonyms[k] && Synonyms[k] in Synonyms.Values;
    }
  }

  /** The direction columns are added by the script, never read from the file. */
  lemma DirectionNotCanonical()
    ensures "INC_ALLELE" !in Canonical && "DEC_ALLELE" !in Canonical
  {
    assert |"INC_ALLELE"| == 10 && |"DEC_ALLELE"| == 10;
  }

  /** Every canonical name is a key of the table that maps to itself. */
  lemma CanonicalFixed(c: string)
    requires c in Canonical
    ensures c in Conversion && Conversion[c] == c
  {
  }

  /**
   * convert_colname: clean the name, let the user override map rename it, then
   * look the result up in the synonym table (KeyError when absent).
   */
  function ConvertColname(name: string, pre: Option<map<string, string>>): (r: Result<string, Error>)
    ensures r.Ok? ==> r.value in Canonical
    ensures pre.Some? && CleanHeader(name) in pre.value && pre.value[CleanHeader(name)] in Canonical
            ==> r == Ok(pre.value[CleanHeader(name)])
    ensures (pre.None? || CleanHeader(name) !in pre.value) ==>
              (r.Ok? <==> CleanHeader(name) in Conversion) &&
              (r.Ok? ==> r.value == Conversion[CleanHeader(name)])
  {
    var clean := CleanHeader(name);
    var renamed := if pre.Some? && clean in pre.value then pre.value[clean] else clean;
    if renamed in Conversion then
      ConversionTargetsCanonical(renamed);
      if renamed in Canonical then CanonicalFixed(renamed); Ok(Conversion[renamed])
      else Ok(Conversion[renamed])
    else Err(UnknownColumn(renamed))
  }

  /** Python's `s.split(sep)`: never empty, and joining the pieces gives back `s`. */
  function Split(s: string, sep: char): (r: seq<string>)
    ensures |r| >= 1
    ensures forall k :: 0 <= k < |r| ==> sep !in r[k]
    ensures Join(r, sep) == s
    decreases |s|
  {
    if |s| == 0 then [""]
    else if s[0] == sep then [""] + Split(s[1..], sep)
    else
      var rest := Split(s[1..], sep);
      assert Join(rest, sep) == s[1..];
      JoinHead(s[0], rest, sep);
      [[s[0]] + rest[0]] + rest[1..]
  }

  /** `sep.join(pieces)`. */
  function Join(pieces: seq<string>, sep: char): string
    requires |pieces| >= 1
  {
    if |pieces| == 1 then pieces[0] else pieces[0] + [sep] + Join(pieces[1..], sep)
  }

  lemma JoinHead(c: char, pieces: seq<string>, sep: char)
    requires |pieces| >= 1
    ensures Join([[c] + pieces[0]] + pieces[1..], sep) == [c] + Join(pieces, sep)
  {
    var p := [[c] + pieces[0]] + pieces[1..];
    assert p[1..] == pieces[1..];
  }
}

=== FILE: qualityfilter.dfy ===
/**
 * filter_snps (sumstats_to_chisq2.py:157-238): drop repeated SNP identifiers, rows with a
 * missing value outside INFO, p-values outside (0,1], low INFO and low minor allele
 * frequency, counting what each step removed.
 */
module QualityFilter {
  import opened Wrappers
  import opened Errors
  import opened Seqs
  import opened Table

  // ---------------------------------------------------------------------------------------
  // drop_duplicates('SNP'): the first row of every identifier survives. Missing identifiers
  // count as equal to each other, as pandas treats NaN when looking for duplicates.

  function DedupFrom(rows: seq<Row>, seen: set<Option<string>>): (r: seq<Row>)
    ensures |r| <= |rows|
    decreases |rows|
  {
    if rows == [] then []
    else if rows[0].snp in seen then DedupFrom(rows[1..], seen)
    else [rows[0]] + DedupFrom(rows[1..], seen + {rows[0].snp})
  }

  function Dedup(rows: seq<Row>): seq<Row> {
    DedupFrom(rows, {})
  }

  /** The identifiers occurring in some rows. */
  function SnpSet(rows: seq<Row>): set<Option<string>> {
    set i | 0 <= i < |rows| :: rows[i].snp
  }

  /** Deduplication keeps rows in their order and invents none. */
  lemma {:induction false} DedupSubseq(rows: seq<Row>, seen: set<Option<string>>)
    ensures Subseq(DedupFrom(rows, seen), rows)
    decreases |rows|
  {
    if rows != [] {
      DedupSubseq(rows[1..], seen + {rows[0].snp});
      DedupSubseq(rows[1..], seen);
      var r := DedupFrom(rows, seen);
      if rows[0].snp !in seen {
        assert r[0] == rows[0] && r[1..] == DedupFrom(rows[1..], seen + {rows[0].snp});
      }
    }
  }

  /** No identifier survives twice, and none that was already seen. */
  lemma {:induction false} DedupDistinct(rows: seq<Row>, seen: set<Option<string>>)
    ensures Distinct(Snps(DedupFrom(rows, seen)))
    ensures forall i :: 0 <= i < |DedupFrom(rows, seen)| ==> DedupFrom(rows, seen)[i].snp !in seen
    decreases |rows|
  {
    if rows != [] && rows[0].snp !in seen {
      var rest := DedupFrom(rows[1..], seen + {rows[0].snp});
      DedupDistinct(rows[1..], seen + {rows[0].snp});
      var r := DedupFrom(rows, seen);
      assert r == [rows[0]] + rest;
      forall i, j | 0 <= i < j < |r| ensures Snps(r)[i] != Snps(r)[j] {
        assert r[j] == rest[j - 1];
        if i > 0 { assert r[i] == rest[i - 1]; }
      }
      forall i | 0 <= i < |r| ensures r[i].snp !in seen {
        if i > 0 { assert r[i] == rest[i - 1]; }
      }
    } else if rows != [] {
      DedupDistinct(rows[1..], seen);
    }
  }

  /** The first row carrying a not-yet-seen identifier survives. */
  lemma {:induction false} DedupKeepsFirst(rows: seq<Row>, seen: set<Option<string>>, i: nat)
    requires i < |rows| && rows[i].snp !in seen
    requires forall j :: 0 <= j < i ==> rows[j].snp != rows[i].snp
    ensures rows[i] in DedupFrom(rows, seen)
    decreases |rows|
  {
    if i == 0 {
      assert DedupFrom(rows, seen)[0] == rows[0];
    } else {
      var seen' := if rows[0].snp in seen then seen else seen + {rows[0].snp};
      assert rows[i] == rows[1..][i - 1];
      DedupKeepsFirst(rows[1..], seen', i - 1);
    }
  }

  /** Conversely, a surviving row is the first row with its identifier, and that identifier was unseen. */
  lemma {:induction false} DedupOnlyFirst(rows: seq<Row>, seen: set<Option<string>>, x: Row)
    requires x in DedupFrom(rows, seen)
    ensures x.snp !in seen
    ensures exists i :: 0 <= i < |rows| && rows[i] == x && forall j :: 0 <= j < i ==> rows[j].snp != x.snp
    decreases |rows|
  {
    if rows[0].snp in seen {
      DedupOnlyFirst(rows[1..], seen, x);
      var i :| 0 <= i < |rows[1..]| && rows[1..][i] == x && forall j :: 0 <= j < i ==> rows[1..][j].snp != x.snp;
      assert rows[i + 1] == x;
    } else if x == rows[0] {
      assert rows[0] == x;
    } else {
      var next := seen + {rows[0].snp};
      assert x in DedupFrom(rows[1..], next);
      DedupOnlyFirst(rows[1..], next, x);
      var i :| 0 <= i < |rows[1..]| && rows[1..][i] == x && forall j :: 0 <= j < i ==> rows[1..][j].snp != x.snp;
      assert rows[i + 1] == x;
    }
  }

  /** Identifiers that never occur in the rows do not change what survives. */
  lemma {:induction false} DedupIgnoresAbsent(rows: seq<Row>, seen: set<Option<string>>, extra: set<Option<string>>)
    requires SnpSet(rows) !! extra
    ensures DedupFrom(rows, seen + extra) == DedupFrom(rows, seen)
    decreases |rows|
  {
    if rows != [] {
      assert rows[0].snp in SnpSet(rows);
      assert SnpSet(rows[1..]) <= SnpSet(rows) by {
        forall x | x in SnpSet(rows[1..]) ensures x in SnpSet(rows) {
          var k :| 0 <= k < |rows[1..]| && rows[1..][k].snp == x;
          assert rows[k + 1].snp == x;
        }
      }
      if rows[0].snp in seen {
        DedupIgnoresAbsent(rows[1..], seen, extra);
      } else {
        assert seen + extra + {rows[0].snp} == (seen + {rows[0].snp}) + extra;
        DedupIgnoresAbsent(rows[1..], seen + {rows[0].snp}, extra);
      }
    }
  }

  lemma SnpSetCons(a: seq<Row>)
    requires a != []
    ensures SnpSet(a) == {a[0].snp} + SnpSet(a[1..])
  {
    forall x | x in SnpSet(a) ensures x in {a[0].snp} + SnpSet(a[1..]) {
      var k :| 0 <= k < |a| && a[k].snp == x;
      if k > 0 { assert a[1..][k - 1].snp == x; }
    }
    forall x | x in SnpSet(a[1..]) ensures x in SnpSet(a) {
      var k :| 0 <= k < |a[1..]| && a[1..][k].snp == x;
      assert a[k + 1].snp == x;
    }
  }

  /** Deduplicating a concatenation: the second part only loses identifiers of the first. */
  lemma {:induction false} DedupAppend(a: seq<Row>, b: seq<Row>, seen: set<Option<string>>)
    ensures DedupFrom(a + b, seen) == DedupFrom(a, seen) + DedupFrom(b, seen + SnpSet(a))
    decreases |a|
  {
    if a == [] {
      assert a + b == b;
      assert SnpSet(a) == {};
      assert seen + SnpSet(a) == seen;
    } else {
      assert (a + b)[0] == a[0] && (a + b)[1..] == a[1..] + b;
      SeenAfterHead(a, seen);
      if a[0].snp in seen {
        DedupAppend(a[1..], b, seen);
        assert DedupFrom(a + b, seen) == DedupFrom(a[1..] + b, seen);
        assert DedupFrom(a, seen) == DedupFrom(a[1..], seen);
      } else {
        var next := seen + {a[0].snp};
        DedupAppend(a[1..], b, next);
        assert DedupFrom(a + b, seen) == [a[0]] + DedupFrom(a[1..] + b, next);
        assert DedupFrom(a, seen) == [a[0]] + DedupFrom(a[1..], next);
      }
    }
  }

  /** The identifiers seen after the first row and the rest are those seen after all of them. */
  lemma SeenAfterHead(a: seq<Row>, seen: set<Option<string>>)
    requires a != []
    ensures a[0].snp in seen ==> seen + SnpSet(a[1..]) == seen + SnpSet(a)
    ensures seen + {a[0].snp} + SnpSet(a[1..]) == seen + SnpSet(a)
  {
    SnpSetCons(a);
  }

  /** When two parts share no identifier, deduplication works part by part. */
  lemma DedupDisjoint(a: seq<Row>, b: seq<Row>)
    requires SnpSet(a) !! SnpSet(b)
    ensures Dedup(a + b) == Dedup(a) + Dedup(b)
  {
    DedupAppend(a, b, {});
    DedupIgnoresAbsent(b, {}, SnpSet(a));
    assert {} + SnpSet(a) == SnpSet(a);
  }

  // ---------------------------------------------------------------------------------------
  // The per-row conditions behind the masks of lines 158-233.

  /** `np.minimum(FRQ, 1-FRQ)`: the frequency folded to the minor allele. */
  function Fold(f: real): (m: real)
    ensures m <= f && m <= 1.0 - f && (m == f || m == 1.0 - f)
  {
    if f <= 1.0 - f then f else 1.0 - f
  }

  /**
   * The row sum of the INFO columns, skipping missing entries; pandas of the Python 2
   * era returns NaN (None here) when every entry is missing.
   */
  function InfoSum(info: seq<Option<real>>): (s: Option<real>)
    ensures s.None? <==> forall i :: 0 <= i < |info| ==> info[i].None?
  {
    if info == [] then None
    else
      var rest := InfoSum(info[1..]);
      if info[0].None? then (
        assert forall i :: 1 <= i < |info| ==> info[i] == info[1..][i - 1];
        rest)
      else if rest.None? then info[0]
      else Some(info[0].value + rest.value)
  }

  /** One condition a row must meet. */
  datatype Criterion =
    | PositiveP                         // P > 0
    | PAtMostOne                        // P <= 1
    | InfoAbove(min: real, count: nat)  // INFO sum > min * number of INFO columns
    | MafAbove(min: real)               // min(FRQ, 1 - FRQ) > min

  predicate Meets(r: Row, c: Criterion) {
    match c
    case PositiveP => r.p.Some? && r.p.value > 0.0
    case PAtMostOne => r.p.Some? && r.p.value <= 1.0
    case InfoAbove(min, count) => InfoSum(r.info).Some? && InfoSum(r.info).value > min * count as real
    case MafAbove(min) => r.frq.Some? && Fold(r.frq.value) > min
  }

  predicate MeetsAll(r: Row, cs: seq<Criterion>) {
    forall i :: 0 <= i < |cs| ==> Meets(r, cs[i])
  }

  /** The row test as a function value, for masks and filters. */
  function Holds(cs: seq<Criterion>): (h: Row -> bool)
    ensures forall r :: h(r) == MeetsAll(r, cs)
  {
    r => MeetsAll(r, cs)
  }

  /** The dropna test as a function value. */
  function Complete(cols: set<Col>): (h: Row -> bool)
    ensures forall r :: h(r) == NoMissing(r, cols)
  {
    r => NoMissing(r, cols)
  }

  /** `ii & jj` for two criteria masks is the mask of both lists. */
  lemma MaskAnd(s: seq<Row>, cs: seq<Criterion>, ds: seq<Criterion>)
    ensures And(Mask(s, Holds(cs)), Mask(s, Holds(ds))) == Mask(s, Holds(cs + ds))
  {
    forall i | 0 <= i < |s|
      ensures (MeetsAll(s[i], cs) && MeetsAll(s[i], ds)) == MeetsAll(s[i], cs + ds)
    {
      if MeetsAll(s[i], cs) && MeetsAll(s[i], ds) {
        forall k | 0 <= k < |cs + ds| ensures Meets(s[i], (cs + ds)[k]) {
          if k >= |cs| { assert (cs + ds)[k] == ds[k - |cs|]; }
        }
      }
      if MeetsAll(s[i], cs + ds) {
        forall k | 0 <= k < |cs| ensures Meets(s[i], cs[k]) {
          assert (cs + ds)[k] == cs[k];
        }
        forall k | 0 <= k < |ds| ensures Meets(s[i], ds[k]) {
          assert (cs + ds)[|cs| + k] == ds[k];
        }
      }
    }
  }

  lemma MeetsPair(r: Row, c: Criterion, d: Criterion)
    ensures MeetsAll(r, [c]) == Meets(r, c)
    ensures MeetsAll(r, [c, d]) == (Meets(r, c) && Meets(r, d))
  {
    assert [c][0] == c;
    assert [c, d][0] == c && [c, d][1] == d;
  }

  /**
   * Lines 177-181: the P mask starts as P > 0 and is narrowed by P <= 1 only when some row
   * has P > 1. Either way it equals the mask of 0 < P <= 1.
   */
  lemma PMaskInRange(s: seq<Row>)
    ensures Count(Mask(s, Holds([PAtMostOne]))) == |s| ==>
      Mask(s, Holds([PositiveP])) == Mask(s, Holds([PositiveP, PAtMostOne]))
    ensures And(Mask(s, Holds([PositiveP])), Mask(s, Holds([PAtMostOne]))) == Mask(s, Holds([PositiveP, PAtMostOne]))
  {
    MaskAnd(s, [PositiveP], [PAtMostOne]);
    assert [PositiveP] + [PAtMostOne] == [PositiveP, PAtMostOne];
    var jj := Mask(s, Holds([PAtMostOne]));
    if Count(jj) == |s| {
      AllCounted(jj);
      forall i | 0 <= i < |s| ensures MeetsAll(s[i], [PositiveP]) == MeetsAll(s[i], [PositiveP, PAtMostOne]) {
        assert jj[i];
        MeetsPair(s[i], PAtMostOne, PAtMostOne);
        MeetsPair(s[i], PositiveP, PAtMostOne);
      }
    }
  }

  /** A mask counting as many trues as entries is all true. */
  lemma {:induction false} AllCounted(m: seq<bool>)
    requires Count(m) == |m|
    ensures forall i :: 0 <= i < |m| ==> m[i]
  {
    if m != [] {
      AllCounted(m[1..]);
      forall i | 0 <= i < |m| ensures m[i] {
        if i > 0 { assert m[i] == m[1..][i - 1]; }
      }
    }
  }

  /** More criteria never keep more rows. */
  lemma {:induction false} FilterMoreCriteria(s: seq<Row>, cs: seq<Criterion>, ds: seq<Criterion>)
    ensures |Filter(s, Holds(cs + ds))| <= |Filter(s, Holds(cs))|
  {
    if s != [] {
      FilterMoreCriteria(s[1..], cs, ds);
      if MeetsAll(s[0], cs + ds) {
        forall k | 0 <= k < |cs| ensures Meets(s[0], cs[k]) {
          assert (cs + ds)[k] == cs[k];
        }
      }
    }
  }

  // ---------------------------------------------------------------------------------------
  // What filter_snps computes.

  /** The criteria of lines 158-233 for a frame with these columns. */
  function PCriteria(): seq<Criterion> {
    [PositiveP, PAtMostOne]
  }

  function InfoCriteria(t: Table, infoMin: real): seq<Criterion> {
    if INFO in t.cols then [InfoAbove(infoMin, t.infoCols)] else []
  }

  function FrqCriteria(t: Table, mafMin: real): seq<Criterion> {
    if FRQ in t.cols then [MafAbove(mafMin)] else []
  }

  function Criteria(t: Table, infoMin: real, mafMin: real): seq<Criterion> {
    PCriteria() + InfoCriteria(t, infoMin) + FrqCriteria(t, mafMin)
  }

  /** The rows left after the duplicate and missing-value steps. */
  function Candidates(t: Table): seq<Row> {
    Filter(Dedup(t.rows), Complete(t.cols))
  }

  /** The rows filter_snps keeps. */
  function Kept(t: Table, infoMin: real, mafMin: real): seq<Row> {
    Filter(Candidates(t), Holds(Criteria(t, infoMin, mafMin)))
  }

  /** The INFO and FRQ columns are dropped from the result. */
  function Strip(rows: seq<Row>): (s: seq<Row>)
    ensures |s| == |rows|
    ensures forall i :: 0 <= i < |rows| ==> s[i] == rows[i].(info := [], frq := None)
  {
    seq(|rows|, i requires 0 <= i < |rows| => rows[i].(info := [], frq := None))
  }

  /** The frame filter_snps returns when it does not raise. */
  function Filtered(t: Table, infoMin: real, mafMin: real): Table {
    Table(t.cols - {INFO, FRQ}, 0, Strip(Kept(t, infoMin, mafMin)))
  }

  /** The number of rows after each step. */
  datatype Sizes = Sizes(input: nat, unique: nat, complete: nat, pOk: nat, infoOk: nat, frqOk: nat)

  function Measure(t: Table, infoMin: real, mafMin: real): (z: Sizes)
    ensures z.frqOk <= z.infoOk <= z.pOk <= z.complete <= z.unique <= z.input
    ensures z.frqOk == |Kept(t, infoMin, mafMin)|
  {
    var c := Candidates(t);
    var pc := PCriteria();
    var ic := InfoCriteria(t, infoMin);
    var fc := FrqCriteria(t, mafMin);
    FilterMoreCriteria(c, pc, ic);
    FilterMoreCriteria(c, pc + ic, fc);
    FilterMoreCriteria([], [], pc);
    assert |Filter(c, Holds(pc))| <= |c|;
    Sizes(|t.rows|, |Dedup(t.rows)|, |c|, |Filter(c, Holds(pc))|,
          |Filter(c, Holds(pc + ic))|, |Filter(c, Holds(pc + ic + fc))|)
  }

  /**
   * With verbose reporting, the step at which filter_snps raises because no SNP remains:
   * 0 duplicates, 1 missing values, 2 p-values, 3 INFO, 4 MAF; 5 when it does not raise.
   * The INFO and MAF steps only run when their column is present.
   */
  function FailStage(z: Sizes, hasInfo: bool, hasFrq: bool): (k: nat)
    ensures k <= 5
  {
    if z.unique == 0 then 0
    else if z.complete == 0 then 1
    else if z.pOk == 0 then 2
    else if hasInfo && z.infoOk == 0 then 3
    else if hasFrq && z.frqOk == 0 then 4
    else 5
  }

  /** The drops counters: how many SNPs each step removed. */
  datatype Counts = Counts(rs: nat, na: nat, p: nat, info: nat, frq: nat)

  function Plus(a: Counts, b: Counts): Counts {
    Counts(a.rs + b.rs, a.na + b.na, a.p + b.p, a.info + b.info, a.frq + b.frq)
  }

  function Total(c: Counts): nat {
    c.rs + c.na + c.p + c.info + c.frq
  }

  /** The five counters of `drops`, one per step. */
  datatype Reason = Duplicated | Missing | PValue | LowInfo | LowMaf

  /** The counters `c` with `removed` more SNPs charged to the counter of `reason`. */
  function Add(c: Counts, reason: Reason, removed: nat): Counts {
    match reason
    case Duplicated => c.(rs := c.rs + removed)
    case Missing => c.(na := c.na + removed)
    case PValue => c.(p := c.p + removed)
    case LowInfo => c.(info := c.info + removed)
    case LowMaf => c.(frq := c.frq + removed)
  }

  /** What the first `steps` steps add to the counters. */
  function Charged(z: Sizes, steps: nat): Counts
    requires z.frqOk <= z.infoOk <= z.pOk <= z.complete <= z.unique <= z.input
  {
    Counts(
      if steps > 0 then z.input - z.unique else 0,
      if steps > 1 then z.unique - z.complete else 0,
      if steps > 2 then z.complete - z.pOk else 0,
      if steps > 3 then z.pOk - z.infoOk else 0,
      if steps > 4 then z.infoOk - z.frqOk else 0)
  }

  /** The result of filter_snps: it raises only with verbose reporting, when no SNP remains. */
  function Outcome(t: Table, infoMin: real, mafMin: real, verbose: bool): Result<Table, Error> {
    if verbose && FailStage(Measure(t, infoMin, mafMin), INFO in t.cols, FRQ in t.cols) < 5
    then Err(NoSnpsRemain)
    else Ok(Filtered(t, infoMin, mafMin))
  }

  /** How many steps update the counters before filter_snps returns or raises. */
  function StepsRun(t: Table, infoMin: real, mafMin: real, verbose: bool): nat {
    if verbose then FailStage(Measure(t, infoMin, mafMin), INFO in t.cols, FRQ in t.cols) else 5
  }

  /** The `drops` dictionary of the chunked reader, updated in place by filter_snps. */
  class Drops {
    var rs: nat
    var na: nat
    var p: nat
    var info: nat
    var frq: nat

    constructor ()
      ensures rs == 0 && na == 0 && p == 0 && info == 0 && frq == 0
    {
      rs, na, p, info, frq := 0, 0, 0, 0, 0;
    }

    function Totals(): Counts
      reads this
    {
      Counts(rs, na, p, info, frq)
    }
  }

  /** The step sizes, read off the masks the script counts. */
  lemma MeasureMasks(t: Table, infoMin: real, mafMin: real)
    ensures var z := Measure(t, infoMin, mafMin);
      var c := Candidates(t);
      && z.input == |t.rows| && z.unique == |Dedup(t.rows)| && z.complete == |c|
      && z.pOk == Count(Mask(c, Holds(PCriteria())))
      && z.infoOk == Count(Mask(c, Holds(PCriteria() + InfoCriteria(t, infoMin))))
      && z.frqOk == Count(Mask(c, Holds(Criteria(t, infoMin, mafMin))))
      && Select(c, Mask(c, Holds(Criteria(t, infoMin, mafMin)))) == Kept(t, infoMin, mafMin)
  {
    var c := Candidates(t);
    SelectMask(c, Holds(PCriteria()));
    SelectMask(c, Holds(PCriteria() + InfoCriteria(t, infoMin)));
    SelectMask(c, Holds(Criteria(t, infoMin, mafMin)));
  }

  /**
   * filter_verbose (lines 145-153): the report of one step, which raises when the step
   * leaves no SNP. The message itself is not modelled.
   */
  function FilterVerbose(oldLen: nat, newLen: nat): (r: Result<(), Error>)
    ensures r.Err? <==> newLen == 0
  {
    if newLen == 0 then Err(NoSnpsRemain) else Ok(())
  }

  /**
   * The tail of every step of filter_snps: with verbose reporting call filter_verbose
   * (which raises on an empty result), then add the removals to `drops` when given.
   */
  method EndStep(oldLen: nat, newLen: nat, reason: Reason, drops: Drops?, verbose: bool)
    returns (raised: bool)
    requires newLen <= oldLen
    modifies drops
    ensures raised <==> verbose && newLen == 0
    ensures drops != null ==>
      drops.Totals() == if raised then old(drops.Totals()) else Add(old(drops.Totals()), reason, oldLen - newLen)
  {
    if verbose && FilterVerbose(oldLen, newLen).Err? {
      return true;
    }
    if drops != null {
      match reason
      case Duplicated => drops.rs := drops.rs + (oldLen - newLen);
      case Missing => drops.na := drops.na + (oldLen - newLen);
      case PValue => drops.p := drops.p + (oldLen - newLen);
      case LowInfo => drops.info := drops.info + (oldLen - newLen);
      case LowMaf => drops.frq := drops.frq + (oldLen - newLen);
    }
    return false;
  }

  /**
   * The reports of filter_snps, step by step, for a frame whose steps leave the sizes `z`:
   * each step calls EndStep, and a raise ends the sequence. The INFO and MAF steps only
   * run when their column is present; a step that does not run removes nothing.
   */
  method Report(z: Sizes, hasInfo: bool, hasFrq: bool, drops: Drops?, verbose: bool)
    returns (raised: bool)
    requires z.frqOk <= z.infoOk <= z.pOk <= z.complete <= z.unique <= z.input
    requires !hasInfo ==> z.infoOk == z.pOk
    requires !hasFrq ==> z.frqOk == z.infoOk
    modifies drops
    ensures raised <==> verbose && FailStage(z, hasInfo, hasFrq) < 5
    ensures drops != null ==>
      drops.Totals() == ChargeSteps(old(drops.Totals()), z, if verbose then FailStage(z, hasInfo, hasFrq) else 5)
  {
    ghost var start := if drops != null then drops.Totals() else Counts(0, 0, 0, 0, 0);
    raised := EndStep(z.input, z.unique, Duplicated, drops, verbose);
    if raised { assert FailStage(z, hasInfo, hasFrq) == 0; return; }
    assert drops != null ==> drops.Totals() == ChargeSteps(start, z, 1);
    raised := EndStep(z.unique, z.complete, Missing, drops, verbose);
    if raised { assert FailStage(z, hasInfo, hasFrq) == 1; return; }
    assert drops != null ==> drops.Totals() == ChargeSteps(start, z, 2);
    raised := EndStep(z.complete, z.pOk, PValue, drops, verbose);
    if raised { assert FailStage(z, hasInfo, hasFrq) == 2; return; }
    assert drops != null ==> drops.Totals() == ChargeSteps(start, z, 3);
    if hasInfo {
      raised := EndStep(z.pOk, z.infoOk, LowInfo, drops, verbose);
      if raised { assert FailStage(z, hasInfo, hasFrq) == 3; return; }
    }
    assert drops != null ==> drops.Totals() == ChargeSteps(start, z, 4);
    if hasFrq {
      raised := EndStep(z.infoOk, z.frqOk, LowMaf, drops, verbose);
      if raised { assert FailStage(z, hasInfo, hasFrq) == 4; return; }
    }
    assert drops != null ==> drops.Totals() == ChargeSteps(start, z, 5);
  }

  /** The counter step `k` (from 0) charges, and how many SNPs it removes. */
  function StepReason(k: nat): Reason {
    if k == 0 then Duplicated else if k == 1 then Missing else if k == 2 then PValue
    else if k == 3 then LowInfo else LowMaf
  }

  function StepRemoved(z: Sizes, k: nat): nat
    requires z.frqOk <= z.infoOk <= z.pOk <= z.complete <= z.unique <= z.input
  {
    if k == 0 then z.input - z.unique else if k == 1 then z.unique - z.complete
    else if k == 2 then z.complete - z.pOk else if k == 3 then z.pOk - z.infoOk
    else z.infoOk - z.frqOk
  }

  /** The counters `c` after the first `steps` steps have each charged their removals. */
  function ChargeSteps(c: Counts, z: Sizes, steps: nat): Counts
    requires z.frqOk <= z.infoOk <= z.pOk <= z.complete <= z.unique <= z.input
  {
    if steps == 0 then c
    else Add(ChargeSteps(c, z, steps - 1), StepReason(steps - 1), StepRemoved(z, steps - 1))
  }

  /** Charging the steps one by one adds what Charged sums up. */
  lemma ChargeStepsAdds(c: Counts, z: Sizes, steps: nat)
    requires z.frqOk <= z.infoOk <= z.pOk <= z.complete <= z.unique <= z.input
    requires steps <= 5
    ensures ChargeSteps(c, z, steps) == Plus(c, Charged(z, steps))
  {
    if steps > 0 {
      ChargeStepsAdds(c, z, steps - 1);
    }
  }

  /**
   * filter_snps(dat, args, log, block_num, drops, verbose) as the script runs it: drop
   * repeated identifiers and rows with missing values, then narrow the mask `ii` by the
   * p-value, INFO and MAF conditions; each step is reported (raising on an empty result)
   * when verbose, and adds its removals to `drops` when one is given. The steps only read
   * the frame, so their sizes are computed first and the reports follow in step order.
   */
  method FilterSnps(t: Table, infoMin: real, mafMin: real, drops: Drops?, verbose: bool)
    returns (r: Result<Table, Error>)
    requires WellFormed(t) && SNP in t.cols && P in t.cols
    modifies drops
    ensures r == Outcome(t, infoMin, mafMin, verbose)
    ensures drops != null ==>
      drops.Totals() == Plus(old(drops.Totals()), Charged(Measure(t, infoMin, mafMin), StepsRun(t, infoMin, mafMin, verbose)))
  {
    ghost var z := Measure(t, infoMin, mafMin);
    MeasureMasks(t, infoMin, mafMin);

    // duplicated identifiers, then missing values outside INFO
    var unique := Dedup(t.rows);
    var rows := Filter(unique, Complete(t.cols));

    // p-values outside (0,1]
    var ii := Mask(rows, Holds([PositiveP]));
    var jj := Mask(rows, Holds([PAtMostOne]));
    PMaskInRange(rows);
    if |rows| - Count(jj) > 0 {
      ii := And(ii, jj);
    }
    assert ii == Mask(rows, Holds(PCriteria()));
    var pOk := Count(ii);

    // INFO
    ghost var cs := PCriteria() + InfoCriteria(t, infoMin);
    if INFO in t.cols {
      MaskAnd(rows, PCriteria(), [InfoAbove(infoMin, t.infoCols)]);
      ii := And(ii, Mask(rows, Holds([InfoAbove(infoMin, t.infoCols)])));
    } else {
      assert cs == PCriteria();
    }
    assert ii == Mask(rows, Holds(cs));
    var infoOk := Count(ii);

    // MAF
    ghost var all := Criteria(t, infoMin, mafMin);
    assert all == cs + FrqCriteria(t, mafMin);
    if FRQ in t.cols {
      MaskAnd(rows, cs, [MafAbove(mafMin)]);
      ii := And(ii, Mask(rows, Holds([MafAbove(mafMin)])));
    } else {
      assert all == cs;
    }
    assert ii == Mask(rows, Holds(all));

    var sizes := Sizes(|t.rows|, |unique|, |rows|, pOk, infoOk, Count(ii));
    assert sizes == z;
    var raised := Report(sizes, INFO in t.cols, FRQ in t.cols, drops, verbose);
    if drops != null {
      ChargeStepsAdds(old(drops.Totals()), z, StepsRun(t, infoMin, mafMin, verbose));
    }
    if raised {
      return Err(NoSnpsRemain);
    }
    return Ok(Table(t.cols - {INFO, FRQ}, 0, Strip(Select(rows, ii))));
  }

  // ---------------------------------------------------------------------------------------
  // What filter_snps promises.

  /**
   * Without verbose reporting filter_snps never raises; with it, it raises exactly when no
   * SNP would remain.
   */
  lemma RaisesIffNothingRemains(t: Table, infoMin: real, mafMin: real)
    ensures Outcome(t, infoMin, mafMin, false) == Ok(Filtered(t, infoMin, mafMin))
    ensures Outcome(t, infoMin, mafMin, true).Err? <==> Kept(t, infoMin, mafMin) == []
  {
    var z := Measure(t, infoMin, mafMin);
    var c := Candidates(t);
    if z.frqOk == 0 && !(FRQ in t.cols) {
      assert Criteria(t, infoMin, mafMin) == PCriteria() + InfoCriteria(t, infoMin);
      if !(INFO in t.cols) {
        assert PCriteria() + InfoCriteria(t, infoMin) == PCriteria();
      }
    }
  }

  /** The counters charge every removed row to exactly one step. */
  lemma ChargedAccountsForAll(t: Table, infoMin: real, mafMin: real)
    ensures Total(Charged(Measure(t, infoMin, mafMin), 5)) == |t.rows| - |Kept(t, infoMin, mafMin)|
  {
  }

  /** Single INFO column (lines 194-196): the row sum is the value itself. */
  lemma SingleInfoColumn(r: Row, infoMin: real)
    requires |r.info| == 1
    ensures Meets(r, InfoAbove(infoMin, 1)) <==> r.info[0].Some? && r.info[0].value > infoMin
  {
    assert r.info[1..] == [];
  }

  /**
   * Every surviving row comes from the input, has no missing value outside INFO, a p-value
   * in (0,1], an INFO score above the threshold and a minor allele frequency above the
   * threshold (for the columns present).
   */
  lemma KeptSound(t: Table, infoMin: real, mafMin: real, r: Row)
    requires r in Kept(t, infoMin, mafMin)
    ensures r in t.rows && NoMissing(r, t.cols)
    ensures r.p.Some? && 0.0 < r.p.value <= 1.0
    ensures INFO in t.cols ==> InfoSum(r.info).Some? && InfoSum(r.info).value > infoMin * t.infoCols as real
    ensures FRQ in t.cols ==> r.frq.Some? && Fold(r.frq.value) > mafMin
    ensures exists i :: 0 <= i < |t.rows| && t.rows[i] == r && forall j :: 0 <= j < i ==> t.rows[j].snp != r.snp
  {
    var cs := Criteria(t, infoMin, mafMin);
    FilterMember(Candidates(t), Holds(cs), r);
    FilterMember(Dedup(t.rows), Complete(t.cols), r);
    DedupSubseq(t.rows, {});
    SubseqMember(Dedup(t.rows), t.rows);
    DedupOnlyFirst(t.rows, {}, r);
    CriteriaMeaning(t, infoMin, mafMin, r);
  }

  /** What meeting every criterion of a frame says about a row. */
  lemma CriteriaMeaning(t: Table, infoMin: real, mafMin: real, r: Row)
    requires MeetsAll(r, Criteria(t, infoMin, mafMin))
    ensures r.p.Some? && 0.0 < r.p.value <= 1.0
    ensures INFO in t.cols ==> InfoSum(r.info).Some? && InfoSum(r.info).value > infoMin * t.infoCols as real
    ensures FRQ in t.cols ==> r.frq.Some? && Fold(r.frq.value) > mafMin
  {
    var cs := Criteria(t, infoMin, mafMin);
    assert cs[0] == PositiveP && cs[1] == PAtMostOne;
    if INFO in t.cols {
      assert cs[2] == InfoAbove(infoMin, t.infoCols);
    }
    if FRQ in t.cols {
      assert cs[|cs| - 1] == MafAbove(mafMin);
    }
  }

  /** The surviving rows keep the input order, and no identifier survives twice. */
  lemma KeptOrderedAndUnique(t: Table, infoMin: real, mafMin: real)
    ensures Subseq(Kept(t, infoMin, mafMin), t.rows)
    ensures Distinct(Snps(Kept(t, infoMin, mafMin)))
  {
    var d := Dedup(t.rows);
    var c := Candidates(t);
    var k := Kept(t, infoMin, mafMin);
    DedupSubseq(t.rows, {});
    FilterSubseq(d, Complete(t.cols));
    FilterSubseq(c, Holds(Criteria(t, infoMin, mafMin)));
    SubseqTrans(k, c, d);
    SubseqTrans(k, d, t.rows);
    DedupDistinct(t.rows, {});
    SnpsSubseq(k, d);
    SubseqDistinct(Snps(k), Snps(d));
  }

  /** filter_snps leaves one row per SNP identifier (a missing identifier counts as one). */
  lemma FilteredUnique(t: Table, infoMin: real, mafMin: real)
    ensures Distinct(Snps(Filtered(t, infoMin, mafMin).rows))
  {
    var k := Kept(t, infoMin, mafMin);
    KeptOrderedAndUnique(t, infoMin, mafMin);
    assert Snps(Strip(k)) == Snps(k);
  }

  lemma {:induction false} SnpsSubseq(a: seq<Row>, b: seq<Row>)
    requires Subseq(a, b)
    ensures Subseq(Snps(a), Snps(b))
    decreases |b|
  {
    if a != [] {
      assert Snps(a)[0] == a[0].snp && Snps(a)[1..] == Snps(a[1..]);
      assert Snps(b)[0] == b[0].snp && Snps(b)[1..] == Snps(b[1..]);
      if a[0] == b[0] && Subseq(a[1..], b[1..]) {
        SnpsSubseq(a[1..], b[1..]);
      } else {
        SnpsSubseq(a, b[1..]);
      }
    }
  }

  /**
   * The first row carrying an identifier survives when it has no missing value and meets
   * every threshold: nothing else is removed.
   */
  lemma KeptComplete(t: Table, infoMin: real, mafMin: real, i: nat)
    requires i < |t.rows|
    requires forall j :: 0 <= j < i ==> t.rows[j].snp != t.rows[i].snp
    requires NoMissing(t.rows[i], t.cols) && MeetsAll(t.rows[i], Criteria(t, infoMin, mafMin))
    ensures t.rows[i] in Kept(t, infoMin, mafMin)
  {
    DedupKeepsFirst(t.rows, {}, i);
    FilterMember(Dedup(t.rows), Complete(t.cols), t.rows[i]);
    FilterMember(Candidates(t), Holds(Criteria(t, infoMin, mafMin)), t.rows[i]);
  }
}

=== FILE: samplesize.dfy ===
/**
 * The sample size and the chi-square statistic (sumstats_to_chisq2.py:610-652): choose the
 * N column by priority, the low-N block, and the conversion of P to CHISQ.
 */
module SampleSize {
  import opened Wrappers
  import opened Errors
  import opened Table

  /** The sample-size options --N, --N-cas, --N-con, --no-filter-n and --n-min. */
  datatype SampleArgs = SampleArgs(
    n: Option<real>, nCas: Option<real>, nCon: Option<real>, noFilterN: bool, nMin: Option<real>)

  /** `if args.x:` on a number: given and non-zero. */
  predicate Truthy(x: Option<real>) {
    x.Some? && x.value != 0.0
  }

  /** `dat['N'] = value`: every row gets the same sample size. */
  function SetN(t: Table, value: real): (r: Table)
    ensures r.cols == t.cols + {N} && r.infoCols == t.infoCols && |r.rows| == |t.rows|
    ensures forall i :: 0 <= i < |t.rows| ==> r.rows[i] == t.rows[i].(n := Some(value))
  {
    Table(t.cols + {N}, t.infoCols,
      seq(|t.rows|, i requires 0 <= i < |t.rows| => t.rows[i].(n := Some(value))))
  }

  /**
   * Lines 610-636: --N, then --N-cas plus --N-con, then the case and control columns, then
   * an N column. The case/control branch reads `dat.N_cas`, an attribute the frame does not
   * have (its column is N_CAS), so it raises before rescaling anything.
   */
  function ChooseSampleSize(t: Table, a: SampleArgs): Result<Table, Error> {
    if Truthy(a.n) then Ok(SetN(t, a.n.value))
    else if Truthy(a.nCas) && Truthy(a.nCon) then Ok(SetN(t, a.nCas.value + a.nCon.value))
    else if N_CAS in t.cols && N_CON in t.cols then Err(MissingAttribute("N_cas"))
    else if N in t.cols then Ok(t)
    else Err(NoSampleSize)
  }

  /**
   * The choice succeeds exactly when a sample size is given or an N column exists without
   * both case/control columns; then every row has a sample size (the frame has no missing
   * values), equal to --N, else to --N-cas plus --N-con, else to the row's own N, and nothing
   * else about the rows changes.
   */
  lemma SampleSizeChosen(t: Table, a: SampleArgs)
    requires forall i :: 0 <= i < |t.rows| ==> NoMissing(t.rows[i], t.cols)
    ensures ChooseSampleSize(t, a).Ok? <==>
      Truthy(a.n) || (Truthy(a.nCas) && Truthy(a.nCon)) || (N in t.cols && !(N_CAS in t.cols && N_CON in t.cols))
    ensures ChooseSampleSize(t, a).Ok? ==>
      var r := ChooseSampleSize(t, a).value;
      && N in r.cols && |r.rows| == |t.rows|
      && forall i :: 0 <= i < |t.rows| ==>
           && r.rows[i].n.Some?
           && r.rows[i].(n := t.rows[i].n) == t.rows[i]
           && r.rows[i].n.value == (if Truthy(a.n) then a.n.value
                                    else if Truthy(a.nCas) && Truthy(a.nCon) then a.nCas.value + a.nCon.value
                                    else t.rows[i].n.value)
  {
  }

  /** Case and control columns never supply the sample size: without the options the script raises. */
  lemma CaseControlColumnsRaise(t: Table, a: SampleArgs)
    requires N_CAS in t.cols && N_CON in t.cols
    requires !Truthy(a.n) && !(Truthy(a.nCas) && Truthy(a.nCon))
    ensures ChooseSampleSize(t, a) == Err(MissingAttribute("N_cas"))
  {
  }

  // ---------------------------------------------------------------------------------------
  // Lines 624-629, which the attribute error above makes unreachable.

  /**
   * The case and control columns of a frame with no missing values, and positive totals
   * (the division by the total on line 625 needs them).
   */
  predicate CaseControl(cases: seq<real>, controls: seq<real>) {
    |cases| == |controls| > 0 && forall i :: 0 <= i < |cases| ==> cases[i] + controls[i] > 0.0
  }

  /** The per-row total of cases and controls. */
  function Totals(cases: seq<real>, controls: seq<real>): (s: seq<real>)
    requires |cases| == |controls|
    ensures |s| == |cases|
  {
    seq(|cases|, i requires 0 <= i < |cases| => cases[i] + controls[i])
  }

  function Max(s: seq<real>): (m: real)
    requires |s| > 0
    ensures forall i :: 0 <= i < |s| ==> s[i] <= m
    ensures exists i :: 0 <= i < |s| && s[i] == m
  {
    if |s| == 1 then s[0]
    else
      var rest := Max(s[1..]);
      assert forall i :: 1 <= i < |s| ==> s[i] == s[1..][i - 1];
      if s[0] >= rest then s[0] else rest
  }

  /** The sum of the selected entries. */
  function SumWhere(s: seq<real>, keep: seq<bool>): real
    requires |keep| == |s|
  {
    if s == [] then 0.0 else (if keep[0] then s[0] else 0.0) + SumWhere(s[1..], keep[1..])
  }

  /** How many entries are selected. */
  function CountWhere(keep: seq<bool>): nat {
    if keep == [] then 0 else (if keep[0] then 1 else 0) + CountWhere(keep[1..])
  }

  /** Each row's prevalence, cases over cases plus controls. */
  function Prevalences(cases: seq<real>, controls: seq<real>): (s: seq<real>)
    requires CaseControl(cases, controls)
    ensures |s| == |cases|
  {
    seq(|cases|, i requires 0 <= i < |cases| => cases[i] / (cases[i] + controls[i]))
  }

  /** The rows with the largest total (`ii` of line 626). */
  function AtMax(total: seq<real>): (m: seq<bool>)
    requires |total| > 0
    ensures |m| == |total| && CountWhere(m) > 0
  {
    var top := Max(total);
    var m := seq(|total|, i requires 0 <= i < |total| => total[i] == top);
    var k :| 0 <= k < |total| && total[k] == top;
    CountPositive(m, k);
    m
  }

  /** The mean prevalence of the rows with the largest total (P_max of line 627). */
  function MaxPrevalence(cases: seq<real>, controls: seq<real>): real
    requires CaseControl(cases, controls)
  {
    var atMax := AtMax(Totals(cases, controls));
    SumWhere(Prevalences(cases, controls), atMax) / CountWhere(atMax) as real
  }

  lemma {:induction false} CountPositive(keep: seq<bool>, k: nat)
    requires k < |keep| && keep[k]
    ensures CountWhere(keep) > 0
  {
    if k > 0 {
      CountPositive(keep[1..], k - 1);
    }
  }

  /**
   * `N * P / P_max` with N the total and P the prevalence of each row: the rescaled sample
   * size, or None when P_max is zero and the division gives no finite number.
   */
  function Rescaled(cases: seq<real>, controls: seq<real>): (r: Option<seq<real>>)
    requires CaseControl(cases, controls)
  {
    var pMax := MaxPrevalence(cases, controls);
    if pMax == 0.0 then None
    else
      var total := Totals(cases, controls);
      var prevalence := Prevalences(cases, controls);
      Some(seq(|cases|, i requires 0 <= i < |cases| => total[i] * prevalence[i] / pMax))
  }

  /** The rescale gives each row its number of cases divided by P_max. */
  lemma RescaledCases(cases: seq<real>, controls: seq<real>)
    requires CaseControl(cases, controls)
    ensures Rescaled(cases, controls).Some? <==> MaxPrevalence(cases, controls) != 0.0
    ensures Rescaled(cases, controls).Some? ==>
      forall i :: 0 <= i < |cases| ==> Rescaled(cases, controls).value[i] == cases[i] / MaxPrevalence(cases, controls)
  {
    var r := Rescaled(cases, controls);
    if r.Some? {
      var total := Totals(cases, controls);
      var prevalence := Prevalences(cases, controls);
      var pMax := MaxPrevalence(cases, controls);
      forall i | 0 <= i < |cases| ensures r.value[i] == cases[i] / pMax {
        var t, q, v := total[i], prevalence[i], r.value[i];
        assert v == t * q / pMax;
        assert q == cases[i] / t;
        Rescale(t, cases[i], q, pMax, v);
      }
    }
  }

  /** With the same prevalence on every row, P_max is that prevalence. */
  lemma UniformMaxPrevalence(cases: seq<real>, controls: seq<real>, p: real)
    requires CaseControl(cases, controls)
    requires forall i :: 0 <= i < |cases| ==> cases[i] == p * (cases[i] + controls[i])
    ensures MaxPrevalence(cases, controls) == p
  {
    var prevalence := Prevalences(cases, controls);
    forall i | 0 <= i < |cases| ensures prevalence[i] == p {
      Ratio(cases[i], cases[i] + controls[i], p);
    }
    var atMax := AtMax(Totals(cases, controls));
    SumConstant(prevalence, atMax, p);
    var k := CountWhere(atMax) as real;
    Ratio(p * k, k, p);
  }

  /** A frame in which every row has the same prevalence keeps its totals under the rescale. */
  lemma UniformPrevalenceKept(cases: seq<real>, controls: seq<real>, p: real)
    requires CaseControl(cases, controls)
    requires p > 0.0
    requires forall i :: 0 <= i < |cases| ==> cases[i] == p * (cases[i] + controls[i])
    ensures Rescaled(cases, controls).Some?
    ensures forall i :: 0 <= i < |cases| ==> Rescaled(cases, controls).value[i] == cases[i] + controls[i]
  {
    forall i | 0 <= i < |cases| ensures cases[i] / p == cases[i] + controls[i] {
      Divide(cases[i], p, cases[i] + controls[i]);
    }
    UniformMaxPrevalence(cases, controls, p);
    RescaledCases(cases, controls);
  }

  lemma Rescale(t: real, c: real, q: real, pMax: real, v: real)
    requires t != 0.0 && pMax != 0.0 && q == c / t && v == t * q / pMax
    ensures v == c / pMax
  {
    assert t * q == c;
  }

  lemma Divide(c: real, p: real, t: real)
    requires p != 0.0 && c == p * t
    ensures c / p == t
  {
  }

  lemma Ratio(c: real, t: real, p: real)
    requires t != 0.0 && c == p * t
    ensures c / t == p
  {
  }

  lemma {:induction false} SumConstant(s: seq<real>, keep: seq<bool>, p: real)
    requires |keep| == |s| && forall i :: 0 <= i < |s| ==> s[i] == p
    ensures SumWhere(s, keep) == p * CountWhere(keep) as real
  {
    if s != [] {
      SumConstant(s[1..], keep[1..], p);
    }
  }

  // ---------------------------------------------------------------------------------------
  // Lines 639-648.

  /**
   * The low-N block: with --n-min it reads the undefined `args.min_n`; otherwise it
   * computes a mask it never applies, so the frame is returned unchanged.
   */
  function LowN(t: Table, a: SampleArgs): (r: Result<Table, Error>)
    ensures r.Ok? ==> r.value == t
    ensures r.Err? <==> !a.noFilterN && a.n.None? && a.nCas.None? && Truthy(a.nMin)
  {
    if !a.noFilterN && a.n.None? && a.nCas.None? then
      if Truthy(a.nMin) then Err(MissingAttribute("min_n")) else Ok(t)
    else Ok(t)
  }

  // ---------------------------------------------------------------------------------------
  // Lines 650-652.

  /**
   * `dat.P = chi2.isf(dat.P, 1)` then the rename of P to CHISQ. `isf` is the inverse
   * survival function of the chi-square distribution with one degree of freedom.
   */
  function ToChiSquare(t: Table, isf: real -> real): (r: Table)
    ensures r.cols == t.cols - {P} + {CHISQ} && r.infoCols == t.infoCols && |r.rows| == |t.rows|
  {
    Table(t.cols - {P} + {CHISQ}, t.infoCols,
      seq(|t.rows|, i requires 0 <= i < |t.rows| =>
        t.rows[i].(p := None, chisq := if t.rows[i].p.Some? then Some(isf(t.rows[i].p.value)) else None)))
  }

  /**
   * Every row keeps its fields except that its p-value moves, through `isf`, to the chi-square
   * column; with a decreasing `isf` a smaller p-value gives a larger statistic.
   */
  lemma ChiSquareRows(t: Table, isf: real -> real)
    ensures forall i :: 0 <= i < |t.rows| ==>
      var r := ToChiSquare(t, isf).rows[i];
      && r.(p := t.rows[i].p, chisq := t.rows[i].chisq) == t.rows[i]
      && (r.chisq.Some? <==> t.rows[i].p.Some?)
      && (r.chisq.Some? ==> r.chisq.value == isf(t.rows[i].p.value))
    ensures (forall x, y :: x < y ==> isf(x) > isf(y)) ==>
      forall i, j ::
        (0 <= i < |t.rows| && 0 <= j < |t.rows| && t.rows[i].p.Some? && t.rows[j].p.Some? &&
         t.rows[i].p.value < t.rows[j].p.value) ==>
        ToChiSquare(t, isf).rows[i].chisq.value > ToChiSquare(t, isf).rows[j].chisq.value
  {
  }
}

=== FILE: seqs.dfy ===
/**
 * Sequence helpers for the list comprehensions and boolean masks the script uses:
 * `[x for x in s if p(x)]` is Filter, `frame[mask]` is Select, `mask.sum()` is Count.
 */
module Seqs {
  import opened Wrappers

  /** `[x for x in s if p(x)]`. */
  function Filter<T>(s: seq<T>, p: T -> bool): (r: seq<T>)
    ensures |r| <= |s|
    ensures forall x :: x in r ==> x in s && p(x)
  {
    if s == [] then [] else (if p(s[0]) then [s[0]] else []) + Filter(s[1..], p)
  }

  lemma {:induction false} FilterMember<T>(s: seq<T>, p: T -> bool, x: T)
    ensures x in Filter(s, p) <==> x in s && p(x)
  {
    if s != [] {
      FilterMember(s[1..], p, x);
      assert s == [s[0]] + s[1..];
    }
  }

  lemma {:induction false} FilterAppend<T>(a: seq<T>, b: seq<T>, p: T -> bool)
    ensures Filter(a + b, p) == Filter(a, p) + Filter(b, p)
  {
    if a == [] {
      assert a + b == b;
    } else {
      assert (a + b)[1..] == a[1..] + b;
      FilterAppend(a[1..], b, p);
    }
  }

  /** Nothing is kept exactly when no element satisfies the predicate. */
  lemma {:induction false} FilterEmpty<T>(s: seq<T>, p: T -> bool)
    ensures Filter(s, p) == [] <==> forall i :: 0 <= i < |s| ==> !p(s[i])
  {
    if s != [] {
      FilterEmpty(s[1..], p);
      assert forall i :: 0 < i < |s| ==> s[i] == s[1..][i - 1];
    }
  }

  /** `a` is an order-preserving subsequence of `b`. */
  predicate Subseq<T(==)>(a: seq<T>, b: seq<T>)
    decreases |b|
  {
    a == [] || (b != [] && ((a[0] == b[0] && Subseq(a[1..], b[1..])) || Subseq(a, b[1..])))
  }

  lemma {:induction false} SubseqRefl<T>(a: seq<T>)
    ensures Subseq(a, a)
  {
    if a != [] { SubseqRefl(a[1..]); }
  }

  lemma {:induction false} SubseqTrans<T>(a: seq<T>, b: seq<T>, c: seq<T>)
    requires Subseq(a, b) && Subseq(b, c)
    ensures Subseq(a, c)
    decreases |c|
  {
    if a != [] {
      if b[0] == c[0] && Subseq(b[1..], c[1..]) {
        if a[0] == b[0] && Subseq(a[1..], b[1..]) {
          SubseqTrans(a[1..], b[1..], c[1..]);
        } else {
          SubseqTrans(a, b[1..], c[1..]);
        }
      } else {
        SubseqTrans(a, b, c[1..]);
      }
    }
  }

  lemma {:induction false} SubseqMember<T>(a: seq<T>, b: seq<T>)
    requires Subseq(a, b)
    ensures |a| <= |b|
    ensures forall x :: x in a ==> x in b
    decreases |b|
  {
    if a != [] {
      if a[0] == b[0] && Subseq(a[1..], b[1..]) {
        SubseqMember(a[1..], b[1..]);
        assert a == [a[0]] + a[1..] && b == [b[0]] + b[1..];
      } else {
        SubseqMember(a, b[1..]);
        assert b == [b[0]] + b[1..];
      }
    }
  }

  lemma {:induction false} FilterSubseq<T>(s: seq<T>, p: T -> bool)
    ensures Subseq(Filter(s, p), s)
  {
    if s != [] {
      FilterSubseq(s[1..], p);
      var r := Filter(s, p);
      if p(s[0]) {
        assert r == [s[0]] + Filter(s[1..], p);
        assert r[0] == s[0] && r[1..] == Filter(s[1..], p);
      } else {
        assert r == Filter(s[1..], p);
      }
    }
  }

  /** `frame[mask]`: the elements whose mask entry is true, in order. */
  function Select<T>(s: seq<T>, mask: seq<bool>): (r: seq<T>)
    requires |mask| == |s|
    ensures |r| == Count(mask)
  {
    if s == [] then [] else (if mask[0] then [s[0]] else []) + Select(s[1..], mask[1..])
  }

  /** `mask.sum()`. */
  function Count(mask: seq<bool>): (n: nat)
    ensures n <= |mask|
  {
    if mask == [] then 0 else (if mask[0] then 1 else 0) + Count(mask[1..])
  }

  /** Narrowing a mask with `&` never raises its count. */
  lemma {:induction false} CountNarrows(wide: seq<bool>, narrow: seq<bool>)
    requires |wide| == |narrow|
    requires forall i :: 0 <= i < |narrow| && narrow[i] ==> wide[i]
    ensures Count(narrow) <= Count(wide)
  {
    if wide != [] { CountNarrows(wide[1..], narrow[1..]); }
  }

  /** Pairwise distinct elements. */
  predicate Distinct<T(==)>(s: seq<T>) {
    forall i, j :: 0 <= i < j < |s| ==> s[i] != s[j]
  }

  lemma {:induction false} FilterDistinct<T>(s: seq<T>, p: T -> bool)
    requires Distinct(s)
    ensures Distinct(Filter(s, p))
  {
    if s != [] {
      FilterDistinct(s[1..], p);
      if p(s[0]) {
        var r := Filter(s, p);
        assert r == [s[0]] + Filter(s[1..], p);
        forall j | 0 < j < |r| ensures r[0] != r[j] {
          assert r[j] in Filter(s[1..], p);
        }
      }
    }
  }

  /** The boolean Series `s.apply(p)`. */
  function Mask<T>(s: seq<T>, p: T -> bool): (m: seq<bool>)
    ensures |m| == |s| && forall i :: 0 <= i < |s| ==> m[i] == p(s[i])
  {
    seq(|s|, i requires 0 <= i < |s| => p(s[i]))
  }

  /** `a & b` on two aligned masks. */
  function And(a: seq<bool>, b: seq<bool>): (m: seq<bool>)
    requires |a| == |b|
    ensures |m| == |a| && forall i :: 0 <= i < |a| ==> m[i] == (a[i] && b[i])
  {
    seq(|a|, i requires 0 <= i < |a| => a[i] && b[i])
  }

  /** Indexing by the mask of `p` keeps exactly the elements satisfying `p`. */
  lemma {:induction false} SelectMask<T>(s: seq<T>, p: T -> bool)
    ensures Select(s, Mask(s, p)) == Filter(s, p)
    ensures Count(Mask(s, p)) == |Filter(s, p)|
  {
    if s != [] {
      SelectMask(s[1..], p);
      assert Mask(s, p)[1..] == Mask(s[1..], p);
    }
  }

  lemma {:induction false} SubseqDistinct<T>(a: seq<T>, b: seq<T>)
    requires Subseq(a, b) && Distinct(b)
    ensures Distinct(a)
    decreases |b|
  {
    if a != [] {
      if a[0] == b[0] && Subseq(a[1..], b[1..]) {
        SubseqDistinct(a[1..], b[1..]);
        SubseqMember(a[1..], b[1..]);
        forall j | 0 < j < |a| ensures a[0] != a[j] {
          assert a[j] == a[1..][j - 1];
          assert a[j] in b[1..];
          var k :| 0 <= k < |b[1..]| && b[1..][k] == a[j];
          assert b[k + 1] == a[j];
        }
        forall i, j | 0 <= i < j < |a| ensures a[i] != a[j] {
          if i > 0 { assert a[i] == a[1..][i - 1] && a[j] == a[1..][j - 1]; }
        }
      } else {
        SubseqDistinct(a, b[1..]);
      }
    }
  }

  /** `[f(x) for x in s]` where `f` may raise: the first failure, from the left, propagates. */
  function TryMap<A, B, E>(s: seq<A>, f: A -> Result<B, E>): Result<seq<B>, E> {
    if s == [] then Ok([])
    else match f(s[0])
      case Err(e) => Err(e)
      case Ok(b) =>
        match TryMap(s[1..], f)
        case Err(e) => Err(e)
        case Ok(rest) => Ok([b] + rest)
  }

  /** The comprehension fails exactly when some element fails. */
  lemma {:induction false} TryMapIff<A, B, E>(s: seq<A>, f: A -> Result<B, E>)
    ensures TryMap(s, f).Ok? <==> forall i :: 0 <= i < |s| ==> f(s[i]).Ok?
  {
    if s != [] {
      TryMapIff(s[1..], f);
      assert forall i :: 0 < i < |s| ==> s[i] == s[1..][i - 1];
    }
  }

  /** A successful comprehension holds, in order, the result of each element. */
  lemma {:induction false} TryMapValues<A, B, E>(s: seq<A>, f: A -> Result<B, E>)
    requires TryMap(s, f).Ok?
    ensures |TryMap(s, f).value| == |s|
    ensures forall i :: 0 <= i < |s| ==> f(s[i]).Ok? && TryMap(s, f).value[i] == f(s[i]).value
  {
    if s != [] {
      TryMapValues(s[1..], f);
      var rest := TryMap(s[1..], f).value;
      assert TryMap(s, f).value == [f(s[0]).value] + rest;
      assert forall i :: 0 < i < |s| ==> s[i] == s[1..][i - 1];
    }
  }
}

=== FILE: table.dfy ===
/**
 * The in-memory summary-statistics frame after its columns have been renamed to their
 * canonical names (sumstats_to_chisq2.py:559 and 588): one record per SNP, one field per
 * canonical column, plus the columns the script adds later (CHISQ, INC_ALLELE, DEC_ALLELE).
 * A field carries meaning only when its column is in the frame's column set; None is a
 * missing value (NaN, or the '.' placeholder of the input file).
 */
module Table {
  import opened Wrappers

  datatype Row = Row(
    snp: Option<string>,
    a1: Option<string>, a2: Option<string>,
    p: Option<real>, chisq: Option<real>,
    n: Option<real>, nCas: Option<real>, nCon: Option<real>,
    z: Option<real>, oddsRatio: Option<real>, beta: Option<real>, logOdds: Option<real>,
    signed: Option<real>,
    info: seq<Option<real>>,
    frq: Option<real>,
    inc: Option<string>, dec: Option<string>)

  /** The canonical column labels a frame can carry. */
  datatype Col =
    | SNP | P | A1 | A2 | N | N_CAS | N_CON | Z | OR | BETA | LOG_ODDS | SIGNED_SUMSTAT
    | INFO | FRQ | CHISQ | INC_ALLELE | DEC_ALLELE

  /** The label as the script spells it. */
  function Label(c: Col): string {
    match c
    case SNP => "SNP" case P => "P" case A1 => "A1" case A2 => "A2" case N => "N"
    case N_CAS => "N_CAS" case N_CON => "N_CON" case Z => "Z" case OR => "OR"
    case BETA => "BETA" case LOG_ODDS => "LOG_ODDS" case SIGNED_SUMSTAT => "SIGNED_SUMSTAT"
    case INFO => "INFO" case FRQ => "FRQ" case CHISQ => "CHISQ"
    case INC_ALLELE => "INC_ALLELE" case DEC_ALLELE => "DEC_ALLELE"
  }

  /** The column a label names, if it is one of the labels above. */
  function ColOf(name: string): (c: Option<Col>)
    ensures c.Some? ==> Label(c.value) == name
  {
    if name == "SNP" then Some(SNP) else if name == "P" then Some(P)
    else if name == "A1" then Some(A1) else if name == "A2" then Some(A2)
    else if name == "N" then Some(N) else if name == "N_CAS" then Some(N_CAS)
    else if name == "N_CON" then Some(N_CON) else if name == "Z" then Some(Z)
    else if name == "OR" then Some(OR) else if name == "BETA" then Some(BETA)
    else if name == "LOG_ODDS" then Some(LOG_ODDS)
    else if name == "SIGNED_SUMSTAT" then Some(SIGNED_SUMSTAT)
    else if name == "INFO" then Some(INFO) else if name == "FRQ" then Some(FRQ)
    else if name == "CHISQ" then Some(CHISQ) else if name == "INC_ALLELE" then Some(INC_ALLELE)
    else if name == "DEC_ALLELE" then Some(DEC_ALLELE)
    else None
  }

  /**
   * A frame: its column labels (the INFO label may stand for several columns) and its rows.
   * `infoCols` is the number of INFO columns.
   */
  datatype Table = Table(cols: set<Col>, infoCols: nat, rows: seq<Row>)

  /** A row in which every field is missing except the SNP identifier. */
  function EmptyRow(snp: Option<string>): (r: Row)
    ensures r.snp == snp && r.n.None? && r.chisq.None? && r.inc.None? && r.dec.None?
  {
    Row(snp, None, None, None, None, None, None, None, None, None, None, None, None, [], None, None, None)
  }

  /** Every row has one INFO entry per INFO column, and INFO is a label exactly when there is one. */
  predicate WellFormed(t: Table) {
    && (INFO in t.cols <==> t.infoCols > 0)
    && forall i :: 0 <= i < |t.rows| ==> |t.rows[i].info| == t.infoCols
  }

  /**
   * `dropna(how="any", subset=<every column but INFO>)` keeps the row: no column of the
   * frame other than INFO is missing.
   */
  predicate NoMissing(r: Row, cols: set<Col>) {
    && (SNP in cols ==> r.snp.Some?)
    && (A1 in cols ==> r.a1.Some?)
    && (A2 in cols ==> r.a2.Some?)
    && (P in cols ==> r.p.Some?)
    && (CHISQ in cols ==> r.chisq.Some?)
    && (N in cols ==> r.n.Some?)
    && (N_CAS in cols ==> r.nCas.Some?)
    && (N_CON in cols ==> r.nCon.Some?)
    && (Z in cols ==> r.z.Some?)
    && (OR in cols ==> r.oddsRatio.Some?)
    && (BETA in cols ==> r.beta.Some?)
    && (LOG_ODDS in cols ==> r.logOdds.Some?)
    && (SIGNED_SUMSTAT in cols ==> r.signed.Some?)
    && (FRQ in cols ==> r.frq.Some?)
    && (INC_ALLELE in cols ==> r.inc.Some?)
    && (DEC_ALLELE in cols ==> r.dec.Some?)
  }

  /** The SNP column of a list of rows. */
  function Snps(rows: seq<Row>): (s: seq<Option<string>>)
    ensures |s| == |rows| && forall i :: 0 <= i < |rows| ==> s[i] == rows[i].snp
  {
    seq(|rows|, i requires 0 <= i < |rows| => rows[i].snp)
  }
}

=== FILE: wrappers.dfy ===
/** Option and Result, the two failure-carrying wrappers the model uses. */
module Wrappers {

  /** A value that may be absent; a missing table cell (`.` in the input, NaN in the frame) is None. */
  datatype Option<+T> = None | Some(value: T)

  /** The outcome of a step that may raise. */
  datatype Result<+T, +E> = Ok(value: T) | Err(error: E)
}

/** The exceptions the conversion script raises, one constructor per kind of failure. */
module Errors {

  datatype Error =
    // a column-name flag names a column already claimed by an earlier flag
    | FlagOverloaded(flag: string)
    // a column-name flag names a column the synonym table gives another meaning
    | FlagProtected(flag: string, meaning: string)
    // --signed-sumstats is not of the form "name,null"
    | MalformedSignedSumstats
    // the null value of --signed-sumstats is not a number
    | BadNullValue
    // a column named by a flag is not in the header
    | FlagColumnNotFound
    // convert_colname found no entry in the synonym table (KeyError)
    | UnknownColumn(name: string)
    // a name the script uses but never defines (NameError)
    | UndefinedName(name: string)
    // an attribute the script reads does not exist (AttributeError)
    | MissingAttribute(name: string)
    // the required-column checks
    | NoSampleSizeColumn
    | NoPColumn
    | NoSignedColumn
    | NoSnpColumn
    | NoAlleleColumns
    // a canonical column other than INFO appears twice among the used columns
    | DuplicateColumn(name: string)
    // --merge and --merge-alleles given together
    | IncompatibleMerge
    // pandas.concat of an empty list of chunks
    | NothingToConcatenate
    // a filtering step left no SNPs
    | NoSnpsRemain
    // no sample size could be determined
    | NoSampleSize
    // an allele cell is missing where a string is needed
    | MissingAllele
    // every SNP had an allele outside A/C/G/T
    | NotACGT
    // an allele pair is not a key of the strand-ambiguity table (KeyError)
    | StrandKeyMissing(pair: string)
    // every remaining SNP was strand ambiguous
    | AllStrandAmbiguous
    // an allele quadruple is not a key of the allele-match table
    | AlleleMatchFailed
    // no SNP matched the --merge-alleles alleles
    | AllDiscordant
    // the alleles were required but A1/A2 are absent
    | MissingAlleleColumns
}
